=== FILE: README.md ===
# Gen 3 battle core in Dafny

A model of the core of a Python simulator for two-sided Pokémon battles under
Generation 3 rules. It covers five parts:

- the damage calculator (`gen3_damage_calc.py`): the type chart, type
  effectiveness, the integer initial-damage formula and the damage-range
  pipeline;
- the combatant (`battle_env/pokemon.py`): stat stages, the stat formula, HP,
  status, volatile conditions and move choice, as a class whose methods update
  its fields;
- move PP counters (`battle_env/move.py` and the older `move.py`) and the team
  roster with its active slot (`battle_env/team.py`);
- the capability interpreters (`battle_env/ability.py`, `battle_env/item.py`):
  one generic ability reads a per-hook metadata record and applies its effects
  to the battle state; the held item is inert;
- the two turn loops: the team battle (`battle_env/battle.py`) and the older
  two-combatant battle (`battle.py`).

Every random draw is a parameter: the accuracy draw, the position picked in the
damage range, the after-damage chance rolls and the freeze-thaw draw. Python
exceptions become `Fault` values (`Outcome`/`Result`). State changed before the
fault stays changed, as in the source.

Modules, one per source concern:

- `Damage`: the damage calculator.
- `PokemonState`: the combatant.
- `Moves` and `LegacyMoves`: the two move classes.
- `Teams`: the team roster.
- `Capability`: the metadata records, the registry and instantiation.
- `Arenas`: the battle fields the hooks see.
- `Abilities` and `Items`: the capability hooks.
- `TurnRules`: the pure rules of a turn.
- `Battles` and `LegacyBattles`: the two turn loops.
- `Wrappers` and `Faults`: result types and faults.

The ability, battle and Pokémon modules of the source import one another.
The model breaks that cycle in three ways:

- The battle fields that the hooks read and write live in an `Arena` object.
- A capability is a value: its name plus its metadata. It sits in a Pokémon's
  slot, either still an identifier (`Uninstantiated`) or bound to its owner
  (`Instantiated`).
- Each hook takes the arena and its owner explicitly.

A ghost trace `hooks` records every hook call, so the contracts can state the
order in which the loops fire them.

Some behaviour of the source is reproduced as written:

- `on_before_move` is asked only of the attacker's ability, while the type
  immunity needs its owner to be the defender. The immunity therefore never
  cancels a move in either loop, and `LegacyBattles.LegacyBattle.BeforeMove`
  states that it always proceeds.
- `on_try_hit` runs the attacker's ability and puts an absorbed move's
  volatile on the defender.
- The redirect hook is asked of the defender about itself, so it can only
  ever return the defender.
- The Hustle-style accuracy multiplier rewrites the accuracy of the shared
  move object.
- PP is spent before a switch ends the turn early.
- Status moves deal damage like any other move.
- A switch-in whose ability or item is still an identifier faults: only the
  two initial actives are ever bound.
- In the team battle a move index is read a second time from the moveset
  (`battle_env/battle.py:108`). An empty moveset therefore faults there, and
  the Struggle that `choose_move` returned is never used.
- Intimidate-style drops hit the opponent of the new active as the arena
  last recorded it (`battle_env/battle.py:54-55`): the recorded p2 when the
  new active is the recorded p1, and the recorded p1 otherwise. The actives
  are refreshed only after both switches, so during the switches the arena
  still records the actives from the start of the turn. `Team.switch`
  (`battle_env/team.py:25-30`) accepts the slot that is already active, so
  there are three cases:
  - side 1 switches to another member: the new active is not the recorded
    p1, so the drop hits the recorded p1, which is side 1's own outgoing
    member;
  - side 1 switches to its current slot: the new active is the recorded p1,
    so the drop hits the recorded p2, side 2's active from the start of the
    turn;
  - side 2 switches, to any slot: its new active is never the recorded p1,
    so the drop hits the recorded p1, side 1's active from the start of the
    turn.
- Both turn loops order the two actions by assigning a flat four-entry tuple
  to two names (`battle_env/battle.py:115-126`, `battle.py:60-71`), which
  Python rejects. No turn in which both sides move gets past the ordering;
  see "## Findings". The rest of the model runs the intended ordering.

## Model

| member | source | states |
|---|---|---|
| Damage.GetTypeEffectiveness | gen3_damage_calc.py:24-39 | an empty or `???` move type gives exactly 1.0; otherwise the result is the product of the move type's chart factors over the defender's types (`Effectiveness`) |
| Damage.AccumulateFactors | gen3_damage_calc.py:32-39 | the loop's running product equals the chart-row product over the defender types, a missing entry counting 1.0 |
| Damage.FactorValues | gen3_damage_calc.py:4-22 | every chart factor, with the missing-entry default, is one of 0, 1/2, 1 and 2 |
| Damage.ProductClosedForm | gen3_damage_calc.py:32-39 | the product is 0 when some defender type is immune, otherwise 2 raised to the summed exponents of the factors |
| Damage.EffectivenessZeroIff | gen3_damage_calc.py:35-37 | effectiveness is 0 exactly when the move has a type and some defender type has a 0 entry in its row |
| Damage.EffectivenessPermutation | gen3_damage_calc.py:35-37 | reordering the defender's types (any permutation) does not change the effectiveness |
| Damage.EmptyRowNeutral | gen3_damage_calc.py:33-36 | with an empty chart row every defender type counts 1, so the product is 1 |
| Damage.UnknownAttackTypeNeutral | gen3_damage_calc.py:33 | an attack type missing from the chart has effectiveness 1 against any defender |
| Damage.TwoTypes | gen3_damage_calc.py:35-37 | against two types, the effectiveness is the product of the two chart factors |
| Damage.NormalGhostImmunity | gen3_damage_calc.py:5-18 | Normal moves have effectiveness 0 exactly against a defender with the Ghost type, and Ghost moves exactly against one with the Normal type |
| Damage.InitialDamage | gen3_damage_calc.py:41-53 | zero attack or zero power gives 0 |
| Damage.InitialDamageSingleDivision | gen3_damage_calc.py:48-51 | the two floored divisions equal one division: `(2L div 5 + 2)·P·A div (D·50)` |
| Damage.InitialDamageMonotoneInAttack | gen3_damage_calc.py:45-53 | a higher attack stat never gives less initial damage |
| Damage.InitialDamageExample | gen3_damage_calc.py:41-53 | level 100, power 80, attack 100, defense 100 gives 67 |
| Damage.OffsetDamage | gen3_damage_calc.py:67-75 | a burned attacker with a physical move and an ability other than Guts has its damage halved (floored); the value is then raised to at least 1 and 2 is added, so the result is at least 3 |
| Damage.WeatherFactor | gen3_damage_calc.py:80-84 | the factor is 1.5 exactly for sun with Fire or rain with Water, 0.5 exactly for sun with Water or rain with Fire, and 1 otherwise |
| Damage.RollMonotone | gen3_damage_calc.py:101-103 | for a non-negative base a higher roll never gives less damage; for a negative base every roll yields 1 |
| Damage.RollExtremes | gen3_damage_calc.py:98-106 | over the 39 rolls 217..255 the smallest is `max(1, b·217 div 255)` and the largest is `max(1, b)` |
| Damage.BurnAndOffset | gen3_damage_calc.py:67-75 | the burn, floor and +2 steps computed in sequence equal `OffsetDamage` |
| Damage.MultiplierChain | gen3_damage_calc.py:78-95 | the multiplier built step by step (weather, crit, STAB, effectiveness) equals the product `Modifier` |
| Damage.RollSweep | gen3_damage_calc.py:97-106 | the loop over the rolls yields `max(1, b·217 div 255)` and `max(1, b)`, with 1 ≤ low ≤ high |
| Damage.GetDamageRange | gen3_damage_calc.py:56-106 | zero effectiveness gives (0, 0) whatever the other inputs; otherwise low is `max(1, b·217 div 255)` and high is `max(1, b)` for the floored base damage b, with 1 ≤ low ≤ high |
| PokemonState.StageMultiplier | battle_env/pokemon.py:4-16 | every stage multiplier is positive |
| PokemonState.StageMultiplierAnchors | battle_env/pokemon.py:4-16 | stage 0 gives 1 in both tables; the stat table gives 4 at +6 and 1/4 at −6; the accuracy table gives 3 at +6 and 1/3 at −6 |
| PokemonState.StageMultiplierInverse | battle_env/pokemon.py:4-16 | the multiplier of −s is the reciprocal of the multiplier of s |
| PokemonState.StageRatio | battle_env/pokemon.py:4-16 | within [−6, 6] the multiplier is a fraction of naturals with a positive denominator |
| PokemonState.StagedStat | battle_env/pokemon.py:78-83 | the staged stat is the floor of value × multiplier; a value of at least 4 stays at least 1 |
| PokemonState.StagedStatExact | battle_env/pokemon.py:83 | the floor of value × multiplier equals integer arithmetic: value·numerator div denominator |
| PokemonState.StatValueBounds | battle_env/pokemon.py:66-76 | HP is at least level + 10 and other stats at least 5; a higher base stat never gives a lower stat |
| PokemonState.StatValueLevel100 | battle_env/pokemon.py:73-75 | at level 100 with IV 31 and EV 0, HP is 2·base + 141 and other stats are 2·base + 36 |
| PokemonState.StatValue | battle_env/pokemon.py:73-75 | HP is at least level + 10 and every other stat at least 5 |
| PokemonState.CalcActualStats | battle_env/pokemon.py:66-76 | the loop yields exactly the base-stat keys, each mapped to the stat formula with a missing IV or EV read as 0 |
| PokemonState.ClampStage | battle_env/pokemon.py:112 | the result lies in [−6, 6]; it is the stage itself when in range, 6 above it and −6 below it |
| PokemonState.Pokemon.constructor | battle_env/pokemon.py:23-64 | IVs default to 31 and EVs to 0; stats follow the formula; HP is full; all seven stages are 0; no status, both counters 0, no volatiles; ability and item are still identifiers |
| PokemonState.Pokemon.ModifiedStat | battle_env/pokemon.py:78-83 | the stat times its stage multiplier (accuracy table for accuracy and evasion), floored; at least 1 for a battle stat |
| PokemonState.Pokemon.ApplyDamage | battle_env/pokemon.py:85-88 | HP becomes max(0, HP − amount) and is returned; the Pokémon has fainted afterwards exactly when the amount was at least its HP; the invariant holds for a non-negative amount |
| PokemonState.Pokemon.IsFainted | battle_env/pokemon.py:90-92 | for a valid Pokémon, fainted means no HP left |
| PokemonState.Pokemon.SetStatus | battle_env/pokemon.py:94-102 | with a status already present it fails and changes nothing; otherwise the status is set, `tox` sets the toxic counter to 1 and `slp` sets the sleep counter to 2 |
| PokemonState.Pokemon.HealStatus | battle_env/pokemon.py:104-108 | no status and both counters 0 afterwards, whatever the state before, so a second call changes nothing |
| PokemonState.Pokemon.ChangeStage | battle_env/pokemon.py:110-113 | only that stat's stage changes, to old + delta clamped into [−6, 6] |
| PokemonState.Pokemon.ChooseMove | battle_env/pokemon.py:115-128 | an empty moveset yields Struggle; an index out of range faults; otherwise it returns `moves[index]` with one PP spent if any was left, and no other field of the move changes |
| PokemonState.Pokemon.AddVolatile | battle_env/pokemon.py:131-136 | the volatile map gains (or replaces) that entry with its source and duration |
| PokemonState.Pokemon.RemoveVolatile | battle_env/pokemon.py:138-139 | the key is removed; an absent key is no error |
| PokemonState.Pokemon.Heal | battle_env/pokemon.py:142-144 | HP becomes min(max HP, HP + amount) and is returned, so 0 ≤ HP ≤ max holds for a non-negative amount |
| PokemonState.Pokemon.TrySetStatus | battle_env/pokemon.py:146-150 | returns false and changes nothing when a status is present; otherwise sets it as `SetStatus` does and returns true |
| Moves.Move.constructor | battle_env/move.py:10-30 | fields as given, priority defaults to 0 and max PP to 1, current PP starts at max PP, no id |
| Moves.Move.UsePp | battle_env/move.py:32-36 | positive PP drops by exactly 1; at 0 or below it fails and nothing changes; no other field changes, so 0 ≤ PP ≤ max is kept |
| LegacyMoves.Move.constructor | move.py:5-22 | fields as given, current PP starts at max PP |
| LegacyMoves.Move.UsePp | move.py:24-28 | positive PP drops by exactly 1; at 0 or below it fails and nothing changes; 0 ≤ PP ≤ max is kept |
| Teams.Team.constructor | battle_env/team.py:7-20 | a new team has active slot 0 and empty hazard and screen maps; a non-empty roster is valid |
| Teams.Team.Active | battle_env/team.py:13-14 | the active Pokémon is a member of the roster |
| Teams.Team.Switch | battle_env/team.py:25-30 | an index out of range or a fainted member faults and leaves the active slot alone; otherwise the slot becomes the index and the new active is not fainted |
| Teams.Team.ClearHazards | battle_env/team.py:32-33 | the hazards are empty afterwards and the screens are untouched |
| Teams.AllFaintedMeaning | battle_env/team.py:22-23 | all-fainted holds exactly when every member has 0 HP, and holds for an empty roster |
| Teams.Team.AllFainted | battle_env/team.py:22-23 | when every member has fainted, so has the active one |
| Capability.LoadRegistry | battle_env/item.py:16-21 | one registry entry per key, carrying that key as class name and its row as metadata |
| Capability.InstantiateAbility | battle_env/ability.py:35-37 | a registered identifier yields its row, named by the row's name or else the key; an unknown or missing identifier yields empty metadata under the raw identifier |
| Capability.InstantiateItem | battle_env/item.py:28-30 | the same lookup and fallback for held items |
| Capability.LoadThenInstantiate | battle_env/ability.py:17-21 | instantiating a loaded key gives the row's own data, named by its name field or else by the key |
| Arenas.RandomChance | battle_env/battle.py:51-52 | with the draw in [0, denominator) the chance succeeds exactly when draw < numerator; it always succeeds when numerator ≥ denominator and never when numerator ≤ 0 |
| Arenas.Arena.constructor | battle_env/battle.py:22-29 | the given actives and weather, no weather countdown, turn 0, empty log |
| Arenas.Arena.Opponent | battle_env/battle.py:54-55 | the single opponent is p2 exactly for p1, and p1 for anyone else |
| Arenas.Arena.Log | battle_env/battle.py:47-48 | the event is appended to the log |
| Abilities.AbilityOnStart | battle_env/ability.py:39-52 | the silent flag logs silently; the trap flag traps the opponent (and nobody else) and logs it; the Truant flag sets the Truant turn to false |
| Abilities.SwitchInWeather | battle_env/ability.py:57-61 | a weather entry sets the weather and its turns (default 5) and logs it; without one the weather and the log are unchanged |
| Abilities.SwitchInAttackDrop | battle_env/ability.py:63-78 | the opponent's attack stage drops by the amount, clamped, unless the substitute guard is on and the opponent has a substitute; the other stages are untouched; the drop is logged when it applies |
| Abilities.AbilityOnSwitchIn | battle_env/ability.py:54-78 | the weather effect and then the attack-drop effect, as in the two members above, with the log entries in that order |
| Abilities.AbilityOnBeforeMove | battle_env/ability.py:80-92 | false exactly when the immune type matches the move and the owner defends, and then it is logged; the owner's own moves of the listed types get accuracy·num div den, written into the move |
| Abilities.AbilityOnTryHit | battle_env/ability.py:94-106 | cancels exactly when the type matches, the id is not exempt and a volatile is named; then the volatile goes on the target with the source, and it is logged; otherwise nothing changes |
| Abilities.AbilityFoeRedirect | battle_env/ability.py:108-114 | returns the owner exactly when the redirect type matches and target ≠ source; otherwise none |
| Abilities.AbilityOnFoeTrapPokemon | battle_env/ability.py:116-120 | the Pokémon becomes trapped exactly when the flag is set and it is not the owner, and exactly then the log gains the trap message; the owner itself is never trapped |
| Abilities.ContactChanceEffects | battle_env/ability.py:126-133 | the attacker gains the named volatile, which is logged, and the named status when it has none; an inflicted `tox` sets the toxic counter to 1 and `slp` the sleep counter to 2, and otherwise both counters stay |
| Abilities.ContactRecoil | battle_env/ability.py:135-139 | the attacker loses max HP div the recoil fraction, or 0 when a status is to be inflicted, never below 0 HP; the recoil is logged |
| Abilities.AbilityOnAfterDamage | battle_env/ability.py:122-139 | nothing happens unless the move makes contact, the owner defends and damage > 0; then a successful roll adds the volatile and tries the status (setting the toxic or sleep counter as `SetStatus` does, the counters staying otherwise), and a recoil fraction takes its HP share; the log gains the volatile message and then the recoil message, each only when it applies (`AfterDamageDone`) |
| Abilities.AbilityOnEndOfTurn | battle_env/ability.py:141-150 | heals max HP div the fraction, capped at max, only in a listed weather, and logs the recovery; the Truant toggle flips the Truant turn, and faults when it was never set; the weather is untouched (`EndOfTurnDone`) |
| Items.Bind | battle_env/item.py:28-29 | a bound capability belongs to the owner it was constructed for |
| Items.BindItem | battle_env/battle.py:37-40 | a registered identifier yields its row bound to the owner; otherwise the empty-metadata item is bound |
| Items.ItemOnStart | battle_env/item.py:33-34 | no battle state changes; only the call is recorded |
| Items.ItemOnSwitchIn | battle_env/item.py:36-37 | no battle state changes; only the call is recorded |
| Items.ItemOnBeforeMove | battle_env/item.py:39-40 | the move always proceeds, and no battle state changes |
| Items.ItemOnAfterDamage | battle_env/item.py:42-43 | no battle state changes; only the call is recorded |
| Items.ItemOnEndOfTurn | battle_env/item.py:45-46 | no battle state changes; only the call is recorded |
| Items.PriorityBonus | battle_env/battle.py:112-113 | the bonus an item adds to priority is 0 |
| Items.ModifyDamage | battle_env/battle.py:192-193 | an item leaves the damage unchanged |
| TurnRules.PriorityDominates | battle_env/battle.py:114-115 | higher priority acts first regardless of speed |
| TurnRules.OrderSwap | battle_env/battle.py:114-126 | the two sides never both go first; neither goes first exactly on equal priority and equal effective speed, and then p2 acts first |
| TurnRules.SpeedMonotone | battle_env/battle.py:117-126 | at equal priority, more speed never loses p1 its first place, and curing paralysis never does either |
| TurnRules.EffectiveSpeed | battle_env/battle.py:121-124 | paralysis quarters a non-negative speed, rounding down; otherwise the speed is unchanged |
| TurnRules.P1MovesFirst | battle_env/battle.py:114-126 | p1 never goes first with lower priority, and at equal priority a speed tie or a slower p1 lets p2 go first |
| TurnRules.TupleAsWritten | battle_env/battle.py:115-126 | the tuple the loops build has four entries, led by the side that goes first |
| TurnRules.UnpackPair | battle_env/battle.py:115 | unpacking into two names succeeds exactly on two entries, giving them in order; any other length raises the unpacking fault with the expected and actual lengths |
| TurnRules.IntendedOrder | battle_env/battle.py:129 | the intended ordering is two actions, each a side with its own move against the other side, the side that goes first leading |
| TurnRules.OrderUnpacking | battle_env/battle.py:115-129 | the four-entry tuple never unpacks, whichever side goes first; the intended pair always unpacks into one action per side, in order |
| TurnRules.EqualStagesCancel | battle_env/battle.py:153-159 | equal accuracy and evasion stages leave the accuracy unchanged, so a 100-accuracy move never misses |
| TurnRules.LowerDrawHits | battle_env/battle.py:159 | if a draw hits, every lower draw hits too |
| TurnRules.Misses | battle_env/battle.py:153-159 | a draw of 0 or below never misses a move of non-negative accuracy |
| TurnRules.DamagePick | battle_env/battle.py:191 | the picked damage lies in [low, high], and it is low + k when k fits in the range |
| TurnRules.ScreenedDamage | battle_env/battle.py:195-199 | Reflect halves physical damage and Light Screen halves special damage (floored); otherwise unchanged; never negative for non-negative damage |
| TurnRules.SpikesDamage | battle_env/battle.py:81-83 | Spikes deal at least 1 and, for at most 8 layers, at most the max HP |
| TurnRules.BurnDamage | battle_env/battle.py:220-221 | burn deals at least 1 |
| TurnRules.PoisonDamage | battle_env/battle.py:224-225 | poison deals at least 1 |
| TurnRules.ToxicDamage | battle_env/battle.py:228-230 | toxic deals at least 1 |
| TurnRules.ToxicFirstTicks | battle_env/battle.py:220-230 | toxic's first tick equals burn damage and its second equals poison damage |
| TurnRules.ToxicEscalates | battle_env/battle.py:228-230 | a higher toxic counter never deals less |
| TurnRules.DecayWeather | battle_env/battle.py:245-249 | a positive countdown drops by 1 and clears the weather on reaching 0; a countdown of 0 leaves everything as it was |
| TurnRules.WeatherLastsExactly | battle_env/battle.py:245-249 | weather set for n turns is still there after k < n steps, with n − k left, and gone after n steps |
| TurnRules.NoWeatherStays | battle_env/battle.py:245-249 | with no weather and no countdown, any number of steps changes nothing |
| TurnRules.PermanentWeather | battle_env/battle.py:245-246 | a weather with countdown 0 stays forever |
| TurnRules.DecayedVolatiles | battle_env/battle.py:69-75 | a volatile without duration is kept as it is; one with duration above 1 is kept with one less; one at 1 or below is removed; no key is added |
| TurnRules.VolatileLastsExactly | battle_env/battle.py:69-75 | a volatile of duration n is still present with duration 1 after n − 1 turn starts and gone after n |
| Battles.CategoryStat | battle_env/battle.py:164-165 | the physical stat for a physical move and the special one otherwise (attack/special attack for the attacker, defense/special defense for the target), staged; at least 1 |
| Battles.DamageRange | battle_env/battle.py:163-190 | low ≤ high, and high is 0 exactly when the move's effectiveness against the target is 0 |
| Battles.ReportFaint | battle_env/battle.py:209-210 | "fainted" is logged exactly when the target's HP is 0 |
| Battles.WeatherStep | battle_env/battle.py:244-249 | the weather follows `DecayWeather`, and its end is logged exactly when the countdown goes from 1 to 0 |
| Battles.Residual | battle_env/battle.py:219-242 | burn and poison take their share; toxic first advances its counter; sleep counts down and wakes at 0; freeze thaws exactly on a draw below 0.2; any other status changes nothing |
| Battles.DecrementVolatiles | battle_env/battle.py:68-75 | the key-by-key loop leaves exactly `DecayedVolatiles` of the old map |
| Battles.BindActives | battle_env/battle.py:31-40 | each active's ability and item identifier is looked up and bound to it, and every member stays fit to battle |
| Battles.Battle.constructor | battle_env/battle.py:16-40 | the teams' actives become p1 and p2 with abilities and items bound; turn 0, no countdown, empty log |
| Battles.Battle.UpdateActives | battle_env/battle.py:42-45 | the battle's actives are the teams' actives again |
| Battles.Battle.Start | battle_env/battle.py:57-63 | turn 1, then `on_start` of p1's ability, p2's ability, p1's item and p2's item in that order; it faults exactly when one of them is still an identifier; on success each ability's start message is logged in that order, each side is trapped when the other's ability traps, and a Truant ability sets its own Truant turn to false |
| Battles.Battle.StartAbility | battle_env/battle.py:60-61 | the hook fires for a bound ability with the trap, Truant and log effects of `AbilityOnStart` (`StartDone`); an unbound one faults without a call |
| Battles.Battle.StartItem | battle_env/battle.py:62-63 | the hook fires for a bound item; an unbound one faults without a call |
| Battles.Battle.SwitchIn | battle_env/battle.py:76-85 | a bad index or a fainted member faults; a completed switch moves the active slot to the index, fires the new active's ability and item switch-in hooks, and takes the Spikes share of its HP; it leaves what `Arrived` states: the ability's switch-in weather and attack drop on the opponent, that hook's messages, then the Spikes message |
| Battles.Battle.SwitchInAbility | battle_env/battle.py:78 | the switch-in hook of the new active's ability fires with the weather and attack-drop effects of `AbilityOnSwitchIn` (`SwitchInDone`), or it faults if the ability is unbound |
| Battles.Battle.SwitchInItem | battle_env/battle.py:79 | the switch-in hook of the new active's item fires, or it faults if the item is unbound |
| Battles.Battle.SwitchInHooks | battle_env/battle.py:78-79 | the ability's then the item's switch-in hook fire, with the weather and attack-drop effects and messages of `AbilityOnSwitchIn` (`SwitchInDone`); it succeeds exactly when both are bound |
| Battles.Battle.Spikes | battle_env/battle.py:80-85 | with Spikes on the team's side the new active loses `max(1, maxHP·layers div 8)`, never below 0, and it is logged; without them nothing changes |
| Battles.Battle.Arrive | battle_env/battle.py:78-85 | the new active's ability and item switch-in hooks fire, then the Spikes share of its HP comes off; the switch-in weather and attack drop, their messages and the Spikes message are as `Arrived` states |
| Battles.Battle.PickMove | battle_env/battle.py:87 | it succeeds exactly on a valid index or an empty moveset, and otherwise faults with the bad-index fault; a valid index spends one PP of that move if it has any, leaves its accuracy and identifier as they were, and changes no other object |
| Battles.Battle.DefendingTeam | battle_env/battle.py:195 | the defending team is one of the two, and team 2 whenever the defender is not team 1's active |
| Battles.Battle.RollDamage | battle_env/battle.py:163-199 | the damage is the pick in the calculated range, passed through both items and then the defending team's screens; never negative; the battle stays valid |
| Battles.Battle.Hit | battle_env/battle.py:200-201 | the target's HP drops by the damage, never below 0, and the hit is logged |
| Battles.Battle.AfterDamageAbility | battle_env/battle.py:204-205 | one after-damage ability hook fires with the volatile, status, counter, recoil and log effects of `AbilityOnAfterDamage` (`AfterDamageDone`) |
| Battles.Battle.AfterDamageItem | battle_env/battle.py:206-207 | one after-damage item hook fires and the battle stays valid |
| Battles.Battle.Strike | battle_env/battle.py:163-210 | it faults exactly when the defender's item is unbound; otherwise the damage is the roll of `RollDamage` in the state before the hit, the log gains the hit, the two abilities' after-damage messages and the faint report, the four after-damage hooks fire in source order, and a target other than the attacker loses the damage, never below 0, while the attacker bears the defender's after-damage effects (`AfterDamageEffects`) |
| Battles.Battle.Land | battle_env/battle.py:200-210 | for the rolled damage: the log gains the hit, both abilities' after-damage messages and the faint report; the four hooks fire in source order; a target other than the attacker loses the damage, never below 0, and the attacker bears the defender's after-damage effects (`AfterDamageEffects`) |
| Battles.Battle.FaintCheck | battle_env/battle.py:209-210 | "fainted" is logged exactly when the target's HP is 0 |
| Battles.Battle.AfterDamageHooks | battle_env/battle.py:203-207 | the four after-damage hooks fire in source order, the log gains the attacker's ability messages and then the defender's, and for a target other than the attacker the attacker bears the defender's after-damage effects (`AfterDamageEffects`) |
| Battles.Battle.ExecuteAction | battle_env/battle.py:129-136 | a fainted attacker or defender skips the action with nothing changed; a flinched attacker loses the flinch, which is logged, and the action; otherwise an unbound attacker ability faults and a type immunity cancels the move with its message |
| Battles.Battle.Attempt | battle_env/battle.py:138-161 | an unbound attacker ability faults; a type immunity cancels the move with its message; an absorbed move is cancelled with the absorb message |
| Battles.Battle.Gates | battle_env/battle.py:138-147 | the ability's `on_before_move`, then the item's, then the ability's `on_try_hit`; the move proceeds exactly when neither the immunity nor the absorb applies; an absorb puts its volatile on the defender; the accuracy is rescaled when the multiplier applies; each cancellation is logged; an unbound ability or item faults |
| Battles.Battle.EndOfTurnHooks | battle_env/battle.py:212-216 | on success the four end-of-turn hooks fire in source order and the log gains p1's recovery message and then p2's; each active's HP becomes `RecoveredHp` of its ability's end-of-turn data and its Truant turn follows `TruantToggle`; a Truant fault on p1 is the result and leaves p2's HP and Truant turn alone; the weather and its countdown are untouched |
| Battles.Battle.EndAbility | battle_env/battle.py:213-214 | the end-of-turn hook of a bound ability fires with the heal, the Truant toggle (and its fault) and the log of `AbilityOnEndOfTurn` (`EndOfTurnDone`); an unbound one faults without a call |
| Battles.Battle.EndItem | battle_env/battle.py:215-216 | the end-of-turn hook of a bound item fires; an unbound one faults without a call |
| Battles.Battle.ResidualPhase | battle_env/battle.py:218-242 | residual damage for p1 then p2 keeps the battle valid |
| Battles.Battle.ResidualOn | battle_env/battle.py:219-242 | residual damage for one active follows `Residual`'s per-status equations and messages (`ResidualDone`) |
| Battles.Battle.VolatilePhase | battle_env/battle.py:68-75 | both actives' volatiles become `DecayedVolatiles` of their old maps |
| Battles.Battle.PlayTurn | battle_env/battle.py:65-251 | a switch by either side ends the turn after the switches, as `SwitchTurnDone` states: the choices of `ChoicesMade` (each switched side's new slot, switch-in hooks and Spikes share of HP, "a switch occurred" logged last) and a side that chose a move keeping its active with its HP, status and counters; the counter is untouched and the only new hook calls are the switch-ins; the actives are the teams' actives. With two moves, under the intended ordering (the source as written raises, see `PlayTurnAsWritten`), the counter grows by 1 and the weather follows `DecayWeather` |
| Battles.Battle.PlayTurnAsWritten | battle_env/battle.py:65-126 | as written, no turn in which both sides move succeeds; a turn that succeeds is a switch turn, with "a switch occurred" logged last |
| Battles.Battle.MoveTurn | battle_env/battle.py:65-251 | a turn in which both sides move: under the intended ordering, the actives are the teams' actives, the counter grows by 1 and the weather follows `DecayWeather` |
| Battles.Battle.OrderAsWritten | battle_env/battle.py:108-126 | as written, the ordering always faults: a missing first move as in `MovePhase`, and with both moves present and both items bound the four-entry unpacking fault |
| Battles.Battle.SwitchTurn | battle_env/battle.py:67-106 | as `SwitchTurnDone` states: the choices of `ChoicesMade`, with "a switch occurred" logged last and each switched side's Spikes share of HP, and a side that chose a move keeping its active with its HP, status and counters (`Unhurt`); the counter is untouched and the only new hook calls are the switch-ins |
| Battles.Battle.BeginTurn | battle_env/battle.py:67-103 | the old actives' volatiles count down; then, as `ChoicesMade` states, the switched slots take their indexes with the switch-in hooks and the Spikes damage, a side that chose a move keeps its active and its HP, and the actives are refreshed; with two moves the weather is untouched; no status or counter changes |
| Battles.Battle.Choices | battle_env/battle.py:76-105 | each side switches or picks its move, p1 first, then the actives are refreshed and a switch is noted, with the outcome `ChoicesMade` states: the switched slots with their switch-in hooks and Spikes share of HP, a side that chose a move keeping its active and HP, the weather kept when neither switched, and "a switch occurred" as the last log entry after a switch |
| Battles.Battle.FirstChoice | battle_env/battle.py:76-87 | side 1's switch (its slot, switch-in hooks and Spikes share of HP) or its move choice (slot, HP and weather unchanged) |
| Battles.Battle.SecondChoice | battle_env/battle.py:89-105 | side 2's switch or move choice as for side 1, then the actives are refreshed, and after a switch by either side "a switch occurred" is the last log entry |
| Battles.Battle.NoteSwitch | battle_env/battle.py:104-105 | the log gains "a switch occurred" and nothing else |
| Battles.Battle.FinishTurn | battle_env/battle.py:128-251 | under the intended ordering (the source as written never reaches these lines), the counter grows by 1 and the weather follows `DecayWeather` |
| Battles.Battle.CloseTurn | battle_env/battle.py:212-251 | after the end-of-turn hooks and the residuals, the counter grows by 1 and the weather follows `DecayWeather` |
| Battles.Battle.NextTurn | battle_env/battle.py:244-251 | the weather follows `DecayWeather` and the counter grows by 1 |
| Battles.Battle.BeginAction | battle_env/battle.py:76-100 | a move choice leaves the active slot, the arena and the team's HP unchanged, spends one PP of the chosen move and faults exactly on a bad index; a successful switch moves the slot, fires the switch-in hooks, takes the Spikes damage and leaves what `Arrived` states (the ability's switch-in weather and attack drop, their messages, the Spikes message) |
| Battles.Battle.MovePhase | battle_env/battle.py:108-129 | the intended ordering (the source as written raises, see `OrderAsWritten`), taken from `Order`: a move index outside p1's moveset faults, because the move is read a second time from the moveset |
| Battles.Battle.Order | battle_env/battle.py:112-126 | the intended ordering: p1 with its move acts first against p2 exactly when `P1MovesFirst` holds for the priorities with the items' bonus and the staged, paralysis-quartered speeds; otherwise p2 with its move leads |
| TurnRules.Spent | battle.py:54-55 | one `use_pp` inside `choose_move`: PP drops by 1 when positive and otherwise stays |
| LegacyBattles.BindAbilities | battle.py:27-31 | each ability identifier is looked up and bound to its holder, and both stay fit to battle |
| LegacyBattles.LegacyBattle.constructor | battle.py:14-31 | turn 0, no countdown, empty log, both abilities bound |
| LegacyBattles.LegacyBattle.Start | battle.py:43-47 | turn 1, then `on_start` of p1's ability and then of p2's; their start messages are logged in that order, each side is trapped when the other's ability traps, and a Truant ability sets its own Truant turn to false |
| LegacyBattles.LegacyBattle.StartAbility | battle.py:46-47 | one start hook fires with the trap, Truant and log effects of `AbilityOnStart` (`StartDone`) |
| LegacyBattles.LegacyBattle.PlayTurn | battle.py:49-151 | a bad move index faults, p1's first; each chosen move spends one PP, two if both sides picked the same move object; a missing Struggle faults; under the intended ordering (the source as written raises, see `PlayTurnAsWritten`) a completed turn increments the counter by 1 and decays the weather |
| LegacyBattles.LegacyBattle.PlayTurnAsWritten | battle.py:49-71 | as written, no turn succeeds: after valid choices the ordering raises the four-entry unpacking fault; a bad p1 index faults first; p1's chosen move spends one PP, and p2's spends one, or two when both sides picked the same move object, as in `ChooseMoves` |
| LegacyBattles.LegacyBattle.RunTurn | battle.py:73-151 | under the intended ordering (the source as written never reaches these lines), a completed turn increments the counter by 1 and the weather follows `DecayWeather` |
| LegacyBattles.LegacyBattle.CloseTurn | battle.py:140-151 | after the end-of-turn hooks, the counter grows by 1 and the weather follows `DecayWeather` |
| LegacyBattles.LegacyBattle.ChooseMoves | battle.py:53-55 | p1 chooses before p2, and p1's bad index faults before p2's PP is touched. Each chosen move spends one PP, two if both sides picked the same move object. A missing Struggle faults; the choice succeeds exactly when each side has a valid index or, with an empty moveset, a Struggle |
| LegacyBattles.LegacyBattle.Order | battle.py:57-71 | the intended ordering (the source as written raises, see `PlayTurnAsWritten`): p1 acts first exactly when `P1MovesFirst` holds for the moves' priorities and the staged, paralysis-quartered speeds |
| LegacyBattles.LegacyBattle.MovePhase | battle.py:73-74 | under the intended ordering, both actions keep the battle valid |
| LegacyBattles.LegacyBattle.Act | battle.py:74-76 | a fainted attacker or defender skips the action with the log and hooks unchanged; otherwise an absorbed move is cancelled with its volatile on the defender; the only faults are missing accuracy or evasion stages |
| LegacyBattles.LegacyBattle.Attempt | battle.py:78-99 | an absorbed move is cancelled with its volatile put on the defender; the only faults are missing accuracy or evasion stages |
| LegacyBattles.LegacyBattle.BeforeMove | battle.py:78-80 | the attacker's own `on_before_move` always lets the move proceed; only the accuracy scaling can change the move |
| LegacyBattles.LegacyBattle.TryHit | battle.py:82-85 | the move proceeds exactly when the attacker's ability does not absorb it; otherwise the defender gains the volatile |
| LegacyBattles.LegacyBattle.Strike | battle.py:101-138 | the damage is the pick in the range computed in the state before the hit; the log gains the hit, the two abilities' after-damage messages and the faint report; the after-damage hooks fire for the attacker and then the defender; a target other than the attacker loses the damage, never below 0, and the attacker bears the defender's after-damage effects (`AfterDamageEffects`) |
| LegacyBattles.LegacyBattle.Land | battle.py:130-138 | for the rolled damage: the log gains the hit, the two abilities' after-damage messages and the faint report; the hooks fire for the attacker and then the defender; a target other than the attacker loses the damage, never below 0, and the attacker bears the defender's after-damage effects |
| LegacyBattles.LegacyBattle.Landed | battle.py:133-138 | after-damage hooks in source order; the log gains the attacker's ability messages, the defender's, then the faint report when the target has fainted; a target other than the attacker leaves the attacker with the defender's after-damage effects (`AfterDamageEffects`) |
| LegacyBattles.LegacyBattle.FaintCheck | battle.py:137-138 | "fainted" is logged exactly when the target's HP is 0 |
| LegacyBattles.LegacyBattle.RollDamage | battle.py:101-129 | the damage is the pick in the calculated range, with no item or screen adjustment, and never negative |
| LegacyBattles.LegacyBattle.Hit | battle.py:130-131 | the target's HP drops by the damage, never below 0, and the hit is logged |
| LegacyBattles.LegacyBattle.AfterDamage | battle.py:134-135 | one after-damage hook fires with the volatile, status, counter, recoil and log effects of `AbilityOnAfterDamage` (`AfterDamageDone`) |
| LegacyBattles.LegacyBattle.EndOfTurn | battle.py:140-142 | `on_end_of_turn` of p1's then p2's ability: each heals and toggles as `AbilityOnEndOfTurn` does; a Truant fault on p1 stops before p2 changes; the log gains the recovery messages in order; the weather is untouched |
| LegacyBattles.LegacyBattle.EndAbility | battle.py:141-142 | one end-of-turn hook fires with the heal, the Truant toggle (and its fault) and the log of `AbilityOnEndOfTurn` (`EndOfTurnDone`) |

## Findings

| source | as written | input that shows it | evidently intended | confidence | as-written member | corrected member |
|---|---|---|---|---|---|---|
| battle.py:60-71 | `first, second = (self.p1, move1, self.p2, move2)` (and the mirrored tuple) assigns four values to two names, which raises `ValueError` after both moves are chosen and their PP spent | any turn whose two move choices succeed, e.g. index 0 for both sides with one move each | `first, second = (self.p1, move1, self.p2), (self.p2, move2, self.p1)`, mirrored when p2 goes first, as the loop at line 74 reads them | high (not executed) | LegacyBattles.LegacyBattle.PlayTurnAsWritten | LegacyBattles.LegacyBattle.Order |
| battle_env/battle.py:115-126 | the same four-value assignment to two names, after the moves are read again and the priorities and speeds compared; it raises `ValueError` | any turn in which both sides choose a valid move, with the items' priority bonus taken as 0 | the same pair of `(attacker, move, defender)` triples, as the loop at line 129 reads them | high (not executed) | Battles.Battle.PlayTurnAsWritten | Battles.Battle.Order |

## Left out

- Catalog loading from files: `load_abilities`, `load_items` and `load_moves`
  read JSON files and the stats loader reads spreadsheets. The registries are
  parameters, and `Capability.LoadRegistry` models the loop over parsed rows.
  The Struggle that `choose_move` fetches from the move catalog is a
  parameter of `ChooseMove`.
- The `print` side of the log: the log is a sequence of events, not of
  formatted strings.
- The random number generator: every draw is a parameter. `random.choice`
  over the damage range becomes the pick `low + k mod (high − low + 1)`.
- Floating point: stage multipliers, the damage modifier chain and the
  accuracy comparison use exact reals. Python's float rounding can differ at
  exact-integer boundaries.
- `Item.modify_damage` and `Item.get_priority_bonus` are called by the team
  battle but never defined. They are modelled as identity and as bonus 0.
- The fallback `Ability` and `Item` base classes never set their metadata, so
  building one from an unknown identifier would raise in Python. They are
  modelled as empty metadata under the raw identifier.
- The battle modules import a `.damage` module, which is not part of this
  model. The damage calculator of `gen3_damage_calc.py` stands in for it.
- The older battle imports `.pokemon` and `.ability` modules, which are not
  part of this model either. The team battle's Pokémon, moves and abilities
  (`battle_env/pokemon.py`, `battle_env/ability.py`) stand in for them. With the
  older `move.py` moves, which have no `id`, `on_try_hit` would raise on a
  matching type; that case is not modelled.
- A `KeyError` from reading a missing accuracy or evasion stage becomes the
  fault `MissingStage`.
- A move that is `None` (no Struggle in the catalog) would raise
  `AttributeError` when its priority is read. It becomes the fault
  `MissingMove` once both sides have chosen.
- `remove_item` (`battle_env/pokemon.py:152-154`) is not called by the core
  and is not modelled.
- Dynamic class creation with `type(...)`: a capability is its name plus its
  metadata record.
- Battles.Battle.Attempt: states the fault for an unbound ability and the
  two cancellations, but not the redirect, the missing-stage faults, the miss
  or the effects of a hit. Those are stated by `Gates`, `RollDamage`,
  `Strike`, `Hit`, `AfterDamageHooks` and `FaintCheck`.
- Battles.Battle.ExecuteAction: states the skip, the flinch and the attempt's
  fault and immunity, not the rest of the attempt (see `Attempt`).
- Battles.Battle.MovePhase: states the fault for a missing first move, and
  otherwise only that the battle stays valid. The ordering is stated by
  `Order`, and the actions by `ExecuteAction`.
- Battles.Battle.ResidualPhase: states only that the battle stays valid. The
  per-status effects on each active are stated by `ResidualOn`.
- Battles.Battle.FinishTurn: states the counter and the weather step, not the
  effects of the moves, the end-of-turn hooks or the residuals, which
  `MovePhase`, `EndOfTurnHooks` and `ResidualOn` state.
- Battles.Battle.BeginTurn: does not carry the PP that a move choice spends,
  which `BeginAction` and `PickMove` state; the move objects may be shared
  between members, and the frame reasoning about them is left to those two.
- Battles.Battle.Choices: as `BeginTurn`, does not carry the PP spent. It
  also does not carry the switch-in weather and attack drop (`Arrived`), which
  `SwitchIn` and `BeginAction` state for one switch. Over both sides, the
  second switch-in can overwrite the weather the first one set, and its
  attack drop goes to the opponent the arena still records; that composition
  is not stated.
- Battles.Battle.BeginTurn, Battles.Battle.SwitchTurn and
  Battles.Battle.PlayTurn: as `Choices`, state the Spikes share of HP of each
  switched side but not the switch-in weather and attack drop.
- Battles.Battle.AfterDamageHooks, Battles.Battle.Land, Battles.Battle.Strike,
  LegacyBattles.LegacyBattle.Landed, LegacyBattles.LegacyBattle.Land and
  LegacyBattles.LegacyBattle.Strike: state the after-damage effects on the
  attacker only when the target is not the attacker. When a move hits its own
  user, the target's HP loss and the recoil land on one Pokémon and the
  effects are not stated. When the target is not the attacker, the attacker's
  own ability is not the one defending, so its hook adds only its messages.
- Battles.Battle.PlayTurn: for a turn with two moves it states the counter
  and the weather step, not the moves' effects (see `FinishTurn`). It runs
  the intended ordering; as written that turn raises (`PlayTurnAsWritten`).
- Battles.Battle.MoveTurn and Battles.Battle.CloseTurn: as `FinishTurn`,
  state the counter and the weather step, not the effects of the moves, the
  end-of-turn hooks or the residuals (see `MovePhase`, `EndOfTurnHooks` and
  `ResidualOn`).
- LegacyBattles.LegacyBattle.CloseTurn: as `RunTurn`, states the counter and
  the weather step; the end-of-turn effects are stated by `EndOfTurn`.
- Battles.Battle.FinishTurn, Battles.Battle.MovePhase, Battles.Battle.Order,
  Battles.Battle.MoveTurn, Battles.Battle.CloseTurn,
  LegacyBattles.LegacyBattle.RunTurn, LegacyBattles.LegacyBattle.CloseTurn,
  LegacyBattles.LegacyBattle.PlayTurn, LegacyBattles.LegacyBattle.Order and LegacyBattles.LegacyBattle.MovePhase
  model the turn past the ordering, which the source as written never
  reaches; see "## Findings".
- Teams.Team.constructor: takes only the roster. The dataclass also accepts
  `active_index`, `hazards` and `screens` (`battle_env/team.py:9-11`). The
  repository's only construction (`battle_env/team_builder.py:34`) passes the
  roster alone, so the model fixes them at 0 and empty maps.
- LegacyBattles.LegacyBattle.RunTurn: states the counter and the weather
  step, not the effects of the actions or of the end-of-turn hooks, which
  `Act`, `Strike` and `EndOfTurn` state.
- LegacyBattles.LegacyBattle.PlayTurn: states the move choice, the PP and
  the counter, not the effects of the actions (see `RunTurn`).
- LegacyBattles.LegacyBattle.MovePhase: states only that the battle stays
  valid. The order is stated by `Order`, and the actions by `Act` and
  `Attempt`.
- LegacyBattles.LegacyBattle.Act: states the skip, the faults and an absorb,
  not the miss or the hit (see `Attempt` and `Strike`).
- LegacyBattles.LegacyBattle.Attempt: states the faults and an absorb, not
  the redirect, the miss message or the hit, which `Strike` states.
- PokemonState.Pokemon.constructor: requires an `hp` base stat. The source
  raises `KeyError` without one (`battle_env/pokemon.py:47`); that error path
  is not modelled.
- Battles.Battle.constructor: requires two distinct teams with disjoint,
  non-empty rosters of valid members carrying all six battle stats. The source
  accepts the same team twice, raises `IndexError` on an empty roster
  (`battle_env/battle.py:24`) and raises `KeyError` for a missing stat only
  when a turn reads it. Those inputs are not modelled.
- LegacyBattles.LegacyBattle.constructor: requires two distinct, valid
  Pokémon carrying all six battle stats. The source accepts the same Pokémon
  twice and raises `KeyError` for a missing stat only when a turn reads it.
  Those inputs are not modelled.
- Values are unbounded integers. The source's integers are Python integers,
  so there is no wrap-around to model.

=== FILE: abilities.dfy ===
/**
 * The generic ability: one interpreter per hook that reads the hook's
 * metadata record and applies its effect primitives to the battle state.
 * `owner` is the Pokémon the ability instance is bound to.
 */
module Abilities {
  import opened Wrappers
  import opened Faults
  import opened Capability
  import opened Moves
  import opened PokemonState
  import opened Arenas

  /** The messages `on_start` writes. */
  function StartLog(d: StartData, owner: string, ability: string): seq<Event> {
    (if d.silent then [SilentActivation(owner, ability)] else [])
    + (if d.trapAllFoes then [TrapsAllFoes(owner, ability)] else [])
  }

  /**
   * What `on_start` leaves behind: its messages, the opponent trapped when the
   * record traps all foes (nobody else's flag changes), and the Truant turn
   * set to false by the Truant initialiser.
   */
  twostate predicate StartDone(arena: Arena, a: Ability, owner: Pokemon)
    reads arena`log, arena`p1, arena`p2, arena.p1`trapped, arena.p2`trapped, owner`truantTurn
  {
    var d := a.data.onStart;
    && arena.log == old(arena.log) + StartLog(d, owner.name, a.name)
    && (d.trapAllFoes ==> arena.Opponent(owner).trapped)
    && (!(d.trapAllFoes && arena.p1 == arena.Opponent(owner)) ==> arena.p1.trapped == old(arena.p1.trapped))
    && (!(d.trapAllFoes && arena.p2 == arena.Opponent(owner)) ==> arena.p2.trapped == old(arena.p2.trapped))
    && owner.truantTurn == if d.initTruantTurn then Some(false) else old(owner.truantTurn)
  }

  /**
   * `on_start`: a silent announcement is only logged; trapping marks the
   * opponent trapped; the Truant initialiser sets the Truant turn to false.
   */
  method AbilityOnStart(arena: Arena, a: Ability, owner: Pokemon)
    modifies arena`log, arena`hooks, arena.p1`trapped, arena.p2`trapped, owner`truantTurn
    ensures arena.hooks == old(arena.hooks) + [HookCall(AbilityHook, OnStart, owner)]
    ensures StartDone(arena, a, owner)
  {
    arena.Record(HookCall(AbilityHook, OnStart, owner));
    var d := a.data.onStart;
    if d.silent {
      arena.Log(SilentActivation(owner.name, a.name));
    }
    if d.trapAllFoes {
      var foe := arena.Opponent(owner);
      foe.trapped := true;
      arena.Log(TrapsAllFoes(owner.name, a.name));
    }
    if d.initTruantTurn {
      owner.truantTurn := Some(false);
    }
  }

  /** The attack drop happens when there is one, unless the guard is on and the foe is behind a substitute. */
  predicate AttackDropApplies(d: SwitchInData, foeVolatiles: map<string, Volatile>) {
    d.atkDrop != 0 && (!d.ignoreIfAllFoesHaveSubstitute || "substitute" !in foeVolatiles)
  }

  /** The messages `on_switch_in` writes. */
  function SwitchInLog(d: SwitchInData, foeVolatiles: map<string, Volatile>, owner: string, ability: string): seq<Event> {
    (if d.weather != "" then [SetsWeather(owner, d.weather, ability)] else [])
    + (if AttackDropApplies(d, foeVolatiles) then [LowersAttack(owner, ability)] else [])
  }

  /** The weather half of `on_switch_in`: a weather entry sets the weather, its countdown (5 unless given) and a message. */
  method SwitchInWeather(arena: Arena, d: SwitchInData, owner: string, ability: string)
    modifies arena`weather, arena`weatherTurns, arena`log
    ensures d.weather != "" ==>
              arena.weather == Some(d.weather) && arena.weatherTurns == d.weatherTurns.GetOr(5)
    ensures d.weather == "" ==>
              arena.weather == old(arena.weather) && arena.weatherTurns == old(arena.weatherTurns)
    ensures arena.log == old(arena.log) + (if d.weather != "" then [SetsWeather(owner, d.weather, ability)] else [])
  {
    if d.weather != "" {
      arena.weather := Some(d.weather);
      arena.weatherTurns := d.weatherTurns.GetOr(5);
      arena.Log(SetsWeather(owner, d.weather, ability));
    }
  }

  /**
   * The attack-drop half of `on_switch_in`: lowers the opponent's attack
   * stage, clamped, unless the substitute guard applies; the owner's side is
   * left alone.
   */
  method SwitchInAttackDrop(arena: Arena, d: SwitchInData, owner: Pokemon, ability: string)
    requires arena.p1 != arena.p2 && arena.p1.Valid() && arena.p2.Valid()
    modifies arena`log, arena.p1`stages, arena.p2`stages
    ensures var foe := arena.Opponent(owner);
            foe.stages == if AttackDropApplies(d, old(foe.volatiles))
                          then old(foe.stages)["atk" := ClampStage(old(foe.StageOf("atk")) - d.atkDrop)]
                          else old(foe.stages)
    ensures arena.p1 != arena.Opponent(owner) ==> arena.p1.stages == old(arena.p1.stages)
    ensures arena.p2 != arena.Opponent(owner) ==> arena.p2.stages == old(arena.p2.stages)
    ensures arena.log == old(arena.log)
                         + (if AttackDropApplies(d, old(arena.Opponent(owner).volatiles)) then [LowersAttack(owner.name, ability)] else [])
    ensures arena.p1.Valid() && arena.p2.Valid()
  {
    var foe := arena.Opponent(owner);
    if d.atkDrop != 0 {
      var valid := false;
      if d.ignoreIfAllFoesHaveSubstitute {
        if "substitute" !in foe.volatiles {
          valid := true;
        }
      } else {
        valid := true;
      }
      if valid {
        foe.ChangeStage("atk", -d.atkDrop);
        arena.Log(LowersAttack(owner.name, ability));
      }
    }
  }

  /**
   * What `on_switch_in` leaves behind: the weather and its countdown (5 turns
   * unless given) when the record names a weather; the opponent's attack stage
   * lowered by the drop, clamped, unless the substitute guard applies; the
   * owner's side untouched; and the messages in that order. `foe` is the
   * owner's opponent.
   */
  twostate predicate SwitchInDone(arena: Arena, a: Ability, owner: Pokemon, foe: Pokemon)
    reads arena`weather, arena`weatherTurns, arena`log, arena`p1, arena`p2, arena.p1`stages, arena.p2`stages, foe`stages
  {
    && SwitchInEffects(arena, a, foe)
    && arena.log == old(arena.log) + SwitchInLog(a.data.onSwitchIn, old(foe.volatiles), owner.name, a.name)
  }

  /** The state `on_switch_in` leaves behind, without its messages: the weather and the foe's attack stage. */
  twostate predicate SwitchInEffects(arena: Arena, a: Ability, foe: Pokemon)
    reads arena`weather, arena`weatherTurns, arena`p1, arena`p2, arena.p1`stages, arena.p2`stages, foe`stages
  {
    var d := a.data.onSwitchIn;
    && (d.weather != "" ==> arena.weather == Some(d.weather) && arena.weatherTurns == d.weatherTurns.GetOr(5))
    && (d.weather == "" ==> arena.weather == old(arena.weather) && arena.weatherTurns == old(arena.weatherTurns))
    && foe.stages == (if AttackDropApplies(d, old(foe.volatiles))
                      then old(foe.stages)["atk" := ClampStage(old(foe.StageOf("atk")) - d.atkDrop)]
                      else old(foe.stages))
    && (arena.p1 != foe ==> arena.p1.stages == old(arena.p1.stages))
    && (arena.p2 != foe ==> arena.p2.stages == old(arena.p2.stages))
  }

  /**
   * `on_switch_in`: a weather entry sets the weather and its countdown (5
   * turns unless given); an attack drop lowers the opponent's attack stage by
   * that amount, clamped, unless the substitute guard applies.
   */
  method AbilityOnSwitchIn(arena: Arena, a: Ability, owner: Pokemon)
    requires arena.p1 != arena.p2 && arena.p1.Valid() && arena.p2.Valid()
    modifies arena`weather, arena`weatherTurns, arena`log, arena`hooks, arena.p1`stages, arena.p2`stages
    ensures arena.hooks == old(arena.hooks) + [HookCall(AbilityHook, OnSwitchIn, owner)]
    ensures SwitchInDone(arena, a, owner, arena.Opponent(owner))
    ensures arena.p1.Valid() && arena.p2.Valid()
  {
    arena.Record(HookCall(AbilityHook, OnSwitchIn, owner));
    SwitchInWeather(arena, a.data.onSwitchIn, owner.name, a.name);
    SwitchInAttackDrop(arena, a.data.onSwitchIn, owner, a.name);
  }

  /** The owner, as the defender, is immune to the move's type. */
  predicate ImmunityApplies(d: BeforeMoveData, moveType: string, ownerDefends: bool) {
    d.immuneType != "" && ownerDefends && moveType == d.immuneType
  }

  /** The accuracy multiplier applies to the owner's own moves of the listed types. */
  predicate AccuracyScalingApplies(d: BeforeMoveData, moveType: string, ownerAttacks: bool) {
    d.accuracyMultiplier.Some? && ownerAttacks && moveType in d.physicalTypes
  }

  /**
   * `on_before_move`: false (the move is cancelled) exactly when the immunity
   * applies; otherwise, for the owner's own moves of the listed types, the
   * move's accuracy becomes accuracy * numerator div denominator, in place.
   */
  method AbilityOnBeforeMove(arena: Arena, a: Ability, owner: Pokemon, move: Move, attacker: Pokemon, defender: Pokemon)
    returns (proceed: bool)
    modifies arena`log, arena`hooks, move`accuracy
    ensures arena.hooks == old(arena.hooks) + [HookCall(AbilityHook, OnBeforeMove, owner)]
    ensures proceed <==> !ImmunityApplies(a.data.onBeforeMove, move.moveType, defender == owner)
    ensures !proceed ==> arena.log == old(arena.log) + [ImmuneToType(owner.name, move.moveType, a.name)]
    ensures proceed ==> arena.log == old(arena.log)
    ensures move.accuracy ==
              if proceed && AccuracyScalingApplies(a.data.onBeforeMove, move.moveType, attacker == owner)
              then old(move.accuracy) * a.data.onBeforeMove.accuracyMultiplier.value.numerator
                   / a.data.onBeforeMove.accuracyMultiplier.value.denominator
              else old(move.accuracy)
  {
    arena.Record(HookCall(AbilityHook, OnBeforeMove, owner));
    var d := a.data.onBeforeMove;
    if d.immuneType != "" && defender == owner && move.moveType == d.immuneType {
      arena.Log(ImmuneToType(owner.name, move.moveType, a.name));
      return false;
    }
    if d.accuracyMultiplier.Some? && attacker == owner {
      if move.moveType in d.physicalTypes {
        var f := d.accuracyMultiplier.value;
        move.accuracy := move.accuracy * f.numerator / f.denominator;
      }
    }
    return true;
  }

  /** The move is absorbed: its type matches, its id is not exempt, and there is a volatile to add. */
  predicate AbsorbApplies(d: TryHitData, moveType: string, moveId: Option<string>) {
    d.moveType != "" && moveType == d.moveType && !(moveId.Some? && moveId.value in d.excludeMoves) && d.addVolatile != ""
  }

  /**
   * `on_try_hit`: an absorbed move adds the volatile to the target (with the
   * source as its cause) and cancels the move; anything else lets it proceed.
   */
  method AbilityOnTryHit(arena: Arena, a: Ability, owner: Pokemon, move: Move, target: Pokemon, source: Pokemon)
    returns (proceed: bool)
    modifies arena`log, arena`hooks, target`volatiles
    ensures arena.hooks == old(arena.hooks) + [HookCall(AbilityHook, OnTryHit, owner)]
    ensures proceed <==> !AbsorbApplies(a.data.onTryHit, move.moveType, move.id)
    ensures !proceed ==> target.volatiles == old(target.volatiles)[a.data.onTryHit.addVolatile := Volatile(source, None)]
                         && arena.log == old(arena.log) + [Absorbs(target.name, move.moveType, a.name)]
    ensures proceed ==> target.volatiles == old(target.volatiles) && arena.log == old(arena.log)
  {
    arena.Record(HookCall(AbilityHook, OnTryHit, owner));
    var d := a.data.onTryHit;
    if d.moveType != "" && move.moveType == d.moveType {
      if move.id.Some? && move.id.value in d.excludeMoves {
        return true;
      }
      if d.addVolatile != "" {
        target.AddVolatile(d.addVolatile, source);
        arena.Log(Absorbs(target.name, move.moveType, a.name));
        return false;
      }
    }
    return true;
  }

  /** `on_foe_redirect`: the owner draws a move of its type when target and source differ. */
  function AbilityFoeRedirect(a: Ability, owner: Pokemon, move: Move, target: Pokemon, source: Pokemon): (r: Option<Pokemon>)
    ensures r.Some? <==> a.data.onFoeRedirect.moveType != "" && move.moveType == a.data.onFoeRedirect.moveType && target != source
    ensures r.Some? ==> r.value == owner
  {
    var d := a.data.onFoeRedirect;
    if d.moveType != "" && move.moveType == d.moveType && target != source then Some(owner) else None
  }

  /** `on_foe_trap_pokemon`: traps the given Pokémon unless it is the owner. */
  method AbilityOnFoeTrapPokemon(arena: Arena, a: Ability, owner: Pokemon, pokemon: Pokemon)
    modifies arena`log, arena`hooks, pokemon`trapped
    ensures arena.hooks == old(arena.hooks) + [HookCall(AbilityHook, OnFoeTrapPokemon, owner)]
    ensures pokemon == owner ==> pokemon.trapped == old(pokemon.trapped) && arena.log == old(arena.log)
    ensures pokemon.trapped == (old(pokemon.trapped) || (a.data.onFoeTrapPokemon.trapAllFoes && pokemon != owner))
    ensures arena.log == old(arena.log) + if a.data.onFoeTrapPokemon.trapAllFoes && pokemon != owner
                                          then [TrappedBy(pokemon.name, owner.name, a.name)] else []
  {
    arena.Record(HookCall(AbilityHook, OnFoeTrapPokemon, owner));
    if a.data.onFoeTrapPokemon.trapAllFoes && pokemon != owner {
      pokemon.trapped := true;
      arena.Log(TrappedBy(pokemon.name, owner.name, a.name));
    }
  }

  /** The after-damage effects apply only to contact, against the owner, for positive damage. */
  predicate ContactApplies(d: AfterDamageData, ownerDefends: bool, damage: int) {
    d.makesContact && ownerDefends && damage > 0
  }

  /** The chance roll succeeds (it needs a chance entry). */
  predicate ChanceHits(d: AfterDamageData, draw: nat) {
    d.chance.Some? && RandomChance(d.chance.value.numerator, d.chance.value.denominator, draw)
  }

  /** Recoil: the attacker's max HP div the recoil fraction, or nothing when a status is (also) inflicted. */
  function RecoilAmount(d: AfterDamageData, attackerMaxHp: nat): (amount: nat)
    requires d.recoilFrac != 0
  {
    if d.inflictStatus.None? then attackerMaxHp / d.recoilFrac else 0
  }

  /**
   * The messages `on_after_damage` writes when `owner`'s ability sees `attacker`
   * hit `defender`: the volatile on a successful chance, then the recoil.
   */
  function AfterDamageLog(a: Ability, owner: Pokemon, attacker: Pokemon, defender: Pokemon, damage: int, chanceDraw: nat)
    : seq<Event>
  {
    var d := a.data.onAfterDamage;
    if ContactApplies(d, defender == owner, damage) then
      (if ChanceHits(d, chanceDraw) && d.addVolatile != "" then [InflictsVolatile(owner.name, a.name, d.addVolatile)] else [])
      + (if d.recoilFrac != 0 then [HurtsAttacker(owner.name, a.name, attacker.name)] else [])
    else []
  }

  /** The chance half of `on_after_damage`: adds the volatile (caused by the owner) and tries the status. */
  method ContactChanceEffects(arena: Arena, d: AfterDamageData, owner: Pokemon, ability: string, attacker: Pokemon)
    requires attacker.Valid()
    modifies arena`log, attacker`volatiles, attacker`status, attacker`toxicCounter, attacker`sleepCounter
    ensures attacker.Valid()
    ensures attacker.volatiles == if d.addVolatile != "" then old(attacker.volatiles)[d.addVolatile := Volatile(owner, None)]
                                  else old(attacker.volatiles)
    ensures attacker.status == if d.inflictStatus.Some? && d.inflictStatus.value != "" && old(attacker.status) == ""
                               then d.inflictStatus.value else old(attacker.status)
    ensures var inflicted := d.inflictStatus.Some? && d.inflictStatus.value != "" && old(attacker.status) == "";
            && attacker.toxicCounter == (if inflicted && d.inflictStatus.value == "tox" then 1 else old(attacker.toxicCounter))
            && attacker.sleepCounter == (if inflicted && d.inflictStatus.value == "slp" then 2 else old(attacker.sleepCounter))
    ensures arena.log == old(arena.log) + (if d.addVolatile != "" then [InflictsVolatile(owner.name, ability, d.addVolatile)] else [])
  {
    if d.addVolatile != "" {
      attacker.AddVolatile(d.addVolatile, owner);
      arena.Log(InflictsVolatile(owner.name, ability, d.addVolatile));
    }
    if d.inflictStatus.Some? && d.inflictStatus.value != "" {
      var _ := attacker.TrySetStatus(d.inflictStatus.value, owner);
    }
  }

  /** The recoil half of `on_after_damage`: the attacker loses `RecoilAmount`, floored at 0, and it is logged. */
  method ContactRecoil(arena: Arena, d: AfterDamageData, owner: string, ability: string, attacker: Pokemon)
    requires attacker.Valid() && d.recoilFrac != 0
    modifies arena`log, attacker`currentHp
    ensures attacker.Valid()
    ensures attacker.currentHp == Clamp0(old(attacker.currentHp) - RecoilAmount(d, attacker.MaxHp()))
    ensures attacker.currentHp <= old(attacker.currentHp)
    ensures arena.log == old(arena.log) + [HurtsAttacker(owner, ability, attacker.name)]
  {
    var amount := if d.inflictStatus.None? then attacker.stats["hp"] / d.recoilFrac else 0;
    var _ := attacker.ApplyDamage(amount);
    arena.Log(HurtsAttacker(owner, ability, attacker.name));
  }

  /**
   * What `on_after_damage` leaves behind. When contact applies, a successful
   * chance adds the volatile to the attacker (caused by the owner) and
   * inflicts the status on a status-free attacker (starting the toxic
   * counter at 1 or the sleep counter at 2; the counters are otherwise left
   * alone), and a recoil fraction
   * takes its share of the attacker's HP; the messages follow that order.
   * Without contact nothing changes.
   */
  twostate predicate AfterDamageDone(arena: Arena, a: Ability, owner: Pokemon, attacker: Pokemon, defender: Pokemon,
                                     damage: int, chanceDraw: nat)
    requires attacker.Valid()
    reads arena`log, attacker
  {
    && AfterDamageEffects(a, owner, attacker, defender, damage, chanceDraw)
    && arena.log == old(arena.log) + AfterDamageLog(a, owner, attacker, defender, damage, chanceDraw)
  }

  /** The state `on_after_damage` leaves on the attacker, without its messages. */
  twostate predicate AfterDamageEffects(a: Ability, owner: Pokemon, attacker: Pokemon, defender: Pokemon,
                                        damage: int, chanceDraw: nat)
    requires attacker.Valid()
    reads attacker
  {
    var d := a.data.onAfterDamage;
    var contact := ContactApplies(d, defender == owner, damage);
    var hit := contact && ChanceHits(d, chanceDraw);
    var inflicted := hit && d.inflictStatus.Some? && d.inflictStatus.value != "" && old(attacker.status) == "";
    && attacker.volatiles == (if hit && d.addVolatile != "" then old(attacker.volatiles)[d.addVolatile := Volatile(owner, None)]
                              else old(attacker.volatiles))
    && attacker.status == (if inflicted then d.inflictStatus.value else old(attacker.status))
    && attacker.toxicCounter == (if inflicted && d.inflictStatus.value == "tox" then 1 else old(attacker.toxicCounter))
    && attacker.sleepCounter == (if inflicted && d.inflictStatus.value == "slp" then 2 else old(attacker.sleepCounter))
    && attacker.currentHp == (if contact && d.recoilFrac != 0
                              then Clamp0(old(attacker.currentHp) - RecoilAmount(d, attacker.MaxHp()))
                              else old(attacker.currentHp))
  }

  /**
   * `on_after_damage`: when contact applies, a successful chance adds the
   * volatile to the attacker (caused by the owner) and tries the status on it;
   * then a recoil fraction damages the attacker. Otherwise nothing changes.
   */
  method AbilityOnAfterDamage(arena: Arena, a: Ability, owner: Pokemon, move: Move, attacker: Pokemon, defender: Pokemon,
                              damage: int, chanceDraw: nat)
    requires attacker.Valid()
    modifies arena`log, arena`hooks, attacker`volatiles, attacker`status, attacker`toxicCounter,
             attacker`sleepCounter, attacker`currentHp
    ensures arena.hooks == old(arena.hooks) + [HookCall(AbilityHook, OnAfterDamage, owner)]
    ensures attacker.Valid()
    ensures AfterDamageDone(arena, a, owner, attacker, defender, damage, chanceDraw)
  {
    arena.Record(HookCall(AbilityHook, OnAfterDamage, owner));
    var d := a.data.onAfterDamage;
    if d.makesContact && defender == owner && damage > 0 {
      if d.chance.Some? {
        if RandomChance(d.chance.value.numerator, d.chance.value.denominator, chanceDraw) {
          ContactChanceEffects(arena, d, owner, a.name, attacker);
        }
      }
      if d.recoilFrac != 0 {
        ContactRecoil(arena, d, owner.name, a.name, attacker);
      }
    }
  }

  /** Damage floors at 0. */
  function Clamp0(hp: int): nat {
    if hp < 0 then 0 else hp
  }

  /** Weather-gated healing: a recovery fraction, and the current weather among the listed ones. */
  predicate RecoveryApplies(d: EndOfTurnData, weather: Option<string>) {
    d.recoverFrac != 0 && weather in d.weatherOnly
  }

  /** The owner's HP after weather-gated recovery: max HP div the fraction more, capped at max HP. */
  function RecoveredHp(d: EndOfTurnData, weather: Option<string>, hp: int, maxHp: int): int {
    if RecoveryApplies(d, weather) then Min(maxHp, hp + maxHp / d.recoverFrac) else hp
  }

  /** The message `on_end_of_turn` writes: the recovery, when it applies. */
  function EndOfTurnLog(a: Ability, owner: Pokemon, weather: Option<string>): seq<Event> {
    if RecoveryApplies(a.data.onEndOfTurn, weather) then [RecoversHp(owner.name, a.name)] else []
  }

  /**
   * The Truant toggle's outcome and the new Truant turn: unchanged without a
   * toggle, flipped when set, and a failure when nothing has set it yet.
   */
  function TruantToggle(d: EndOfTurnData, truant: Option<bool>, owner: string): (Outcome<Fault>, Option<bool>) {
    if !d.toggleTruantTurn then (Pass, truant)
    else if truant.None? then (Fail(TruantTurnUnset(owner)), None)
    else (Pass, Some(!truant.value))
  }

  /**
   * What `on_end_of_turn` leaves behind: the recovered HP and its message,
   * the toggled Truant turn with its outcome, and the weather unchanged.
   */
  twostate predicate EndOfTurnDone(arena: Arena, a: Ability, owner: Pokemon, new r: Outcome<Fault>)
    requires owner.Valid()
    reads arena`log, arena`weather, arena`weatherTurns, owner
  {
    var d := a.data.onEndOfTurn;
    && owner.currentHp == RecoveredHp(d, arena.weather, old(owner.currentHp), owner.MaxHp())
    && arena.log == old(arena.log) + EndOfTurnLog(a, owner, arena.weather)
    && (r, owner.truantTurn) == TruantToggle(d, old(owner.truantTurn), owner.name)
    && arena.weather == old(arena.weather) && arena.weatherTurns == old(arena.weatherTurns)
  }

  /**
   * `on_end_of_turn`: recovery heals max HP div the fraction, capped at max
   * HP; the Truant toggle flips the Truant turn, and fails when nothing has
   * set it yet.
   */
  method AbilityOnEndOfTurn(arena: Arena, a: Ability, owner: Pokemon) returns (r: Outcome<Fault>)
    requires owner.Valid()
    modifies arena`log, arena`hooks, owner`currentHp, owner`truantTurn
    ensures arena.hooks == old(arena.hooks) + [HookCall(AbilityHook, OnEndOfTurn, owner)]
    ensures owner.Valid()
    ensures EndOfTurnDone(arena, a, owner, r)
  {
    arena.Record(HookCall(AbilityHook, OnEndOfTurn, owner));
    var d := a.data.onEndOfTurn;
    if d.recoverFrac != 0 && arena.weather in d.weatherOnly {
      var heal := owner.stats["hp"] / d.recoverFrac;
      owner.currentHp := Min(owner.stats["hp"], owner.currentHp + heal);
      arena.Log(RecoversHp(owner.name, a.name));
    }
    if d.toggleTruantTurn {
      if owner.truantTurn.None? {
        return Fail(TruantTurnUnset(owner.name));
      }
      owner.truantTurn := Some(!owner.truantTurn.value);
    }
    r := Pass;
  }

  function Min(a: int, b: int): int {
    if a <= b then a else b
  }
}

=== FILE: arena.dfy ===
/**
 * The battle state that ability and item hooks see and change: the two active
 * Pokémon, the weather and its countdown, the turn counter and the log. The
 * log is a sequence of events, one per message the battle writes; a ghost
 * record of hook calls states in which order the hooks fire.
 */
module Arenas {
  import opened Wrappers
  import opened Capability
  import opened PokemonState

  /** One log message. */
  datatype Event =
    | SilentActivation(owner: string, ability: string)
    | TrapsAllFoes(owner: string, ability: string)
    | SetsWeather(owner: string, weather: string, ability: string)
    | LowersAttack(owner: string, ability: string)
    | ImmuneToType(owner: string, moveType: string, ability: string)
    | Absorbs(target: string, moveType: string, ability: string)
    | TrappedBy(pokemon: string, owner: string, ability: string)
    | InflictsVolatile(owner: string, ability: string, volatile: string)
    | HurtsAttacker(owner: string, ability: string, attacker: string)
    | RecoversHp(owner: string, ability: string)
    | HurtBySpikes(pokemon: string)
    | SwitchOccurred
    | Flinched(pokemon: string)
    | Missed(attacker: string, move: string)
    | Dealt(attacker: string, move: string, damage: int, target: string)
    | Fainted(pokemon: string)
    | HurtByBurn(pokemon: string)
    | HurtByPoison(pokemon: string)
    | HurtByToxic(pokemon: string)
    | WokeUp(pokemon: string)
    | ThawedOut(pokemon: string)
    | WeatherEnded(ended: Option<string>)

  datatype HookName = OnStart | OnSwitchIn | OnBeforeMove | OnTryHit | OnFoeRedirect | OnFoeTrapPokemon
                    | OnAfterDamage | OnEndOfTurn

  datatype CapabilityKind = AbilityHook | ItemHook

  /** One hook invocation: which kind of capability, which hook, and the capability's owner. */
  datatype HookCall = HookCall(kind: CapabilityKind, hook: HookName, owner: Pokemon)

  /** `randrange(denominator) < numerator`, with the drawn value given as `draw` (reduced modulo the denominator). */
  function RandomChance(numerator: int, denominator: Positive, draw: nat): (hit: bool)
    ensures numerator >= denominator ==> hit
    ensures numerator <= 0 ==> !hit
    ensures draw < denominator ==> (hit <==> draw < numerator)
  {
    draw % denominator < numerator
  }

  class Arena {
    var p1: Pokemon
    var p2: Pokemon
    var weather: Option<string>
    var weatherTurns: int
    var turn: int
    var log: seq<Event>
    ghost var hooks: seq<HookCall>

    /** A battle before its start: turn 0, no weather countdown, an empty log. */
    constructor (p1: Pokemon, p2: Pokemon, weather: Option<string>)
      ensures this.p1 == p1 && this.p2 == p2 && this.weather == weather
      ensures weatherTurns == 0 && turn == 0 && log == [] && hooks == []
    {
      this.p1 := p1;
      this.p2 := p2;
      this.weather := weather;
      weatherTurns := 0;
      turn := 0;
      log := [];
      hooks := [];
    }

    /** The single opponent of `p`: p2 for p1, and p1 for anyone else. */
    function Opponent(p: Pokemon): (foe: Pokemon)
      reads this`p1, this`p2
      ensures foe == p1 || foe == p2
      ensures p1 != p2 ==> (foe == p2 <==> p == p1)
    {
      if p == p1 then p2 else p1
    }

    /** Appends a message to the log. */
    method Log(e: Event)
      modifies this`log
      ensures log == old(log) + [e]
    {
      log := log + [e];
    }

    /** Records a hook call. */
    ghost method Record(c: HookCall)
      modifies this`hooks
      ensures hooks == old(hooks) + [c]
    {
      hooks := hooks + [c];
    }
  }
}

=== FILE: battle.dfy ===
/**
 * The battle loop over two teams: construction binds the actives' abilities
 * and items, `Start` fires the start hooks, and `PlayTurn` runs one turn —
 * volatile countdowns, switches with Spikes, move choice, ordering, the two
 * actions, end-of-turn hooks, residual status damage, weather decay and the
 * turn counter. Every random draw of a turn is a parameter.
 */
module Battles {
  import opened Wrappers
  import opened Faults
  import opened Capability
  import opened Moves
  import opened PokemonState
  import opened Teams
  import opened Arenas
  import opened Abilities
  import opened Items
  import opened TurnRules
  import Damage

  /** A player's choice for the turn. */
  datatype Action = Switch(index: int) | UseMove(index: int)

  /**
   * The draws one action may use: the uniform accuracy draw on [0, 100], the
   * position picked in the damage range, and the attacker's and the
   * defender's `randrange` draws for their after-damage chances.
   */
  datatype ActionDraws = ActionDraws(accuracy: real, damagePick: nat, attackerChance: nat, defenderChance: nat)

  /** The draws of a turn: one set per action, and each active's thaw draw on [0, 1). */
  datatype TurnDraws = TurnDraws(first: ActionDraws, second: ActionDraws, thaw1: real, thaw2: real)

  /** The stats the turn reads from every Pokémon. */
  const BattleStats: set<string> := {"hp", "atk", "def", "spa", "spd", "spe"}

  /** A bound ability or item belongs to the Pokémon that holds it. */
  predicate BoundTo(p: Pokemon)
    reads p`ability, p`item
  {
    (p.ability.Instantiated? ==> p.ability.owner == p) && (p.item.Instantiated? ==> p.item.owner == p)
  }

  /** A stat row with all six battle stats. */
  predicate HasBattleStats(stats: map<string, nat>) {
    BattleStats <= stats.Keys
  }

  /** A Pokémon fit to battle: its own invariant, all six stats, and capabilities bound to itself. */
  predicate Combatant(p: Pokemon)
    reads p`currentHp, p`stages, p`status, p`toxicCounter, p`sleepCounter, p`ability, p`item
  {
    p.Valid() && HasBattleStats(p.stats) && BoundTo(p)
  }

  /** The identifier a capability slot still carries; a bound one has none to look up. */
  function HeldId<C>(h: Held<C>): Option<string> {
    if h.Uninstantiated? then h.id else None
  }

  /** HP after Spikes: with Spikes on the side their share of max HP comes off, never below 0. */
  function AfterSpikes(hazards: map<string, int>, hp: int, maxHp: nat): int {
    if "spikes" in hazards then Clamp0(hp - SpikesDamage(maxHp, hazards["spikes"])) else hp
  }

  /**
   * The stat a move's category selects, staged: `physical` for a physical
   * move and `special` otherwise (attack/special attack for the attacker,
   * defense/special defense for the target). Never below 1.
   */
  function CategoryStat(p: Pokemon, category: string, physical: string, special: string): (v: nat)
    reads p
    requires Combatant(p) && physical in BattleStats - {"hp"} && special in BattleStats - {"hp"}
    ensures v >= 1
    ensures category == "Physical" ==> v == p.ModifiedStat(physical)
    ensures category != "Physical" ==> v == p.ModifiedStat(special)
  {
    p.ModifiedStat(if category == "Physical" then physical else special)
  }

  /** What the damage calculator is told about the attacker: types, status and ability name. */
  function AttackerInfoOf(p: Pokemon): Damage.AttackerInfo
    reads p
    requires p.ability.Instantiated?
  {
    Damage.AttackerInfo(p.types, p.status, p.ability.cap.name)
  }

  /** The range the damage calculator returns for this attacker, move and target (never a critical hit). */
  function DamageRange(attacker: Pokemon, move: Move, target: Pokemon, weather: Option<string>): (r: (int, int))
    reads attacker, target
    requires Combatant(attacker) && Combatant(target) && attacker.ability.Instantiated?
    ensures r.0 <= r.1
    ensures r.1 == 0 <==> Damage.Effectiveness(move.moveType, target.types) == 0.0
  {
    var initial := Damage.InitialDamage(attacker.level, move.power, CategoryStat(attacker, move.category, "atk", "spa"),
                                        CategoryStat(target, move.category, "def", "spd"));
    var info := Damage.MoveInfo(move.moveType, move.category, None);
    var e := Damage.Effectiveness(move.moveType, target.types);
    if e == 0.0 then (0, 0)
    else
      var b := Damage.BaseDamage(initial, AttackerInfoOf(attacker), info, false, weather, e);
      (Damage.Max(1, b * 217 / 255), Damage.Max(1, b))
  }

  /** Logs the target's fainting exactly when its HP is 0. */
  method ReportFaint(arena: Arena, target: Pokemon)
    modifies arena`log
    ensures arena.log == old(arena.log) + (if target.IsFainted() then [Fainted(target.name)] else [])
  {
    if target.IsFainted() {
      arena.Log(Fainted(target.name));
    }
  }

  /** The end-of-turn weather step, logging the end of the weather when its countdown runs out. */
  method WeatherStep(arena: Arena)
    modifies arena`weather, arena`weatherTurns, arena`log
    ensures (arena.weather, arena.weatherTurns) == DecayWeather(old(arena.weather), old(arena.weatherTurns))
    ensures arena.log == old(arena.log) + (if old(arena.weatherTurns) == 1 then [WeatherEnded(old(arena.weather))] else [])
  {
    if arena.weatherTurns > 0 {
      arena.weatherTurns := arena.weatherTurns - 1;
      if arena.weatherTurns == 0 {
        arena.Log(WeatherEnded(arena.weather));
        arena.weather := None;
      }
    }
  }

  /**
   * What residual status damage leaves behind for one Pokémon: burn, poison
   * and toxic (after advancing its counter) take their share, never below 0
   * HP; sleep counts down and wakes at 0; freeze thaws on a draw below 0.2;
   * each effect writes its message, and any other status changes nothing.
   */
  twostate predicate ResidualDone(arena: Arena, mon: Pokemon, thawDraw: real)
    requires mon.Valid()
    reads arena`log, mon
  {
    var s := old(mon.status);
    && (s == "brn" ==>
          mon.currentHp == Clamp0(old(mon.currentHp) - BurnDamage(mon.MaxHp())) && mon.status == "brn"
          && arena.log == old(arena.log) + [HurtByBurn(mon.name)])
    && (s == "psn" ==>
          mon.currentHp == Clamp0(old(mon.currentHp) - PoisonDamage(mon.MaxHp())) && mon.status == "psn"
          && arena.log == old(arena.log) + [HurtByPoison(mon.name)])
    && (s == "tox" ==>
          mon.toxicCounter == old(mon.toxicCounter) + 1 && mon.status == "tox"
          && mon.currentHp == Clamp0(old(mon.currentHp) - ToxicDamage(mon.MaxHp(), old(mon.toxicCounter) + 1))
          && arena.log == old(arena.log) + [HurtByToxic(mon.name)])
    && (s == "slp" ==>
          mon.currentHp == old(mon.currentHp)
          && (old(mon.sleepCounter) == 1 ==>
                mon.status == "" && mon.sleepCounter == 0 && arena.log == old(arena.log) + [WokeUp(mon.name)])
          && (old(mon.sleepCounter) == 2 ==>
                mon.status == "slp" && mon.sleepCounter == 1 && arena.log == old(arena.log)))
    && (s == "frz" ==>
          mon.currentHp == old(mon.currentHp)
          && (Thaws(thawDraw) ==> mon.status == "" && arena.log == old(arena.log) + [ThawedOut(mon.name)])
          && (!Thaws(thawDraw) ==> mon.status == "frz" && arena.log == old(arena.log)))
    && (s !in {"brn", "psn", "tox", "slp", "frz"} ==>
          mon.currentHp == old(mon.currentHp) && mon.status == s && arena.log == old(arena.log))
  }

  /**
   * Residual status damage for one Pokémon: burn, poison and toxic (after
   * advancing its counter) take their share, never below 0 HP; sleep counts
   * down and wakes at 0; freeze thaws on a draw below 0.2.
   */
  method Residual(arena: Arena, mon: Pokemon, thawDraw: real)
    requires mon.Valid()
    modifies arena`log, mon`currentHp, mon`status, mon`toxicCounter, mon`sleepCounter
    ensures mon.Valid()
    ensures ResidualDone(arena, mon, thawDraw)
  {
    if mon.status == "brn" {
      var _ := mon.ApplyDamage(BurnDamage(mon.stats["hp"]));
      arena.Log(HurtByBurn(mon.name));
    } else if mon.status == "psn" {
      var _ := mon.ApplyDamage(PoisonDamage(mon.stats["hp"]));
      arena.Log(HurtByPoison(mon.name));
    } else if mon.status == "tox" {
      mon.toxicCounter := mon.toxicCounter + 1;
      var _ := mon.ApplyDamage(ToxicDamage(mon.stats["hp"], mon.toxicCounter));
      arena.Log(HurtByToxic(mon.name));
    } else if mon.status == "slp" {
      if mon.sleepCounter > 0 {
        mon.sleepCounter := mon.sleepCounter - 1;
      }
      if mon.sleepCounter == 0 {
        mon.HealStatus();
        arena.Log(WokeUp(mon.name));
      }
    } else if mon.status == "frz" {
      if Thaws(thawDraw) {
        mon.HealStatus();
        arena.Log(ThawedOut(mon.name));
      }
    }
  }

  /** The start-of-turn countdown on one Pokémon's volatiles, key by key. */
  method DecrementVolatiles(mon: Pokemon)
    modifies mon`volatiles
    ensures mon.volatiles == DecayedVolatiles(old(mon.volatiles))
  {
    ghost var orig := mon.volatiles;
    var remaining := mon.volatiles.Keys;
    while remaining != {}
      invariant remaining <= orig.Keys
      invariant mon.volatiles == PartialDecay(orig, orig.Keys - remaining)
      decreases remaining
    {
      var v :| v in remaining;
      var data := mon.volatiles[v];
      if data.duration.Some? {
        var left := data.duration.value - 1;
        mon.volatiles := mon.volatiles[v := Volatile(data.source, Some(left))];
        if left <= 0 {
          mon.RemoveVolatile(v);
        }
      }
      remaining := remaining - {v};
      assert mon.volatiles == PartialDecay(orig, orig.Keys - remaining);
    }
  }

  /**
   * Binds each active's ability and item, looked up by identifier in the
   * registries, to it; every member stays fit to battle.
   */
  method BindActives(members: seq<Pokemon>, p1: Pokemon, p2: Pokemon,
                     abilities: map<string, Entry<AbilityData>>, items: map<string, Entry<ItemData>>)
    requires p1 in members && p2 in members && p1 != p2
    requires forall p :: p in members ==> Combatant(p)
    modifies p1`ability, p1`item, p2`ability, p2`item
    ensures forall p :: p in members ==> Combatant(p)
    ensures p1.ability == Bind(InstantiateAbility(abilities, HeldId(old(p1.ability))), p1)
    ensures p2.ability == Bind(InstantiateAbility(abilities, HeldId(old(p2.ability))), p2)
    ensures p1.item == BindItem(items, HeldId(old(p1.item)), p1)
    ensures p2.item == BindItem(items, HeldId(old(p2.item)), p2)
  {
    p1.ability := Bind(InstantiateAbility(abilities, HeldId(p1.ability)), p1);
    p2.ability := Bind(InstantiateAbility(abilities, HeldId(p2.ability)), p2);
    p1.item := BindItem(items, HeldId(p1.item), p1);
    p2.item := BindItem(items, HeldId(p2.item), p2);
  }

  class Battle {
    const team1: Team
    const team2: Team
    /** The active Pokémon, the weather, the turn counter and the log. */
    const arena: Arena

    /** A Pokémon of either team. */
    predicate Member(p: Pokemon) {
      p in team1.members || p in team2.members
    }

    /** Every move object of every Pokémon. */
    ghost function MovesOf(): set<Move> {
      set p, m | p in team1.members + team2.members && m in p.moves :: m
    }

    /**
     * Two distinct teams with valid active slots and no member in common,
     * every member fit to battle, and the battle's actives drawn from their teams.
     */
    ghost predicate Valid()
      reads team1`activeIndex, team2`activeIndex, arena`p1, arena`p2
      reads team1.members`currentHp, team1.members`stages, team1.members`status, team1.members`toxicCounter,
            team1.members`sleepCounter, team1.members`ability, team1.members`item
      reads team2.members`currentHp, team2.members`stages, team2.members`status, team2.members`toxicCounter,
            team2.members`sleepCounter, team2.members`ability, team2.members`item
    {
      && team1 != team2 && team1.Valid() && team2.Valid()
      && (forall p :: p in team1.members ==> p !in team2.members)
      && (forall p {:trigger Combatant(p)} :: p in team1.members ==> Combatant(p))
      && (forall p {:trigger Combatant(p)} :: p in team2.members ==> Combatant(p))
      && arena.p1 in team1.members && arena.p2 in team2.members
    }

    /** The actives are two distinct Pokémon fit to battle. */
    lemma ActivesFit()
      requires Valid()
      ensures Combatant(arena.p1) && Combatant(arena.p2) && arena.p1 != arena.p2
      ensures Member(arena.p1) && Member(arena.p2)
    {
    }

    /** Every member is fit to battle. */
    lemma MemberFit(p: Pokemon)
      requires Valid() && Member(p)
      ensures Combatant(p)
    {
    }

    /** The switch-in hook calls a side's action makes: its new active's ability, then its item. */
    function SwitchHooks(a: Action, team: Team): seq<HookCall>
      reads team`activeIndex
      requires team.Valid()
    {
      if a.Switch? then [HookCall(AbilityHook, OnSwitchIn, team.Active()), HookCall(ItemHook, OnSwitchIn, team.Active())] else []
    }

    /**
     * The team still has the active it had at slot `index`, and that Pokémon
     * has taken no damage and changed neither its status nor its counters.
     */
    twostate predicate Unhurt(team: Team, index: int)
      requires team.Valid()
      reads team`activeIndex, team.members
    {
      && team.activeIndex == index
      && var q := team.Active();
         q.currentHp == old(q.currentHp) && q.status == old(q.status)
         && q.toxicCounter == old(q.toxicCounter) && q.sleepCounter == old(q.sleepCounter)
    }

    /** A member's moves are among the battle's moves. */
    lemma MoveOfMember(p: Pokemon, i: int)
      requires Member(p) && 0 <= i < |p.moves|
      ensures p.moves[i] in MovesOf()
    {
      assert p in team1.members + team2.members && p.moves[i] in p.moves;
    }

    /**
     * Validity survives a step that keeps the actives inside their teams and
     * changes the battle fields of no member outside `changed`, as long as
     * those are still fit to battle.
     */
    twostate lemma ValidKept(new changed: set<Pokemon>)
      requires old(Valid())
      requires team1.Valid() && team2.Valid() && arena.p1 in team1.members && arena.p2 in team2.members
      requires forall q :: q in changed ==> Combatant(q)
      requires forall p :: p in team1.members || p in team2.members ==>
                 p in changed || unchanged(p`currentHp, p`stages, p`status, p`toxicCounter, p`sleepCounter, p`ability, p`item)
      ensures Valid()
    {
    }

    /**
     * A battle between the teams' actives: turn 0, no weather countdown, an
     * empty log; each active's ability and item identifier is looked up in
     * the registries and bound to it.
     */
    constructor (team1: Team, team2: Team, weather: Option<string>,
                 abilities: map<string, Entry<AbilityData>>, items: map<string, Entry<ItemData>>)
      requires team1 != team2 && team1.Valid() && team2.Valid()
      requires forall p :: p in team1.members ==> p !in team2.members
      requires forall p :: p in team1.members || p in team2.members ==> Combatant(p)
      modifies team1.Active()`ability, team1.Active()`item, team2.Active()`ability, team2.Active()`item
      ensures this.team1 == team1 && this.team2 == team2 && Valid()
      ensures arena.p1 == team1.Active() && arena.p2 == team2.Active()
      ensures arena.weather == weather && arena.weatherTurns == 0 && arena.turn == 0 && arena.log == [] && arena.hooks == []
      ensures arena.p1.ability == Bind(InstantiateAbility(abilities, HeldId(old(team1.Active().ability))), arena.p1)
      ensures arena.p2.ability == Bind(InstantiateAbility(abilities, HeldId(old(team2.Active().ability))), arena.p2)
      ensures arena.p1.item == BindItem(items, HeldId(old(team1.Active().item)), arena.p1)
      ensures arena.p2.item == BindItem(items, HeldId(old(team2.Active().item)), arena.p2)
    {
      this.team1 := team1;
      this.team2 := team2;
      var p1 := team1.Active();
      var p2 := team2.Active();
      arena := new Arena(p1, p2, weather);
      new;
      BindActives(team1.members + team2.members, p1, p2, abilities, items);
    }

    /** Refreshes the battle's actives from the teams. */
    method UpdateActives()
      requires Valid()
      modifies arena`p1, arena`p2
      ensures Valid()
      ensures arena.p1 == team1.Active() && arena.p2 == team2.Active()
    {
      arena.p1 := team1.Active();
      arena.p2 := team2.Active();
      ValidKept({});
    }

    /**
     * Starts the battle: turn 1, then `on_start` of p1's ability, p2's
     * ability, p1's item and p2's item, in that order. A capability still
     * an identifier fails at its turn.
     */
    method Start() returns (r: Outcome<Fault>)
      requires Valid()
      modifies arena`turn, arena`log, arena`hooks, arena.p1`trapped, arena.p2`trapped,
               arena.p1`truantTurn, arena.p2`truantTurn
      ensures Valid()
      ensures arena.turn == 1
      ensures r.Pass? <==> arena.p1.ability.Instantiated? && arena.p2.ability.Instantiated?
                           && arena.p1.item.Instantiated? && arena.p2.item.Instantiated?
      ensures r.Pass? ==> arena.hooks == old(arena.hooks) + [HookCall(AbilityHook, OnStart, arena.p1),
                                                             HookCall(AbilityHook, OnStart, arena.p2),
                                                             HookCall(ItemHook, OnStart, arena.p1),
                                                             HookCall(ItemHook, OnStart, arena.p2)]
      ensures r.Pass? ==>
                var p1, p2 := arena.p1, arena.p2;
                var a1, a2 := p1.ability.cap, p2.ability.cap;
                && arena.log == old(arena.log) + StartLog(a1.data.onStart, p1.name, a1.name) + StartLog(a2.data.onStart, p2.name, a2.name)
                && p1.trapped == (old(p1.trapped) || a2.data.onStart.trapAllFoes)
                && p2.trapped == (old(p2.trapped) || a1.data.onStart.trapAllFoes)
                && p1.truantTurn == (if a1.data.onStart.initTruantTurn then Some(false) else old(p1.truantTurn))
                && p2.truantTurn == (if a2.data.onStart.initTruantTurn then Some(false) else old(p2.truantTurn))
    {
      arena.turn := 1;
      ValidKept({});
      var p1, p2 := arena.p1, arena.p2;
      r := StartAbility(p1);
      if r.Fail? {
        return;
      }
      r := StartAbility(p2);
      if r.Fail? {
        return;
      }
      r := StartItem(p1);
      if r.Fail? {
        return;
      }
      r := StartItem(p2);
    }

    /** `on_start` of one active's ability; an ability still an identifier fails. */
    method StartAbility(p: Pokemon) returns (r: Outcome<Fault>)
      requires Valid() && (p == arena.p1 || p == arena.p2)
      modifies arena`log, arena`hooks, arena.p1`trapped, arena.p2`trapped, p`truantTurn
      ensures Valid()
      ensures r.Pass? <==> p.ability.Instantiated?
      ensures r.Fail? ==> r == Fail(NotInstantiated(p.name)) && arena.hooks == old(arena.hooks)
      ensures r.Pass? ==> arena.hooks == old(arena.hooks) + [HookCall(AbilityHook, OnStart, p)]
      ensures r.Pass? ==> StartDone(arena, p.ability.cap, p)
    {
      if !p.ability.Instantiated? {
        return Fail(NotInstantiated(p.name));
      }
      ActivesFit();
      AbilityOnStart(arena, p.ability.cap, p.ability.owner);
      ValidKept({});
      r := Pass;
    }

    /** `on_start` of one active's item; an item still an identifier fails. */
    method StartItem(p: Pokemon) returns (r: Outcome<Fault>)
      requires Valid() && (p == arena.p1 || p == arena.p2)
      modifies arena`hooks
      ensures Valid()
      ensures r.Pass? <==> p.item.Instantiated?
      ensures r.Fail? ==> r == Fail(NotInstantiated(p.name)) && arena.hooks == old(arena.hooks)
      ensures r.Pass? ==> arena.hooks == old(arena.hooks) + [HookCall(ItemHook, OnStart, p)]
    {
      if !p.item.Instantiated? {
        return Fail(NotInstantiated(p.name));
      }
      ActivesFit();
      ItemOnStart(arena, p.item.cap, p.item.owner);
      ValidKept({});
      r := Pass;
    }

    /**
     * A side's switch: the team switches (failing on a bad index or a fainted
     * member), the new active's ability and item `on_switch_in` fire, and
     * Spikes on that team's side take their share of its max HP. The battle's
     * actives are not refreshed yet.
     */
    method SwitchIn(team: Team, index: int) returns (r: Outcome<Fault>)
      requires Valid() && (team == team1 || team == team2)
      modifies team`activeIndex, arena`weather, arena`weatherTurns, arena`log, arena`hooks, arena.p1`stages, arena.p2`stages,
               team.members`currentHp
      ensures Valid()
      ensures r.Pass? ==> team.activeIndex == index
      ensures !(0 <= index < |team.members|) ==> r == Fail(InvalidSwitchIndex)
      ensures 0 <= index < |team.members| && old(team.members[index].IsFainted()) ==> r == Fail(SwitchToFainted)
      ensures r.Pass? ==> arena.hooks == old(arena.hooks) + SwitchHooks(Switch(index), team)
      ensures r.Pass? ==> var p := team.Active();
                          Combatant(p) && p.currentHp == AfterSpikes(team.hazards, old(p.currentHp), p.MaxHp())
      ensures r.Pass? ==> team.Valid() && Arrived(team, arena.Opponent(team.Active()))
    {
      r := team.Switch(index);
      if r.Fail? {
        return;
      }
      r := Arrive(team);
    }

    /**
     * What a team's new active leaves behind when it arrives, besides the
     * hooks: its ability's `on_switch_in` weather and attack drop, that
     * hook's messages, then the Spikes message.
     */
    twostate predicate Arrived(team: Team, foe: Pokemon)
      requires team.Valid()
      reads this, arena, arena.p1, arena.p2, team, team.members, foe
    {
      var p := team.Active();
      && p.ability.Instantiated? && SwitchInEffects(arena, p.ability.cap, foe)
      && arena.log == old(arena.log) + SwitchInLog(p.ability.cap.data.onSwitchIn, old(foe.volatiles), p.name, p.ability.cap.name)
                      + (if "spikes" in team.hazards then [HurtBySpikes(p.name)] else [])
    }

    /**
     * The arrival of a team's new active: its ability's and its item's
     * `on_switch_in`, then Spikes on that team's side.
     */
    method Arrive(team: Team) returns (r: Outcome<Fault>)
      requires Valid() && (team == team1 || team == team2)
      modifies arena`weather, arena`weatherTurns, arena`log, arena`hooks, arena.p1`stages, arena.p2`stages, team.members`currentHp
      ensures Valid()
      ensures r.Pass? ==> arena.hooks == old(arena.hooks) + [HookCall(AbilityHook, OnSwitchIn, team.Active()),
                                                             HookCall(ItemHook, OnSwitchIn, team.Active())]
      ensures r.Pass? ==> var p := team.Active();
                          Combatant(p) && p.currentHp == AfterSpikes(team.hazards, old(p.currentHp), p.MaxHp())
      ensures r.Pass? ==> team.Valid() && Arrived(team, arena.Opponent(team.Active()))
    {
      var p := team.Active();
      r := SwitchInHooks(p);
      if r.Fail? {
        return;
      }
      MemberFit(p);
      Spikes(team, p);
    }

    /** `on_switch_in` of a member's ability, then of its item; either still an identifier fails. */
    method SwitchInHooks(p: Pokemon) returns (r: Outcome<Fault>)
      requires Valid() && Member(p)
      modifies arena`weather, arena`weatherTurns, arena`log, arena`hooks, arena.p1`stages, arena.p2`stages
      ensures Valid()
      ensures r.Pass? <==> p.ability.Instantiated? && p.item.Instantiated?
      ensures r.Pass? ==> arena.hooks == old(arena.hooks) + [HookCall(AbilityHook, OnSwitchIn, p),
                                                             HookCall(ItemHook, OnSwitchIn, p)]
      ensures r.Pass? ==> SwitchInDone(arena, p.ability.cap, p, arena.Opponent(p))
    {
      r := SwitchInAbility(p);
      if r.Fail? {
        return;
      }
      r := SwitchInItem(p);
    }

    /** `on_switch_in` of a member's ability; an ability still an identifier fails. */
    method SwitchInAbility(p: Pokemon) returns (r: Outcome<Fault>)
      requires Valid() && Member(p)
      modifies arena`weather, arena`weatherTurns, arena`log, arena`hooks, arena.p1`stages, arena.p2`stages
      ensures Valid()
      ensures r.Pass? <==> p.ability.Instantiated?
      ensures r.Fail? ==> r == Fail(NotInstantiated(p.name)) && arena.hooks == old(arena.hooks)
      ensures r.Pass? ==> arena.hooks == old(arena.hooks) + [HookCall(AbilityHook, OnSwitchIn, p)]
      ensures r.Pass? ==> SwitchInDone(arena, p.ability.cap, p, arena.Opponent(p))
    {
      if !p.ability.Instantiated? {
        return Fail(NotInstantiated(p.name));
      }
      ActivesFit();
      MemberFit(p);
      var p1, p2 := arena.p1, arena.p2;
      AbilityOnSwitchIn(arena, p.ability.cap, p.ability.owner);
      ValidKept({p1, p2});
      r := Pass;
    }

    /** `on_switch_in` of a member's item; an item still an identifier fails. */
    method SwitchInItem(p: Pokemon) returns (r: Outcome<Fault>)
      requires Valid() && Member(p)
      modifies arena`hooks
      ensures Valid()
      ensures r.Pass? <==> p.item.Instantiated?
      ensures r.Fail? ==> r == Fail(NotInstantiated(p.name)) && arena.hooks == old(arena.hooks)
      ensures r.Pass? ==> arena.hooks == old(arena.hooks) + [HookCall(ItemHook, OnSwitchIn, p)]
    {
      if !p.item.Instantiated? {
        return Fail(NotInstantiated(p.name));
      }
      MemberFit(p);
      ItemOnSwitchIn(arena, p.item.cap, p.item.owner);
      ValidKept({});
      r := Pass;
    }

    /** Spikes on the team's side: `max(1, max HP * layers div 8)` damage to the Pokémon switched in, logged. */
    method Spikes(team: Team, p: Pokemon)
      requires Valid() && Member(p) && Combatant(p)
      modifies arena`log, p`currentHp
      ensures Valid()
      ensures "spikes" in team.hazards ==>
                p.currentHp == Clamp0(old(p.currentHp) - SpikesDamage(p.MaxHp(), team.hazards["spikes"]))
                && arena.log == old(arena.log) + [HurtBySpikes(p.name)]
      ensures "spikes" !in team.hazards ==> p.currentHp == old(p.currentHp) && arena.log == old(arena.log)
    {
      if "spikes" in team.hazards {
        var _ := p.ApplyDamage(SpikesDamage(p.stats["hp"], team.hazards["spikes"]));
        arena.Log(HurtBySpikes(p.name));
        ValidKept({p});
      }
    }

    /** A side's move choice: spends the move's PP, failing on a bad index. */
    method PickMove(p: Pokemon, index: int) returns (r: Outcome<Fault>)
      requires Valid() && Member(p)
      modifies if 0 <= index < |p.moves| then {p.moves[index]} else {}
      ensures Valid()
      ensures r.Pass? <==> |p.moves| == 0 || 0 <= index < |p.moves|
      ensures r.Fail? ==> r == Fail(InvalidMoveIndex)
      ensures 0 <= index < |p.moves| ==>
                var m := p.moves[index];
                m.currentPp == Spent(old(m.currentPp)) && m.accuracy == old(m.accuracy) && m.id == old(m.id)
    {
      var c := p.ChooseMove(index, null);
      ValidKept({});
      if c.Failure? {
        return Fail(c.error);
      }
      r := Pass;
    }

    /** The team whose active the defender is taken to be, for its screens. */
    function DefendingTeam(defender: Pokemon): (t: Team)
      reads team1`activeIndex
      requires team1.Valid()
      ensures t == team1 || t == team2
      ensures defender != team1.Active() ==> t == team2
    {
      if defender == team1.Active() then team1 else team2
    }

    /**
     * The damage an action deals: a pick in the calculated range, passed
     * through both items' damage adjustment, then halved by a screen on the
     * defending team's side.
     */
    method RollDamage(attacker: Pokemon, move: Move, target: Pokemon, defender: Pokemon, pick: nat) returns (dmg: int)
      requires Valid() && Member(attacker) && Member(target)
      requires attacker.ability.Instantiated? && attacker.item.Instantiated? && defender.item.Instantiated?
      ensures var range := DamageRange(attacker, move, target, arena.weather);
              dmg == ScreenedDamage(DamagePick(range.0, range.1, pick), move.category, DefendingTeam(defender).screens)
      ensures dmg >= 0
      ensures Valid()
    {
      label start:
      MemberFit(attacker);
      MemberFit(target);
      var atkStat := CategoryStat(attacker, move.category, "atk", "spa");
      var defStat := CategoryStat(target, move.category, "def", "spd");
      var initial := Damage.InitialDamage(attacker.level, move.power, atkStat, defStat);
      var low, high := Damage.GetDamageRange(initial, AttackerInfoOf(attacker), Damage.DefenderInfo(target.types),
                                             Damage.MoveInfo(move.moveType, move.category, None), false, arena.weather);
      dmg := DamagePick(low, high, pick);
      dmg := ModifyDamage(attacker.item.cap, move, dmg);
      dmg := ModifyDamage(defender.item.cap, move, dmg);
      var defTeam := DefendingTeam(defender);
      dmg := ScreenedDamage(dmg, move.category, defTeam.screens);
      ValidKept@start({});
    }

    /** The hit itself: the damage comes off the target's HP (never below 0) and is logged. */
    method Hit(attacker: Pokemon, move: Move, target: Pokemon, dmg: int)
      requires Valid() && Member(target) && dmg >= 0
      modifies arena`log, target`currentHp
      ensures Valid()
      ensures target.currentHp == Clamp0(old(target.currentHp) - dmg)
      ensures arena.log == old(arena.log) + [Dealt(attacker.name, move.name, dmg, target.name)]
    {
      MemberFit(target);
      var _ := target.ApplyDamage(dmg);
      arena.Log(Dealt(attacker.name, move.name, dmg, target.name));
      ValidKept({target});
    }

    /** `on_after_damage` of a member's ability, for a hit by `attacker` on `target`. */
    method AfterDamageAbility(p: Pokemon, move: Move, attacker: Pokemon, target: Pokemon, dmg: int, draw: nat)
      requires Valid() && Member(p) && Member(attacker) && p.ability.Instantiated?
      modifies arena`log, arena`hooks, attacker`volatiles, attacker`status, attacker`toxicCounter,
               attacker`sleepCounter, attacker`currentHp
      ensures Valid()
      ensures arena.hooks == old(arena.hooks) + [HookCall(AbilityHook, OnAfterDamage, p)]
      ensures Combatant(attacker) && AfterDamageDone(arena, p.ability.cap, p, attacker, target, dmg, draw)
    {
      MemberFit(p);
      MemberFit(attacker);
      AbilityOnAfterDamage(arena, p.ability.cap, p.ability.owner, move, attacker, target, dmg, draw);
      ValidKept({attacker});
    }

    /** `on_after_damage` of a member's item. */
    method AfterDamageItem(p: Pokemon, move: Move, attacker: Pokemon, target: Pokemon, dmg: int)
      requires Valid() && Member(p) && p.item.Instantiated?
      modifies arena`hooks
      ensures Valid()
      ensures arena.hooks == old(arena.hooks) + [HookCall(ItemHook, OnAfterDamage, p)]
    {
      MemberFit(p);
      ItemOnAfterDamage(arena, p.item.cap, p.item.owner, move, attacker, target, dmg);
      ValidKept({});
    }

    /**
     * A hit: the rolled damage is applied to the target and logged, the
     * after-damage hooks fire (attacker's ability, defender's ability,
     * attacker's item, defender's item), and a fainted target is reported.
     */
    method Strike(attacker: Pokemon, move: Move, target: Pokemon, defender: Pokemon, draws: ActionDraws)
      returns (r: Outcome<Fault>, ghost dmg: int)
      requires Valid() && Member(attacker) && Member(target) && Member(defender)
      requires attacker.ability.Instantiated? && attacker.item.Instantiated? && defender.ability.Instantiated?
      modifies arena`log, arena`hooks, target`currentHp, attacker`volatiles, attacker`status, attacker`toxicCounter,
               attacker`sleepCounter, attacker`currentHp
      ensures Valid()
      ensures r.Fail? <==> !defender.item.Instantiated?
      ensures r.Pass? ==> arena.hooks == old(arena.hooks) + [HookCall(AbilityHook, OnAfterDamage, attacker),
                                                             HookCall(AbilityHook, OnAfterDamage, defender),
                                                             HookCall(ItemHook, OnAfterDamage, attacker),
                                                             HookCall(ItemHook, OnAfterDamage, defender)]
      ensures r.Pass? ==>
                dmg == old(var range := DamageRange(attacker, move, target, arena.weather);
                           ScreenedDamage(DamagePick(range.0, range.1, draws.damagePick), move.category,
                                          DefendingTeam(defender).screens))
      ensures r.Pass? ==>
                && arena.log == old(arena.log) + [Dealt(attacker.name, move.name, dmg, target.name)]
                                + AfterDamageLog(attacker.ability.cap, attacker, attacker, target, dmg, draws.attackerChance)
                                + AfterDamageLog(defender.ability.cap, defender, attacker, target, dmg, draws.defenderChance)
                                + (if target.IsFainted() then [Fainted(target.name)] else [])
                && (target != attacker ==> target.currentHp == Clamp0(old(target.currentHp) - dmg))
      ensures r.Pass? && target != attacker ==>
                attacker.Valid() && AfterDamageEffects(defender.ability.cap, defender, attacker, target, dmg, draws.defenderChance)
    {
      if !defender.item.Instantiated? {
        return Fail(NotInstantiated(defender.name)), 0;
      }
      label start:
      var rolled := RollDamage(attacker, move, target, defender, draws.damagePick);
      dmg := rolled;
      assert unchanged@start(attacker);
      Land(attacker, move, target, defender, rolled, draws);
      r := Pass;
    }

    /**
     * A hit of `dmg` once it is rolled: the target loses it and the hit is
     * logged, the after-damage hooks fire, and a fainted target is reported.
     */
    method Land(attacker: Pokemon, move: Move, target: Pokemon, defender: Pokemon, dmg: int, draws: ActionDraws)
      requires Valid() && Member(attacker) && Member(target) && Member(defender) && dmg >= 0
      requires attacker.ability.Instantiated? && attacker.item.Instantiated?
      requires defender.ability.Instantiated? && defender.item.Instantiated?
      modifies arena`log, arena`hooks, target`currentHp, attacker`volatiles, attacker`status, attacker`toxicCounter,
               attacker`sleepCounter, attacker`currentHp
      ensures Valid()
      ensures arena.hooks == old(arena.hooks) + [HookCall(AbilityHook, OnAfterDamage, attacker),
                                                 HookCall(AbilityHook, OnAfterDamage, defender),
                                                 HookCall(ItemHook, OnAfterDamage, attacker),
                                                 HookCall(ItemHook, OnAfterDamage, defender)]
      ensures arena.log == old(arena.log) + [Dealt(attacker.name, move.name, dmg, target.name)]
                           + AfterDamageLog(attacker.ability.cap, attacker, attacker, target, dmg, draws.attackerChance)
                           + AfterDamageLog(defender.ability.cap, defender, attacker, target, dmg, draws.defenderChance)
                           + (if target.IsFainted() then [Fainted(target.name)] else [])
      ensures target != attacker ==> target.currentHp == Clamp0(old(target.currentHp) - dmg)
      ensures attacker.Valid()
      ensures target != attacker ==> AfterDamageEffects(defender.ability.cap, defender, attacker, target, dmg, draws.defenderChance)
    {
      Hit(attacker, move, target, dmg);
      AfterDamageHooks(move, attacker, target, defender, dmg, draws);
      FaintCheck(target);
    }

    /** Reports the target's fainting, if it has fainted. */
    method FaintCheck(target: Pokemon)
      requires Valid()
      modifies arena`log
      ensures Valid()
      ensures arena.log == old(arena.log) + (if target.IsFainted() then [Fainted(target.name)] else [])
    {
      ReportFaint(arena, target);
      ValidKept({});
    }

    /** The after-damage hooks: attacker's ability, defender's ability, attacker's item, defender's item. */
    method AfterDamageHooks(move: Move, attacker: Pokemon, target: Pokemon, defender: Pokemon, dmg: int, draws: ActionDraws)
      requires Valid() && Member(attacker) && Member(defender)
      requires attacker.ability.Instantiated? && attacker.item.Instantiated?
      requires defender.ability.Instantiated? && defender.item.Instantiated?
      modifies arena`log, arena`hooks, attacker`volatiles, attacker`status, attacker`toxicCounter,
               attacker`sleepCounter, attacker`currentHp
      ensures Valid()
      ensures arena.hooks == old(arena.hooks) + [HookCall(AbilityHook, OnAfterDamage, attacker),
                                                 HookCall(AbilityHook, OnAfterDamage, defender),
                                                 HookCall(ItemHook, OnAfterDamage, attacker),
                                                 HookCall(ItemHook, OnAfterDamage, defender)]
      ensures arena.log == old(arena.log) + AfterDamageLog(attacker.ability.cap, attacker, attacker, target, dmg, draws.attackerChance)
                           + AfterDamageLog(defender.ability.cap, defender, attacker, target, dmg, draws.defenderChance)
      ensures attacker.Valid()
      ensures target != attacker ==> AfterDamageEffects(defender.ability.cap, defender, attacker, target, dmg, draws.defenderChance)
    {
      AfterDamageAbility(attacker, move, attacker, target, dmg, draws.attackerChance);
      label own:
      AfterDamageAbility(defender, move, attacker, target, dmg, draws.defenderChance);
      AfterDamageItem(attacker, move, attacker, target, dmg);
      AfterDamageItem(defender, move, attacker, target, dmg);
    }

    /**
     * One action. It is skipped when either side has fainted; a flinched
     * attacker loses the flinch and its action; otherwise it is attempted.
     */
    method ExecuteAction(attacker: Pokemon, move: Move, defender: Pokemon, draws: ActionDraws) returns (r: Outcome<Fault>)
      requires Valid() && Member(attacker) && Member(defender) && move in MovesOf()
      modifies arena`log, arena`hooks, team1.members, team2.members, MovesOf()
      ensures Valid()
      ensures old(attacker.IsFainted() || defender.IsFainted()) ==>
                r == Pass && arena.log == old(arena.log) && arena.hooks == old(arena.hooks)
      ensures !old(attacker.IsFainted() || defender.IsFainted()) && "flinch" in old(attacker.volatiles) ==>
                r == Pass && attacker.volatiles == old(attacker.volatiles) - {"flinch"}
                && arena.log == old(arena.log) + [Flinched(attacker.name)]
      ensures !old(attacker.IsFainted() || defender.IsFainted()) && "flinch" !in old(attacker.volatiles) ==>
                && (!old(attacker.ability.Instantiated?) ==> r == Fail(NotInstantiated(attacker.name)))
                && (old(attacker.ability.Instantiated?)
                    && ImmunityApplies(old(attacker.ability.cap.data.onBeforeMove), move.moveType, defender == attacker) ==>
                      r == Pass && arena.log == old(arena.log) + [ImmuneToType(attacker.name, move.moveType, old(attacker.ability.cap.name))])
    {
      if attacker.IsFainted() || defender.IsFainted() {
        return Pass;
      }
      if "flinch" in attacker.volatiles {
        attacker.RemoveVolatile("flinch");
        arena.Log(Flinched(attacker.name));
        ValidKept({});
        return Pass;
      }
      r := Attempt(attacker, move, defender, draws);
    }

    /**
     * An attempted move: `on_before_move` (ability, then item) and the
     * attacker's `on_try_hit` may cancel it; the defender's redirect picks
     * the target; a miss is logged; otherwise the move strikes.
     */
    method Attempt(attacker: Pokemon, move: Move, defender: Pokemon, draws: ActionDraws) returns (r: Outcome<Fault>)
      requires Valid() && Member(attacker) && Member(defender) && move in MovesOf()
      modifies arena`log, arena`hooks, team1.members, team2.members, MovesOf()
      ensures Valid()
      ensures !old(attacker.ability.Instantiated?) ==> r == Fail(NotInstantiated(attacker.name))
      ensures old(attacker.ability.Instantiated?) && ImmunityApplies(old(attacker.ability.cap.data.onBeforeMove), move.moveType, defender == attacker) ==>
                r == Pass && arena.log == old(arena.log) + [ImmuneToType(attacker.name, move.moveType, old(attacker.ability.cap.name))]
      ensures old(attacker.ability.Instantiated? && attacker.item.Instantiated?)
              && !ImmunityApplies(old(attacker.ability.cap.data.onBeforeMove), move.moveType, defender == attacker)
              && AbsorbApplies(old(attacker.ability.cap.data.onTryHit), move.moveType, old(move.id)) ==>
                r == Pass && arena.log == old(arena.log) + [Absorbs(defender.name, move.moveType, old(attacker.ability.cap.name))]
    {
      var proceed;
      r, proceed := Gates(attacker, move, defender);
      if r.Fail? || !proceed {
        return;
      }
      if !defender.ability.Instantiated? {
        return Fail(NotInstantiated(defender.name));
      }
      var redirect := AbilityFoeRedirect(defender.ability.cap, defender.ability.owner, move, defender, attacker);
      var target := if redirect.Some? then redirect.value else defender;
      MemberFit(defender);
      if "accuracy" !in attacker.stages {
        return Fail(MissingStage(attacker.name, "accuracy"));
      }
      if "evasion" !in target.stages {
        return Fail(MissingStage(target.name, "evasion"));
      }
      if Misses(draws.accuracy, move.accuracy, attacker.stages["accuracy"], target.stages["evasion"]) {
        arena.Log(Missed(attacker.name, move.name));
        ValidKept({});
        return Pass;
      }
      ghost var dealt;
      r, dealt := Strike(attacker, move, target, defender, draws);
    }

    /**
     * The hooks that may cancel a move: the attacker's ability and item
     * `on_before_move`, then its ability's `on_try_hit`. Passing with
     * `proceed` false means the move was cancelled.
     */
    method Gates(attacker: Pokemon, move: Move, defender: Pokemon) returns (r: Outcome<Fault>, proceed: bool)
      requires Valid() && Member(attacker) && Member(defender) && move in MovesOf()
      modifies arena`log, arena`hooks, defender`volatiles, move`accuracy
      ensures Valid()
      ensures r.Fail? <==> !attacker.ability.Instantiated? || (proceed && !attacker.item.Instantiated?)
      ensures r.Fail? ==> r == Fail(NotInstantiated(attacker.name))
      ensures r.Pass? && proceed ==> attacker.ability.Instantiated? && attacker.item.Instantiated?
      ensures r.Pass? && proceed ==>
                arena.hooks == old(arena.hooks) + [HookCall(AbilityHook, OnBeforeMove, attacker),
                                                   HookCall(ItemHook, OnBeforeMove, attacker),
                                                   HookCall(AbilityHook, OnTryHit, attacker)]
      ensures attacker.ability.Instantiated? ==>
                var a := attacker.ability.cap;
                var immune := ImmunityApplies(a.data.onBeforeMove, move.moveType, defender == attacker);
                var absorbed := !immune && AbsorbApplies(a.data.onTryHit, move.moveType, move.id);
                && (r.Pass? ==> (proceed <==> !immune && !absorbed))
                && (immune ==> r.Pass? && !proceed)
                && move.accuracy
                   == (if !immune && AccuracyScalingApplies(a.data.onBeforeMove, move.moveType, true)
                       then old(move.accuracy) * a.data.onBeforeMove.accuracyMultiplier.value.numerator
                            / a.data.onBeforeMove.accuracyMultiplier.value.denominator
                       else old(move.accuracy))
                && (r.Pass? ==>
                      defender.volatiles
                      == (if absorbed then old(defender.volatiles)[a.data.onTryHit.addVolatile := Volatile(attacker, None)]
                          else old(defender.volatiles)))
                && (immune ==> arena.log == old(arena.log) + [ImmuneToType(attacker.name, move.moveType, a.name)])
                && (r.Pass? && !immune ==>
                      arena.log == old(arena.log) + (if absorbed then [Absorbs(defender.name, move.moveType, a.name)] else []))
    {
      if !attacker.ability.Instantiated? {
        return Fail(NotInstantiated(attacker.name)), false;
      }
      MemberFit(attacker);
      proceed := AbilityOnBeforeMove(arena, attacker.ability.cap, attacker.ability.owner, move, attacker, defender);
      ValidKept({});
      if !proceed {
        return Pass, false;
      }
      if !attacker.item.Instantiated? {
        return Fail(NotInstantiated(attacker.name)), true;
      }
      proceed := ItemOnBeforeMove(arena, attacker.item.cap, attacker.item.owner, move, attacker, defender);
      proceed := AbilityOnTryHit(arena, attacker.ability.cap, attacker.ability.owner, move, defender, attacker);
      ValidKept({});
      r := Pass;
    }

    /** `on_end_of_turn` of p1's ability, p2's ability, p1's item and p2's item. */
    method EndOfTurnHooks() returns (r: Outcome<Fault>)
      requires Valid()
      modifies arena`log, arena`hooks, arena.p1`currentHp, arena.p2`currentHp, arena.p1`truantTurn, arena.p2`truantTurn
      ensures Valid()
      ensures arena.weather == old(arena.weather) && arena.weatherTurns == old(arena.weatherTurns)
      ensures r.Pass? ==>
                && arena.hooks == old(arena.hooks) + [HookCall(AbilityHook, OnEndOfTurn, arena.p1), HookCall(AbilityHook, OnEndOfTurn, arena.p2),
                                                      HookCall(ItemHook, OnEndOfTurn, arena.p1), HookCall(ItemHook, OnEndOfTurn, arena.p2)]
                && arena.p1.ability.Instantiated? && arena.p2.ability.Instantiated?
                && arena.log == old(arena.log) + EndOfTurnLog(arena.p1.ability.cap, arena.p1, arena.weather)
                                + EndOfTurnLog(arena.p2.ability.cap, arena.p2, arena.weather)
      ensures old(arena.p1.ability.Instantiated?) ==>
                var p1, p2 := arena.p1, arena.p2;
                var d1 := p1.ability.cap.data.onEndOfTurn;
                var (r1, t1) := TruantToggle(d1, old(p1.truantTurn), p1.name);
                && Combatant(p1) && Combatant(p2)
                && p1.currentHp == RecoveredHp(d1, arena.weather, old(p1.currentHp), p1.MaxHp())
                && p1.truantTurn == t1
                && (r1.Fail? ==> r == r1 && p2.currentHp == old(p2.currentHp) && p2.truantTurn == old(p2.truantTurn))
      ensures r.Pass? ==>
                var p2 := arena.p2;
                var d2 := p2.ability.cap.data.onEndOfTurn;
                && Combatant(p2)
                && p2.currentHp == RecoveredHp(d2, arena.weather, old(p2.currentHp), p2.MaxHp())
                && (Pass, p2.truantTurn) == TruantToggle(d2, old(p2.truantTurn), p2.name)
    {
      var p1, p2 := arena.p1, arena.p2;
      ActivesFit();
      r := EndAbility(p1);
      if r.Fail? {
        return;
      }
      r := EndAbility(p2);
      if r.Fail? {
        return;
      }
      r := EndItem(p1);
      if r.Fail? {
        return;
      }
      r := EndItem(p2);
    }

    /** `on_end_of_turn` of one active's ability; an ability still an identifier fails. */
    method EndAbility(p: Pokemon) returns (r: Outcome<Fault>)
      requires Valid() && (p == arena.p1 || p == arena.p2)
      modifies arena`log, arena`hooks, p`currentHp, p`truantTurn
      ensures Valid()
      ensures !old(p.ability.Instantiated?) ==> r == Fail(NotInstantiated(p.name)) && arena.hooks == old(arena.hooks)
      ensures old(p.ability.Instantiated?) ==> arena.hooks == old(arena.hooks) + [HookCall(AbilityHook, OnEndOfTurn, p)]
      ensures old(p.ability.Instantiated?) ==> Combatant(p) && EndOfTurnDone(arena, p.ability.cap, p, r)
    {
      if !p.ability.Instantiated? {
        return Fail(NotInstantiated(p.name));
      }
      ActivesFit();
      r := AbilityOnEndOfTurn(arena, p.ability.cap, p.ability.owner);
      ValidKept({p});
    }

    /** `on_end_of_turn` of one active's item; an item still an identifier fails. */
    method EndItem(p: Pokemon) returns (r: Outcome<Fault>)
      requires Valid() && (p == arena.p1 || p == arena.p2)
      modifies arena`hooks
      ensures Valid()
      ensures r.Pass? <==> p.item.Instantiated?
      ensures r.Fail? ==> r == Fail(NotInstantiated(p.name)) && arena.hooks == old(arena.hooks)
      ensures r.Pass? ==> arena.hooks == old(arena.hooks) + [HookCall(ItemHook, OnEndOfTurn, p)]
    {
      if !p.item.Instantiated? {
        return Fail(NotInstantiated(p.name));
      }
      ActivesFit();
      ItemOnEndOfTurn(arena, p.item.cap, p.item.owner);
      ValidKept({});
      r := Pass;
    }

    /** Residual status damage for p1 then p2. */
    method ResidualPhase(draws: TurnDraws)
      requires Valid()
      modifies arena`log, arena.p1`currentHp, arena.p1`status, arena.p1`toxicCounter, arena.p1`sleepCounter,
               arena.p2`currentHp, arena.p2`status, arena.p2`toxicCounter, arena.p2`sleepCounter
      ensures Valid()
    {
      var p1, p2 := arena.p1, arena.p2;
      ResidualOn(p1, draws.thaw1);
      ResidualOn(p2, draws.thaw2);
    }

    /** Residual status damage for one active. */
    method ResidualOn(p: Pokemon, thawDraw: real)
      requires Valid() && (p == arena.p1 || p == arena.p2)
      modifies arena`log, p`currentHp, p`status, p`toxicCounter, p`sleepCounter
      ensures Valid()
      ensures Combatant(p) && ResidualDone(arena, p, thawDraw)
    {
      ActivesFit();
      Residual(arena, p, thawDraw);
      ValidKept({p});
    }

    /** Both actives' volatile countdowns. */
    method VolatilePhase()
      requires Valid()
      modifies arena.p1`volatiles, arena.p2`volatiles
      ensures Valid()
      ensures arena.p1.volatiles == DecayedVolatiles(old(arena.p1.volatiles))
      ensures arena.p2.volatiles == DecayedVolatiles(old(arena.p2.volatiles))
    {
      ActivesFit();
      DecrementVolatiles(arena.p1);
      DecrementVolatiles(arena.p2);
      ValidKept({});
    }

    /**
     * One turn. Either side's switch ends the turn after the switches with a
     * logged notice, before any move, residual, weather step or counter
     * change; otherwise both moves act in priority-then-speed order, then the
     * end-of-turn hooks, residual damage, the weather step and the counter.
     */
    method PlayTurn(a1: Action, a2: Action, draws: TurnDraws) returns (r: Outcome<Fault>)
      requires Valid()
      modifies arena, team1`activeIndex, team2`activeIndex, team1.members, team2.members, MovesOf()
      ensures Valid()
      ensures r.Pass? ==> arena.p1 == team1.Active() && arena.p2 == team2.Active()
      ensures a1.Switch? || a2.Switch? ==> SwitchTurnDone(a1, a2, r)
      ensures r.Pass? && (a1.Switch? || a2.Switch?) ==>
                arena.turn == old(arena.turn)
                && (forall i | |old(arena.hooks)| <= i < |arena.hooks| :: arena.hooks[i].hook == OnSwitchIn)
      ensures r.Pass? && a1.UseMove? && a2.UseMove? ==>
                arena.turn == old(arena.turn) + 1
                && (arena.weather, arena.weatherTurns) == DecayWeather(old(arena.weather), old(arena.weatherTurns))
    {
      if a1.Switch? || a2.Switch? {
        r := SwitchTurn(a1, a2);
      } else {
        r := MoveTurn(a1.index, a2.index, draws);
      }
    }

    /** A turn in which both sides move: the start of the turn, then the rest (`FinishTurn`). */
    method MoveTurn(index1: int, index2: int, draws: TurnDraws) returns (r: Outcome<Fault>)
      requires Valid()
      modifies arena, team1`activeIndex, team2`activeIndex, team1.members, team2.members, MovesOf()
      ensures Valid()
      ensures r.Pass? ==> arena.p1 == team1.Active() && arena.p2 == team2.Active()
      ensures r.Pass? ==>
                arena.turn == old(arena.turn) + 1
                && (arena.weather, arena.weatherTurns) == DecayWeather(old(arena.weather), old(arena.weatherTurns))
    {
      r := BeginTurn(UseMove(index1), UseMove(index2));
      if r.Fail? {
        return;
      }
      r := FinishTurn(index1, index2, draws);
    }

    /**
     * `step` as written: a switch turn ends after the switches as in
     * `PlayTurn`; in a turn where both sides move, the ordering assigns the
     * flat four-entry tuple to `first, second` and raises `ValueError`, after
     * the choices have spent their PP. No two-move turn gets past the
     * ordering, so no move, hook, residual, weather step or counter change
     * ever follows.
     */
    method PlayTurnAsWritten(a1: Action, a2: Action) returns (r: Outcome<Fault>)
      requires Valid()
      modifies arena`p1, arena`p2, arena`weather, arena`weatherTurns, arena`log, arena`hooks, team1`activeIndex, team2`activeIndex
      modifies team1.members`currentHp, team2.members`currentHp, team1.members`stages, team2.members`stages
      modifies team1.members`volatiles, team2.members`volatiles, MovesOf()
      ensures Valid()
      ensures a1.UseMove? && a2.UseMove? ==> r.Fail?
      ensures r.Pass? ==> arena.log != [] && arena.log[|arena.log| - 1] == SwitchOccurred
    {
      if a1.Switch? || a2.Switch? {
        r := SwitchTurn(a1, a2);
        return;
      }
      r := BeginTurn(a1, a2);
      if r.Fail? {
        return;
      }
      r := OrderAsWritten(a1.index, a2.index);
    }

    /**
     * The ordering as written: both moves are read again from the movesets,
     * the priorities (plus the items' bonus) and speeds are compared, and the
     * flat four-entry tuple is unpacked into two names, which always raises.
     */
    method OrderAsWritten(index1: int, index2: int) returns (r: Outcome<Fault>)
      requires Valid()
      ensures r.Fail?
      ensures !(0 <= index1 < |arena.p1.moves|) ==> r == Fail(MissingMove(arena.p1.name))
      ensures 0 <= index1 < |arena.p1.moves| && 0 <= index2 < |arena.p2.moves| && arena.p1.item.Instantiated? && arena.p2.item.Instantiated? ==>
                r == Fail(TupleUnpack(2, 4))
    {
      var p1, p2 := arena.p1, arena.p2;
      if !(0 <= index1 < |p1.moves|) {
        return Fail(MissingMove(p1.name));
      }
      if !(0 <= index2 < |p2.moves|) {
        return Fail(MissingMove(p2.name));
      }
      var move1, move2 := p1.moves[index1], p2.moves[index2];
      if !p1.item.Instantiated? {
        return Fail(NotInstantiated(p1.name));
      }
      if !p2.item.Instantiated? {
        return Fail(NotInstantiated(p2.name));
      }
      ActivesFit();
      var prio1 := move1.priority + PriorityBonus(p1.item.cap, move1);
      var prio2 := move2.priority + PriorityBonus(p2.item.cap, move2);
      var p1First := P1MovesFirst(prio1, prio2, p1.ModifiedStat("spe"), p2.ModifiedStat("spe"), p1.status == "par", p2.status == "par");
      var order := UnpackPair(TupleAsWritten(p1First));
      r := Fail(order.error);
    }

    /**
     * What a turn in which a side switches leaves behind: the two choices
     * (`ChoicesMade`), and a side that chose a move still on its old active,
     * unhurt (`Unhurt`).
     */
    twostate predicate SwitchTurnDone(a1: Action, a2: Action, new r: Outcome<Fault>)
      requires Valid()
      reads this, arena, team1, team2, team1.members, team2.members
    {
      && ChoicesMade(a1, a2, r)
      && (r.Pass? && a1.UseMove? ==> Unhurt(team1, old(team1.activeIndex)))
      && (r.Pass? && a2.UseMove? ==> Unhurt(team2, old(team2.activeIndex)))
    }

    /**
     * A turn in which a side switches: it ends with the start of the turn,
     * whose choices log the notice; no move, hook other than the switch-ins,
     * residual, weather step or counter change follows.
     */
    method SwitchTurn(a1: Action, a2: Action) returns (r: Outcome<Fault>)
      requires Valid() && (a1.Switch? || a2.Switch?)
      modifies arena`p1, arena`p2, arena`weather, arena`weatherTurns, arena`log, arena`hooks, team1`activeIndex, team2`activeIndex
      modifies team1.members`currentHp, team2.members`currentHp, team1.members`stages, team2.members`stages
      modifies team1.members`volatiles, team2.members`volatiles, MovesOf()
      ensures Valid()
      ensures SwitchTurnDone(a1, a2, r)
      ensures r.Pass? ==> arena.turn == old(arena.turn)
                          && (forall i | |old(arena.hooks)| <= i < |arena.hooks| :: arena.hooks[i].hook == OnSwitchIn)
    {
      ghost var q1, q2 := team1.Active(), team2.Active();
      r := BeginTurn(a1, a2);
      if r.Fail? {
        return;
      }
      assert a1.UseMove? ==> team1.Active() == q1 && q1.currentHp == old(q1.currentHp) && q1.status == old(q1.status);
      assert a2.UseMove? ==> team2.Active() == q2 && q2.currentHp == old(q2.currentHp) && q2.status == old(q2.status);
    }

    /**
     * The start of a turn: the actives are refreshed, their volatiles count
     * down, then each side switches or picks its move (`Choices`).
     */
    method BeginTurn(a1: Action, a2: Action) returns (r: Outcome<Fault>)
      requires Valid()
      modifies arena`p1, arena`p2, arena`weather, arena`weatherTurns, arena`log, arena`hooks, team1`activeIndex, team2`activeIndex
      modifies team1.members`currentHp, team2.members`currentHp, team1.members`stages, team2.members`stages
      modifies team1.members`volatiles, team2.members`volatiles, MovesOf()
      ensures Valid()
      ensures var q1, q2 := old(team1.Active()), old(team2.Active());
              q1.volatiles == DecayedVolatiles(old(q1.volatiles)) && q2.volatiles == DecayedVolatiles(old(q2.volatiles))
      ensures ChoicesMade(a1, a2, r)
      ensures forall p | p in team1.members || p in team2.members ::
                p.status == old(p.status) && p.toxicCounter == old(p.toxicCounter) && p.sleepCounter == old(p.sleepCounter)
    {
      UpdateActives();
      VolatilePhase();
      r := Choices(a1, a2);
    }

    /**
     * What the two choices leave behind. A side that switched has its new
     * active, hurt by any Spikes on its side, and made the two switch-in hook
     * calls; a side that chose a move keeps its active, and its HP. With no
     * switch the weather is kept; after one, the notice is the last log entry.
     */
    twostate predicate ChoicesMade(a1: Action, a2: Action, new r: Outcome<Fault>)
      requires Valid()
      reads this, arena, team1, team2, team1.members, team2.members
    {
      && (r.Pass? ==> arena.p1 == team1.Active() && arena.p2 == team2.Active())
      && (r.Pass? ==> arena.hooks == old(arena.hooks) + SwitchHooks(a1, team1) + SwitchHooks(a2, team2))
      && (r.Pass? && a1.Switch? ==> team1.activeIndex == a1.index
                                    && var p := team1.Active(); "hp" in p.stats && p.currentHp == AfterSpikes(team1.hazards, old(p.currentHp), p.MaxHp()))
      && (r.Pass? && a2.Switch? ==> team2.activeIndex == a2.index
                                    && var p := team2.Active(); "hp" in p.stats && p.currentHp == AfterSpikes(team2.hazards, old(p.currentHp), p.MaxHp()))
      && (a1.UseMove? ==> team1.activeIndex == old(team1.activeIndex) && team1.Active().currentHp == old(team1.Active().currentHp))
      && (a2.UseMove? ==> team2.activeIndex == old(team2.activeIndex) && team2.Active().currentHp == old(team2.Active().currentHp))
      && (a1.UseMove? && a2.UseMove? ==> arena.weather == old(arena.weather) && arena.weatherTurns == old(arena.weatherTurns))
      && (r.Pass? && (a1.Switch? || a2.Switch?) ==> arena.log != [] && arena.log[|arena.log| - 1] == SwitchOccurred)
    }

    /** Each side switches or picks its move, p1 first; then the actives are refreshed and a switch is noted. */
    method Choices(a1: Action, a2: Action) returns (r: Outcome<Fault>)
      requires Valid() && arena.p1 == team1.Active() && arena.p2 == team2.Active()
      modifies arena`p1, arena`p2, arena`weather, arena`weatherTurns, arena`log, arena`hooks, team1`activeIndex, team2`activeIndex
      modifies team1.members`currentHp, team2.members`currentHp, team1.members`stages, team2.members`stages, MovesOf()
      ensures Valid()
      ensures ChoicesMade(a1, a2, r)
    {
      r := FirstChoice(a1);
      if r.Fail? {
        return;
      }
      r := SecondChoice(a1, a2);
    }

    /** Side 1's part before the moves (`BeginAction`), as much of it as `Choices` reports. */
    method FirstChoice(a1: Action) returns (r: Outcome<Fault>)
      requires Valid() && arena.p1 == team1.Active()
      modifies arena`weather, arena`weatherTurns, arena`log, arena`hooks, team1`activeIndex
      modifies team1.members`currentHp, arena.p1`stages, arena.p2`stages, MovesOf()
      ensures Valid()
      ensures r.Pass? ==> arena.hooks == old(arena.hooks) + SwitchHooks(a1, team1)
      ensures r.Pass? && a1.Switch? ==> team1.activeIndex == a1.index
                                        && var p := team1.Active(); "hp" in p.stats && p.currentHp == AfterSpikes(team1.hazards, old(p.currentHp), p.MaxHp())
      ensures a1.UseMove? ==> team1.activeIndex == old(team1.activeIndex) && team1.Active().currentHp == old(team1.Active().currentHp)
      ensures a1.UseMove? ==> arena.weather == old(arena.weather) && arena.weatherTurns == old(arena.weatherTurns)
    {
      r := BeginAction(team1, arena.p1, a1);
    }

    /** Side 2's part before the moves (`BeginAction`), after side 1's; then the actives are refreshed. */
    method SecondChoice(a1: Action, a2: Action) returns (r: Outcome<Fault>)
      requires Valid() && arena.p2 == team2.Active()
      modifies arena`p1, arena`p2, arena`weather, arena`weatherTurns, arena`log, arena`hooks, team2`activeIndex
      modifies team2.members`currentHp, team1.members`stages, team2.members`stages, MovesOf()
      ensures Valid()
      ensures r.Pass? ==> arena.p1 == team1.Active() && arena.p2 == team2.Active()
      ensures r.Pass? ==> arena.hooks == old(arena.hooks) + SwitchHooks(a2, team2)
      ensures r.Pass? && a2.Switch? ==> team2.activeIndex == a2.index
                                        && var p := team2.Active(); "hp" in p.stats && p.currentHp == AfterSpikes(team2.hazards, old(p.currentHp), p.MaxHp())
      ensures a2.UseMove? ==> team2.activeIndex == old(team2.activeIndex) && team2.Active().currentHp == old(team2.Active().currentHp)
      ensures a2.UseMove? ==> arena.weather == old(arena.weather) && arena.weatherTurns == old(arena.weatherTurns)
      ensures r.Pass? && (a1.Switch? || a2.Switch?) ==> arena.log != [] && arena.log[|arena.log| - 1] == SwitchOccurred
    {
      r := BeginAction(team2, arena.p2, a2);
      if r.Fail? {
        return;
      }
      UpdateActives();
      if a1.Switch? || a2.Switch? {
        NoteSwitch();
      }
    }

    /** Logs that a switch occurred. */
    method NoteSwitch()
      requires Valid()
      modifies arena`log
      ensures Valid()
      ensures arena.log == old(arena.log) + [SwitchOccurred]
    {
      arena.Log(SwitchOccurred);
      ValidKept({});
    }

    /**
     * The rest of a turn without switches: the moves, the end-of-turn hooks,
     * residual damage, the weather step and the turn counter.
     */
    method FinishTurn(index1: int, index2: int, draws: TurnDraws) returns (r: Outcome<Fault>)
      requires Valid()
      modifies arena`turn, arena`weather, arena`weatherTurns, arena`log, arena`hooks, team1.members, team2.members, MovesOf()
      ensures Valid()
      ensures r.Pass? ==> arena.turn == old(arena.turn) + 1
                          && (arena.weather, arena.weatherTurns) == DecayWeather(old(arena.weather), old(arena.weatherTurns))
    {
      r := MovePhase(index1, index2, draws);
      if r.Fail? {
        return;
      }
      r := CloseTurn(draws);
    }

    /** The end of a turn after the moves: the end-of-turn hooks, residual damage, the weather step and the turn counter. */
    method CloseTurn(draws: TurnDraws) returns (r: Outcome<Fault>)
      requires Valid()
      modifies arena`turn, arena`weather, arena`weatherTurns, arena`log, arena`hooks, team1.members, team2.members
      ensures Valid()
      ensures r.Pass? ==> arena.turn == old(arena.turn) + 1
                          && (arena.weather, arena.weatherTurns) == DecayWeather(old(arena.weather), old(arena.weatherTurns))
    {
      r := EndOfTurnHooks();
      if r.Fail? {
        return;
      }
      ResidualPhase(draws);
      NextTurn();
    }

    /** The weather step, then the turn counter. */
    method NextTurn()
      requires Valid()
      modifies arena`turn, arena`weather, arena`weatherTurns, arena`log
      ensures Valid()
      ensures arena.turn == old(arena.turn) + 1
      ensures (arena.weather, arena.weatherTurns) == DecayWeather(old(arena.weather), old(arena.weatherTurns))
    {
      WeatherStep(arena);
      arena.turn := arena.turn + 1;
      ValidKept({});
    }

    /** A side's part before the moves: its switch, or its move choice. */
    method BeginAction(team: Team, active: Pokemon, a: Action) returns (r: Outcome<Fault>)
      requires Valid() && (team == team1 || team == team2) && Member(active)
      modifies team`activeIndex, arena`weather, arena`weatherTurns, arena`log, arena`hooks, arena.p1`stages, arena.p2`stages
      modifies team.members`currentHp, MovesOf()
      ensures Valid()
      ensures a.UseMove? ==> team.activeIndex == old(team.activeIndex) && unchanged(arena)
                             && forall p | p in team.members :: p.currentHp == old(p.currentHp)
      ensures a.UseMove? ==> (r.Pass? <==> |active.moves| == 0 || 0 <= a.index < |active.moves|)
      ensures a.UseMove? && 0 <= a.index < |active.moves| ==>
                active.moves[a.index].currentPp == Spent(old(active.moves[a.index].currentPp))
      ensures r.Pass? && a.Switch? ==>
                team.activeIndex == a.index && arena.hooks == old(arena.hooks) + SwitchHooks(a, team)
                && var p := team.Active(); Combatant(p) && p.currentHp == AfterSpikes(team.hazards, old(p.currentHp), p.MaxHp())
      ensures r.Pass? && a.Switch? ==> team.Valid() && Arrived(team, arena.Opponent(team.Active()))
    {
      if a.Switch? {
        r := SwitchIn(team, a.index);
      } else {
        if 0 <= a.index < |active.moves| {
          MoveOfMember(active, a.index);
        }
        r := PickMove(active, a.index);
      }
    }

    /**
     * The action order, from the priorities with the items' bonus: p1 first
     * exactly when its priority is higher or, at equal priority, its
     * paralysis-quartered speed is strictly higher; p2 first otherwise, ties
     * included.
     */
    method Order(move1: Move, prio1: int, move2: Move, prio2: int) returns (first: Pokemon, firstMove: Move, second: Pokemon, secondMove: Move)
      requires Valid()
      ensures var p1, p2 := arena.p1, arena.p2;
              p1.Valid() && p2.Valid() && "spe" in p1.stats && "spe" in p2.stats
              && var p1First := P1MovesFirst(prio1, prio2, p1.ModifiedStat("spe"), p2.ModifiedStat("spe"),
                                             p1.status == "par", p2.status == "par");
                 (first, firstMove, second, secondMove) == if p1First then (p1, move1, p2, move2) else (p2, move2, p1, move1)
    {
      ActivesFit();
      var p1, p2 := arena.p1, arena.p2;
      first, firstMove, second, secondMove := p2, move2, p1, move1;
      if P1MovesFirst(prio1, prio2, p1.ModifiedStat("spe"), p2.ModifiedStat("spe"), p1.status == "par", p2.status == "par") {
        first, firstMove, second, secondMove := p1, move1, p2, move2;
      }
    }

    /**
     * Both moves, read again from the movesets, in the order priority (plus
     * the items' bonus) then speed decides (`Order`).
     */
    method MovePhase(index1: int, index2: int, draws: TurnDraws) returns (r: Outcome<Fault>)
      requires Valid()
      modifies arena`log, arena`hooks, team1.members, team2.members, MovesOf()
      ensures Valid()
      ensures !(0 <= index1 < |old(arena.p1).moves|) ==> r == Fail(MissingMove(old(arena.p1).name))
    {
      var p1, p2 := arena.p1, arena.p2;
      if !(0 <= index1 < |p1.moves|) {
        return Fail(MissingMove(p1.name));
      }
      if !(0 <= index2 < |p2.moves|) {
        return Fail(MissingMove(p2.name));
      }
      var move1, move2 := p1.moves[index1], p2.moves[index2];
      if !p1.item.Instantiated? {
        return Fail(NotInstantiated(p1.name));
      }
      if !p2.item.Instantiated? {
        return Fail(NotInstantiated(p2.name));
      }
      ActivesFit();
      MoveOfMember(p1, index1);
      MoveOfMember(p2, index2);
      var prio1 := move1.priority + PriorityBonus(p1.item.cap, move1);
      var prio2 := move2.priority + PriorityBonus(p2.item.cap, move2);
      var first, firstMove, second, secondMove := Order(move1, prio1, move2, prio2);
      r := ExecuteAction(first, firstMove, second, draws.first);
      if r.Fail? {
        return;
      }
      r := ExecuteAction(second, secondMove, first, draws.second);
    }
  }
}

=== FILE: capability.dfy ===
/**
 * The data side of abilities and held items: the per-hook metadata records an
 * ability reads, the catalog registry built from parsed rows, and the
 * instantiation of a capability from an identifier. A missing hook key or a
 * missing field is the record's empty value: `false`, `0`, `""`, `[]` or `None`.
 */
module Capability {
  import opened Wrappers

  type Positive = n: int | n > 0 witness 1

  /** A `{numerator, denominator}` pair from the catalog. */
  datatype Fraction = Fraction(numerator: int, denominator: Positive)

  /** `on_start`: a silent announcement, trapping all foes, initialising the Truant turn. */
  datatype StartData = StartData(silent: bool, trapAllFoes: bool, initTruantTurn: bool)

  /** `on_switch_in`: a weather to set (`""` for none) and its duration, an attack drop and its substitute guard. */
  datatype SwitchInData = SwitchInData(weather: string, weatherTurns: Option<int>, atkDrop: int,
                                       ignoreIfAllFoesHaveSubstitute: bool)

  /** `on_before_move`: a type the owner is immune to, an accuracy multiplier and the types it applies to. */
  datatype BeforeMoveData = BeforeMoveData(immuneType: string, accuracyMultiplier: Option<Fraction>,
                                           physicalTypes: seq<string>)

  /** `on_try_hit`: an absorbed move type, the move ids exempt from it and the volatile it adds. */
  datatype TryHitData = TryHitData(moveType: string, excludeMoves: seq<string>, addVolatile: string)

  /** `on_foe_redirect`: the move type drawn to the owner. */
  datatype RedirectData = RedirectData(moveType: string)

  /** `on_foe_trap_pokemon`: whether foes get trapped. */
  datatype TrapData = TrapData(trapAllFoes: bool)

  /**
   * `on_after_damage`: contact-triggered effects, a chance, a volatile and a status
   * to inflict, and a recoil fraction (`0` for none).
   */
  datatype AfterDamageData = AfterDamageData(makesContact: bool, chance: Option<Fraction>, addVolatile: string,
                                             inflictStatus: Option<string>, recoilFrac: nat)

  /** `on_end_of_turn`: a recovery fraction (`0` for none), the weathers it needs, and the Truant toggle. */
  datatype EndOfTurnData = EndOfTurnData(recoverFrac: nat, weatherOnly: seq<Option<string>>, toggleTruantTurn: bool)

  /** One ability catalog row: an optional display name and one record per hook. */
  datatype AbilityData = AbilityData(
    name: Option<string>,
    onStart: StartData,
    onSwitchIn: SwitchInData,
    onBeforeMove: BeforeMoveData,
    onTryHit: TryHitData,
    onFoeRedirect: RedirectData,
    onFoeTrapPokemon: TrapData,
    onAfterDamage: AfterDamageData,
    onEndOfTurn: EndOfTurnData)

  /** The row with no keys at all: every hook has no effect. */
  const EmptyAbilityData := AbilityData(
    None,
    StartData(false, false, false),
    SwitchInData("", None, 0, false),
    BeforeMoveData("", None, []),
    TryHitData("", [], ""),
    RedirectData(""),
    TrapData(false),
    AfterDamageData(false, None, "", None, 0),
    EndOfTurnData(0, [], false))

  /** One item catalog row; the inert item hooks read nothing but the name. */
  datatype ItemData = ItemData(name: Option<string>)

  const EmptyItemData := ItemData(None)

  /** A catalog class: the registry key it was created under and its row. */
  datatype Entry<D> = Entry(key: string, data: D)

  /** An ability instance: its display name and its catalog row. */
  datatype Ability = Ability(name: string, data: AbilityData)

  /** A held-item instance: its display name and its catalog row. */
  datatype Item = Item(name: string, data: ItemData)

  /**
   * Builds the registry from parsed catalog rows, one class per key, each
   * carrying its key as class name and its row as metadata.
   */
  method LoadRegistry<D>(data: map<string, D>) returns (registry: map<string, Entry<D>>)
    ensures registry.Keys == data.Keys
    ensures forall k :: k in registry ==> registry[k] == Entry(k, data[k])
  {
    registry := map[];
    var remaining := data.Keys;
    while remaining != {}
      invariant remaining <= data.Keys
      invariant registry.Keys == data.Keys - remaining
      invariant forall k :: k in registry ==> registry[k] == Entry(k, data[k])
      decreases remaining
    {
      var name :| name in remaining;
      registry := registry[name := Entry(name, data[name])];
      remaining := remaining - {name};
    }
  }

  /**
   * The ability a Pokémon gets for the identifier it carries: the registered
   * class, named by its row's `name` or else its key; an unknown or absent
   * identifier gets the empty row, named by the identifier itself.
   */
  function InstantiateAbility(registry: map<string, Entry<AbilityData>>, id: Option<string>): (a: Ability)
    ensures id.Some? && id.value in registry ==>
              a.data == registry[id.value].data && a.name == registry[id.value].data.name.GetOr(registry[id.value].key)
    ensures !(id.Some? && id.value in registry) ==> a == Ability(id.GetOr(""), EmptyAbilityData)
  {
    if id.Some? && id.value in registry then
      var entry := registry[id.value];
      Ability(entry.data.name.GetOr(entry.key), entry.data)
    else
      Ability(id.GetOr(""), EmptyAbilityData)
  }

  /** The held item for an identifier, like `InstantiateAbility`. */
  function InstantiateItem(registry: map<string, Entry<ItemData>>, id: Option<string>): (i: Item)
    ensures id.Some? && id.value in registry ==>
              i.data == registry[id.value].data && i.name == registry[id.value].data.name.GetOr(registry[id.value].key)
    ensures !(id.Some? && id.value in registry) ==> i == Item(id.GetOr(""), EmptyItemData)
  {
    if id.Some? && id.value in registry then
      var entry := registry[id.value];
      Item(entry.data.name.GetOr(entry.key), entry.data)
    else
      Item(id.GetOr(""), EmptyItemData)
  }

  /** Loading then instantiating: a catalog key gets its own row, named by the row or else by the key. */
  lemma LoadThenInstantiate(data: map<string, AbilityData>, registry: map<string, Entry<AbilityData>>, id: string)
    requires registry.Keys == data.Keys
    requires forall k :: k in registry ==> registry[k] == Entry(k, data[k])
    requires id in data
    ensures InstantiateAbility(registry, Some(id)) == Ability(data[id].name.GetOr(id), data[id])
  {
  }
}

=== FILE: damage.dfy ===
/**
 * The Gen 3 damage arithmetic: the attack-type against defend-type chart,
 * type effectiveness as a product of chart factors, the integer initial
 * damage and the damage range obtained from the 217..255 roll sweep.
 *
 * Every multiplier the source uses is 0, 1/2, 3/2, 2 or a catalog value, so
 * multipliers are exact `real`s; a Python float `math.floor(x)` of an
 * integer-valued quotient is an integer floor division here.
 */
module Damage {
  import opened Wrappers

  /** A factor the chart lists: immune, resisted or super effective. */
  type ChartFactor = f: real | f == 0.0 || f == 0.5 || f == 2.0 witness 0.0

  /** A row of the chart: defending type -> factor; an absent entry means factor 1. */
  type ChartRowMap = map<string, ChartFactor>

  /** Attack type -> its row. */
  const TypeChart: map<string, ChartRowMap> := map[
    "Normal" := map["Rock" := 0.5, "Ghost" := 0.0, "Steel" := 0.5],
    "Fire" := map["Fire" := 0.5, "Water" := 0.5, "Grass" := 2.0, "Ice" := 2.0, "Bug" := 2.0, "Rock" := 0.5, "Dragon" := 0.5, "Steel" := 2.0],
    "Water" := map["Fire" := 2.0, "Water" := 0.5, "Grass" := 0.5, "Ground" := 2.0, "Rock" := 2.0, "Dragon" := 0.5],
    "Electric" := map["Water" := 2.0, "Electric" := 0.5, "Grass" := 0.5, "Ground" := 0.0, "Flying" := 2.0, "Dragon" := 0.5],
    "Grass" := map["Fire" := 0.5, "Water" := 2.0, "Electric" := 0.5, "Grass" := 0.5, "Poison" := 0.5, "Ground" := 2.0, "Flying" := 0.5, "Bug" := 0.5, "Rock" := 2.0, "Dragon" := 0.5, "Steel" := 0.5],
    "Ice" := map["Fire" := 0.5, "Water" := 0.5, "Grass" := 2.0, "Ice" := 0.5, "Ground" := 2.0, "Flying" := 2.0, "Dragon" := 2.0, "Steel" := 0.5],
    "Fighting" := map["Normal" := 2.0, "Ice" := 2.0, "Poison" := 0.5, "Flying" := 0.5, "Psychic" := 0.5, "Bug" := 0.5, "Rock" := 2.0, "Ghost" := 0.0, "Dark" := 2.0, "Steel" := 2.0],
    "Poison" := map["Grass" := 2.0, "Poison" := 0.5, "Ground" := 0.5, "Rock" := 0.5, "Ghost" := 0.5, "Steel" := 0.0],
    "Ground" := map["Fire" := 2.0, "Electric" := 2.0, "Grass" := 0.5, "Poison" := 2.0, "Flying" := 0.0, "Bug" := 0.5, "Rock" := 2.0, "Steel" := 2.0],
    "Flying" := map["Electric" := 0.5, "Grass" := 2.0, "Fighting" := 2.0, "Bug" := 2.0, "Rock" := 0.5, "Steel" := 0.5],
    "Psychic" := map["Fighting" := 2.0, "Poison" := 2.0, "Psychic" := 0.5, "Dark" := 0.0, "Steel" := 0.5],
    "Bug" := map["Fire" := 0.5, "Grass" := 2.0, "Fighting" := 0.5, "Poison" := 0.5, "Flying" := 0.5, "Psychic" := 2.0, "Ghost" := 0.5, "Dark" := 2.0, "Steel" := 0.5],
    "Rock" := map["Fire" := 2.0, "Ice" := 2.0, "Fighting" := 0.5, "Ground" := 0.5, "Flying" := 2.0, "Bug" := 2.0, "Steel" := 0.5],
    "Ghost" := map["Normal" := 0.0, "Psychic" := 2.0, "Ghost" := 2.0, "Dark" := 0.5],
    "Dragon" := map["Dragon" := 2.0, "Steel" := 0.5],
    "Dark" := map["Psychic" := 2.0, "Ghost" := 2.0, "Fighting" := 0.5, "Dark" := 0.5, "Steel" := 0.5],
    "Steel" := map["Fire" := 0.5, "Water" := 0.5, "Electric" := 0.5, "Ice" := 2.0, "Rock" := 2.0, "Steel" := 0.5]
  ]

  /** The chart row of an attack type; an unknown attack type has the empty row. */
  function ChartRow(moveType: string): ChartRowMap {
    if moveType in TypeChart then TypeChart[moveType] else map[]
  }

  /** The factor a row gives one defending type; a type missing from the row counts as 1. */
  function Factor(row: ChartRowMap, defType: string): real {
    if defType in row then row[defType] else 1.0
  }

  /** Product of the factors of `defTypes`, multiplied in list order. */
  function Product(row: ChartRowMap, defTypes: seq<string>): real
    decreases |defTypes|
  {
    if defTypes == [] then 1.0
    else Product(row, defTypes[..|defTypes| - 1]) * Factor(row, defTypes[|defTypes| - 1])
  }

  /** A move type the chart does not apply to: absent or the typeless `???`. */
  predicate IsTypeless(moveType: string) {
    moveType == "" || moveType == "???"
  }

  /** Type effectiveness of a move type against a defender's types. */
  function Effectiveness(moveType: string, defTypes: seq<string>): real {
    if IsTypeless(moveType) then 1.0 else Product(ChartRow(moveType), defTypes)
  }

  /** Computes the effectiveness as the source does: the chart row, then the accumulating loop. */
  method GetTypeEffectiveness(moveType: string, defenderTypes: seq<string>) returns (effectiveness: real)
    ensures IsTypeless(moveType) ==> effectiveness == 1.0
    ensures effectiveness == Effectiveness(moveType, defenderTypes)
  {
    if IsTypeless(moveType) {
      return 1.0;
    }
    var attackTypeChart := ChartRow(moveType);
    effectiveness := AccumulateFactors(attackTypeChart, defenderTypes);
  }

  /** The source's loop over the defending types, multiplying each type's factor in. */
  method AccumulateFactors(attackTypeChart: ChartRowMap, defenderTypes: seq<string>) returns (effectiveness: real)
    ensures effectiveness == Product(attackTypeChart, defenderTypes)
  {
    effectiveness := 1.0;
    for i := 0 to |defenderTypes|
      invariant effectiveness == Product(attackTypeChart, defenderTypes[..i])
    {
      var multiplier := if defenderTypes[i] in attackTypeChart then attackTypeChart[defenderTypes[i]] else 1.0;
      assert defenderTypes[..i + 1][..i] == defenderTypes[..i];
      effectiveness := effectiveness * multiplier;
    }
    assert defenderTypes[..|defenderTypes|] == defenderTypes;
  }

  /** Every factor is one of 0, 1/2, 1 and 2. */
  lemma FactorValues(row: ChartRowMap, defType: string)
    ensures Factor(row, defType) in {0.0, 0.5, 1.0, 2.0}
  {
  }

  /** Some defending type has a zero factor in the row. */
  predicate HasImmunity(row: ChartRowMap, defTypes: seq<string>) {
    exists i :: 0 <= i < |defTypes| && Factor(row, defTypes[i]) == 0.0
  }

  /** 2 raised to an integer power. */
  function Pow2(e: int): (p: real)
    ensures p > 0.0
    decreases if e >= 0 then e else -e
  {
    if e == 0 then 1.0 else if e > 0 then 2.0 * Pow2(e - 1) else Pow2(e + 1) / 2.0
  }

  lemma {:induction false} Pow2Step(e: int)
    ensures Pow2(e + 1) == 2.0 * Pow2(e)
    decreases if e >= 0 then e else -e
  {
    if e < -1 {
      Pow2Step(e + 1);
    }
  }

  /** The power of two a non-zero factor stands for: 1/2 is -1, 2 is +1, 1 is 0. */
  function Exponent(f: real): int {
    if f == 0.5 then -1 else if f == 2.0 then 1 else 0
  }

  /** Sum of the exponents of the factors of `defTypes`. */
  function ExponentSum(row: ChartRowMap, defTypes: seq<string>): int
    decreases |defTypes|
  {
    if defTypes == [] then 0
    else ExponentSum(row, defTypes[..|defTypes| - 1]) + Exponent(Factor(row, defTypes[|defTypes| - 1]))
  }

  /** Immunity in a list is immunity in its prefix or in its last type. */
  lemma ImmunitySplit(row: ChartRowMap, defTypes: seq<string>)
    requires defTypes != []
    ensures HasImmunity(row, defTypes)
            <==> HasImmunity(row, defTypes[..|defTypes| - 1]) || Factor(row, defTypes[|defTypes| - 1]) == 0.0
  {
    var n := |defTypes| - 1;
    var init := defTypes[..n];
    if HasImmunity(row, init) {
      var i :| 0 <= i < |init| && Factor(row, init[i]) == 0.0;
      assert defTypes[i] == init[i];
    }
    if HasImmunity(row, defTypes) {
      var i :| 0 <= i < |defTypes| && Factor(row, defTypes[i]) == 0.0;
      if i < n {
        assert init[i] == defTypes[i];
      }
    }
  }

  /**
   * The product is 0 when a defending type is immune and otherwise exactly
   * 2 to the sum of the factors' exponents: it is never any other value.
   */
  lemma {:induction false} ProductClosedForm(row: ChartRowMap, defTypes: seq<string>)
    ensures Product(row, defTypes)
            == if HasImmunity(row, defTypes) then 0.0 else Pow2(ExponentSum(row, defTypes))
    decreases |defTypes|
  {
    if defTypes != [] {
      var n := |defTypes| - 1;
      var init := defTypes[..n];
      var f := Factor(row, defTypes[n]);
      ProductClosedForm(row, init);
      FactorValues(row, defTypes[n]);
      ImmunitySplit(row, defTypes);
      var e := ExponentSum(row, init);
      if !HasImmunity(row, defTypes) {
        if f == 0.5 {
          Pow2Step(e - 1);
        } else if f == 2.0 {
          Pow2Step(e);
        }
      }
    }
  }

  /** Effectiveness is zero exactly when the move is typed and some defending type is immune to it. */
  lemma EffectivenessZeroIff(moveType: string, defTypes: seq<string>)
    ensures Effectiveness(moveType, defTypes) == 0.0
            <==> !IsTypeless(moveType) && HasImmunity(ChartRow(moveType), defTypes)
  {
    ProductClosedForm(ChartRow(moveType), defTypes);
  }

  /** Taking one type out of the list takes its exponent out of the sum. */
  lemma {:induction false} ExponentSumRemove(row: ChartRowMap, s: seq<string>, i: nat)
    requires i < |s|
    ensures ExponentSum(row, s) == Exponent(Factor(row, s[i])) + ExponentSum(row, s[..i] + s[i + 1..])
    decreases |s|
  {
    var n := |s| - 1;
    if i < n {
      var init := s[..n];
      ExponentSumRemove(row, init, i);
      var rest := s[..i] + s[i + 1..];
      assert rest[..|rest| - 1] == init[..i] + init[i + 1..];
      assert rest[|rest| - 1] == s[n];
    } else {
      assert s[..i] + s[i + 1..] == s[..n];
    }
  }

  /** Removing the last element of one list and any equal element of the other keeps the multisets equal. */
  lemma MultisetRemove(xs: seq<string>, ys: seq<string>, j: nat)
    requires xs != [] && multiset(xs) == multiset(ys)
    requires j < |ys| && ys[j] == xs[|xs| - 1]
    ensures multiset(xs[..|xs| - 1]) == multiset(ys[..j] + ys[j + 1..])
  {
    var n := |xs| - 1;
    var x := xs[n];
    assert ys == ys[..j] + [x] + ys[j + 1..];
    assert xs == xs[..n] + [x];
    assert multiset(ys) == multiset(ys[..j] + ys[j + 1..]) + multiset{x};
    assert multiset(xs) == multiset(xs[..n]) + multiset{x};
    assert multiset(xs[..n]) == multiset(xs) - multiset{x};
    assert multiset(ys[..j] + ys[j + 1..]) == multiset(ys) - multiset{x};
  }

  /** The exponent sum does not depend on the order of the types. */
  lemma {:induction false} ExponentSumPermutation(row: ChartRowMap, xs: seq<string>, ys: seq<string>)
    requires multiset(xs) == multiset(ys)
    ensures ExponentSum(row, xs) == ExponentSum(row, ys)
    decreases |xs|
  {
    if xs == [] {
      assert |ys| == |multiset(ys)| == 0;
    } else {
      var n := |xs| - 1;
      assert xs[n] in multiset(ys);
      var j :| 0 <= j < |ys| && ys[j] == xs[n];
      MultisetRemove(xs, ys, j);
      ExponentSumPermutation(row, xs[..n], ys[..j] + ys[j + 1..]);
      ExponentSumRemove(row, ys, j);
    }
  }

  /** Immunity does not depend on the order of the types. */
  lemma ImmunityPermutation(row: ChartRowMap, xs: seq<string>, ys: seq<string>)
    requires multiset(xs) == multiset(ys)
    ensures HasImmunity(row, xs) ==> HasImmunity(row, ys)
  {
    if HasImmunity(row, xs) {
      var i :| 0 <= i < |xs| && Factor(row, xs[i]) == 0.0;
      assert xs[i] in multiset(ys);
      var j :| 0 <= j < |ys| && ys[j] == xs[i];
    }
  }

  /** Defender-type order is irrelevant: reordering the types keeps the effectiveness. */
  lemma EffectivenessPermutation(moveType: string, xs: seq<string>, ys: seq<string>)
    requires multiset(xs) == multiset(ys)
    ensures Effectiveness(moveType, xs) == Effectiveness(moveType, ys)
  {
    var row := ChartRow(moveType);
    ProductClosedForm(row, xs);
    ProductClosedForm(row, ys);
    ExponentSumPermutation(row, xs, ys);
    ImmunityPermutation(row, xs, ys);
    ImmunityPermutation(row, ys, xs);
  }

  /** With the empty row every defending type counts 1. */
  lemma {:induction false} EmptyRowNeutral(defTypes: seq<string>)
    ensures Product(map[], defTypes) == 1.0
    decreases |defTypes|
  {
    if defTypes != [] {
      EmptyRowNeutral(defTypes[..|defTypes| - 1]);
    }
  }

  /** An attack type outside the chart is neutral against every defender. */
  lemma UnknownAttackTypeNeutral(moveType: string, defTypes: seq<string>)
    requires moveType !in TypeChart
    ensures Effectiveness(moveType, defTypes) == 1.0
  {
    EmptyRowNeutral(defTypes);
  }

  /** Against two defending types the product is the product of both factors. */
  lemma ProductOfTwo(row: ChartRowMap, t1: string, t2: string)
    ensures Product(row, [t1, t2]) == Factor(row, t1) * Factor(row, t2)
  {
    assert [t1, t2][..1] == [t1];
    assert [t1][..0] == [];
    assert Product(row, [t1]) == Factor(row, t1);
  }

  /** Against two defending types the effectiveness is the product of both chart factors. */
  lemma TwoTypes(moveType: string, t1: string, t2: string)
    requires !IsTypeless(moveType)
    ensures Effectiveness(moveType, [t1, t2]) == Factor(ChartRow(moveType), t1) * Factor(ChartRow(moveType), t2)
  {
    ProductOfTwo(ChartRow(moveType), t1, t2);
  }

  /** A Normal move is voided exactly by a Ghost defending type, and a Ghost move by Normal. */
  lemma NormalGhostImmunity(defTypes: seq<string>)
    ensures Effectiveness("Normal", defTypes) == 0.0 <==> "Ghost" in defTypes
    ensures Effectiveness("Ghost", defTypes) == 0.0 <==> "Normal" in defTypes
  {
    EffectivenessZeroIff("Normal", defTypes);
    EffectivenessZeroIff("Ghost", defTypes);
    if "Ghost" in defTypes {
      var i :| 0 <= i < |defTypes| && defTypes[i] == "Ghost";
      assert Factor(ChartRow("Normal"), defTypes[i]) == 0.0;
    }
    if "Normal" in defTypes {
      var i :| 0 <= i < |defTypes| && defTypes[i] == "Normal";
      assert Factor(ChartRow("Ghost"), defTypes[i]) == 0.0;
    }
  }

  /**
   * The initial damage `((2*level div 5 + 2) * power * attack div defense) div 50`,
   * or 0 when attack or power is 0. A zero defense otherwise divides by zero in
   * the source, hence the precondition.
   */
  function InitialDamage(level: nat, power: nat, attack: nat, defense: nat): (d: nat)
    requires attack == 0 || power == 0 || defense > 0
    ensures attack == 0 || power == 0 ==> d == 0
  {
    if attack == 0 || power == 0 then 0
    else ((2 * level) / 5 + 2) * power * attack / defense / 50
  }

  lemma MulSign(m: int, k: int)
    requires m > 0
    ensures k >= 1 ==> m * k >= m
    ensures k <= -1 ==> m * k <= -m
  {
  }

  /** Floor division is determined by quotient and remainder. */
  lemma DivUnique(x: int, m: int, q: int, r: int)
    requires m > 0 && 0 <= r < m && x == m * q + r
    ensures x / m == q
  {
    var q0 := x / m;
    var r0 := x % m;
    assert m * (q - q0) == r0 - r;
    MulSign(m, q - q0);
  }

  /** Substituting one quotient-remainder split into another. */
  lemma NestedSplit(x: int, a: int, b: int, q: int, r: int, q2: int, r2: int)
    requires x == a * q + r && q == b * q2 + r2
    ensures x == (a * b) * q2 + (a * r2 + r)
  {
    assert a * q == a * (b * q2) + a * r2;
    assert a * (b * q2) == (a * b) * q2;
  }

  /** The combined remainder stays below the combined divisor. */
  lemma NestedRemainder(a: int, b: int, r: int, r2: int)
    requires a > 0 && 0 <= r < a && 0 <= r2 < b
    ensures 0 <= a * r2 + r < a * b
  {
    MulMonotone(a, r2, b - 1);
    assert a * (b - 1) == a * b - a;
  }

  /** Multiplying by a non-negative factor keeps the order. */
  lemma MulMonotone(k: int, x: int, y: int)
    requires k >= 0 && x <= y
    ensures k * x <= k * y
  {
    assert k * y - k * x == k * (y - x);
  }

  /** Two successive floor divisions are one floor division by the product. */
  lemma DivDiv(x: nat, a: nat, b: nat)
    requires a > 0 && b > 0
    ensures x / a / b == x / (a * b)
  {
    var q := x / a;
    var q2 := q / b;
    NestedSplit(x, a, b, q, x % a, q2, q % b);
    NestedRemainder(a, b, x % a, q % b);
    DivUnique(x, a * b, q2, a * (q % b) + x % a);
  }

  /** The two successive floors equal one floor of the whole quotient by 50 * defense. */
  lemma InitialDamageSingleDivision(level: nat, power: nat, attack: nat, defense: nat)
    requires defense > 0
    ensures InitialDamage(level, power, attack, defense)
            == ((2 * level) / 5 + 2) * power * attack / (defense * 50)
  {
    DivDiv(((2 * level) / 5 + 2) * power * attack, defense, 50);
  }

  /** Floor division by a positive divisor is monotone. */
  lemma DivMonotone(x: nat, y: nat, d: nat)
    requires d > 0 && x <= y
    ensures x / d <= y / d
  {
    var qx, qy := x / d, y / d;
    assert d * qx <= x;
    assert y < d * (qy + 1);
    assert d * (qy + 1 - qx) > 0;
    MulSign(d, qx - qy);
  }

  /** More attack never gives less initial damage. */
  lemma InitialDamageMonotoneInAttack(level: nat, power: nat, a1: nat, a2: nat, defense: nat)
    requires defense > 0 && a1 <= a2
    ensures InitialDamage(level, power, a1, defense) <= InitialDamage(level, power, a2, defense)
  {
    if a1 != 0 && power != 0 {
      var k := ((2 * level) / 5 + 2) * power;
      MulMonotone(k, a1, a2);
      DivMonotone(k * a1, k * a2, defense);
      DivMonotone(k * a1 / defense, k * a2 / defense, 50);
    }
  }

  /** The worked example: level 100, power 80, attack 100, defense 100 give 67. */
  lemma InitialDamageExample()
    ensures InitialDamage(100, 80, 100, 100) == 67
  {
  }

  /** What the range computation reads of the attacker (the source's `atk_data`). */
  datatype AttackerInfo = AttackerInfo(types: seq<string>, status: string, ability: string)

  /** What it reads of the defender (the source's `def_data`). */
  datatype DefenderInfo = DefenderInfo(types: seq<string>)

  /** What it reads of the move: its type, its category and an optional crit multiplier. */
  datatype MoveInfo = MoveInfo(moveType: string, category: string, critModifier: Option<real>)

  /** Burn halves (floor) the damage of a physical move unless the attacker has Guts. */
  predicate BurnApplies(attacker: AttackerInfo, move: MoveInfo) {
    attacker.status == "brn" && move.category == "Physical" && attacker.ability != "Guts"
  }

  /** The damage after burn, the raise to at least 1 and the fixed +2 offset. */
  function OffsetDamage(initial: int, attacker: AttackerInfo, move: MoveInfo): (d: int)
    ensures d >= 3
    ensures BurnApplies(attacker, move) ==> d == Max(1, initial / 2) + 2
    ensures !BurnApplies(attacker, move) ==> d == Max(1, initial) + 2
  {
    var burned := if BurnApplies(attacker, move) then initial / 2 else initial;
    Max(1, burned) + 2
  }

  function Max(a: int, b: int): int {
    if a >= b then a else b
  }

  /** The weather factor: sun boosts Fire and weakens Water, rain the reverse. */
  function WeatherFactor(weather: Option<string>, moveType: string): (f: real)
    ensures f in {0.5, 1.0, 1.5}
    ensures f == 1.5 <==> (weather == Some("sun") && moveType == "Fire") || (weather == Some("rain") && moveType == "Water")
    ensures f == 0.5 <==> (weather == Some("sun") && moveType == "Water") || (weather == Some("rain") && moveType == "Fire")
  {
    if weather == Some("sun") && moveType == "Fire" then 1.5
    else if weather == Some("sun") && moveType == "Water" then 0.5
    else if weather == Some("rain") && moveType == "Water" then 1.5
    else if weather == Some("rain") && moveType == "Fire" then 0.5
    else 1.0
  }

  /** The critical-hit multiplier: the move's own, or 2 when it has none. */
  function CritMultiplier(move: MoveInfo): real {
    move.critModifier.GetOr(2.0)
  }

  /** Same-type attack bonus applies when the move type is one of the attacker's types. */
  predicate HasStab(attacker: AttackerInfo, move: MoveInfo) {
    move.moveType in attacker.types
  }

  /** The critical-hit step of the multiplier chain. */
  function ApplyCrit(m: real, move: MoveInfo, isCrit: bool): real {
    if isCrit then m * CritMultiplier(move) else m
  }

  /** The same-type-bonus step of the multiplier chain. */
  function ApplyStab(m: real, attacker: AttackerInfo, move: MoveInfo): real {
    if HasStab(attacker, move) then m * 1.5 else m
  }

  /**
   * The full multiplier, applied in the source's order: weather, then critical
   * hit, then same-type bonus (3/2), then the type effectiveness.
   */
  function Modifier(attacker: AttackerInfo, move: MoveInfo, isCrit: bool, weather: Option<string>, effectiveness: real): real {
    ApplyStab(ApplyCrit(WeatherFactor(weather, move.moveType), move, isCrit), attacker, move) * effectiveness
  }

  /** The base damage before the roll: floor of the offset damage times the modifier. */
  function BaseDamage(initial: int, attacker: AttackerInfo, move: MoveInfo, isCrit: bool, weather: Option<string>, effectiveness: real): int {
    Scaled(OffsetDamage(initial, attacker, move), Modifier(attacker, move, isCrit, weather, effectiveness))
  }

  /** An integer damage times a multiplier, floored. */
  function Scaled(damage: int, modifier: real): int {
    (damage as real * modifier).Floor
  }

  /** One damage roll: floor(base * r / 255), raised to at least 1. */
  function Roll(base: int, r: int): int {
    Max(1, base * r / 255)
  }

  /** A larger roll never gives less damage; a negative base always rolls 1. */
  lemma RollMonotone(base: int, r1: nat, r2: nat)
    requires r1 <= r2
    ensures base >= 0 ==> Roll(base, r1) <= Roll(base, r2)
    ensures base < 0 && r1 > 0 ==> Roll(base, r1) == 1
  {
    if base >= 0 {
      assert base * r1 <= base * r2;
      DivMonotone(base * r1, base * r2, 255);
    } else if r1 > 0 {
      assert base * r1 < 0;
    }
  }

  /** Smallest element of a non-empty sequence. */
  function SeqMin(s: seq<int>): (m: int)
    requires |s| > 0
    ensures m in s && forall x :: x in s ==> m <= x
  {
    if |s| == 1 then s[0]
    else var rest := SeqMin(s[1..]); assert s == [s[0]] + s[1..]; if s[0] <= rest then s[0] else rest
  }

  /** Largest element of a non-empty sequence. */
  function SeqMax(s: seq<int>): (m: int)
    requires |s| > 0
    ensures m in s && forall x :: x in s ==> x <= m
  {
    if |s| == 1 then s[0]
    else var rest := SeqMax(s[1..]); assert s == [s[0]] + s[1..]; if s[0] >= rest then s[0] else rest
  }

  /** The rolls for r = 217..255 are ordered, so their extremes are the first and the last roll. */
  lemma RollExtremes(base: int, rolls: seq<int>)
    requires |rolls| == 39
    requires forall k :: 0 <= k < 39 ==> rolls[k] == Roll(base, 217 + k)
    ensures SeqMin(rolls) == Max(1, base * 217 / 255)
    ensures SeqMax(rolls) == Max(1, base)
  {
    forall k | 0 <= k < 39
      ensures rolls[0] <= rolls[k] <= rolls[38]
    {
      RollMonotone(base, 217, 217 + k);
      RollMonotone(base, 217 + k, 255);
    }
    assert rolls[0] in rolls && rolls[38] in rolls;
    assert base * 255 / 255 == base;
  }

  /** Steps 1 and 2 of the range computation: burn, the raise to at least 1 and the +2. */
  method BurnAndOffset(initial: int, attacker: AttackerInfo, move: MoveInfo) returns (modifiedDamage: int)
    ensures modifiedDamage == OffsetDamage(initial, attacker, move)
  {
    modifiedDamage := initial;
    if attacker.status == "brn" && move.category == "Physical" && attacker.ability != "Guts" {
      modifiedDamage := modifiedDamage / 2;
    }
    modifiedDamage := Max(1, modifiedDamage);
    modifiedDamage := modifiedDamage + 2;
  }

  /** Step 3 of the range computation: the multiplier chain, starting from 1. */
  method MultiplierChain(attacker: AttackerInfo, move: MoveInfo, isCrit: bool, weather: Option<string>,
                         typeEffectiveness: real) returns (modifier: real)
    ensures modifier == Modifier(attacker, move, isCrit, weather, typeEffectiveness)
  {
    modifier := 1.0;
    if weather.Some? {
      if weather.value == "sun" && move.moveType == "Fire" {
        modifier := modifier * 1.5;
      } else if weather.value == "sun" && move.moveType == "Water" {
        modifier := modifier * 0.5;
      } else if weather.value == "rain" && move.moveType == "Water" {
        modifier := modifier * 1.5;
      } else if weather.value == "rain" && move.moveType == "Fire" {
        modifier := modifier * 0.5;
      }
    }
    assert modifier == WeatherFactor(weather, move.moveType);
    if isCrit {
      modifier := modifier * move.critModifier.GetOr(2.0);
    }
    assert modifier == ApplyCrit(WeatherFactor(weather, move.moveType), move, isCrit);
    if move.moveType in attacker.types {
      modifier := modifier * 1.5;
    }
    assert modifier == ApplyStab(ApplyCrit(WeatherFactor(weather, move.moveType), move, isCrit), attacker, move);
    modifier := modifier * typeEffectiveness;
  }

  /** Step 4 of the range computation: all rolls r = 217..255 of a base damage, and their extremes. */
  method RollSweep(finalBaseDamage: int) returns (low: int, high: int)
    ensures low == Max(1, finalBaseDamage * 217 / 255) && high == Max(1, finalBaseDamage)
    ensures 1 <= low <= high
  {
    var damageRolls: seq<int> := [];
    for r := 217 to 256
      invariant |damageRolls| == r - 217
      invariant forall k :: 0 <= k < |damageRolls| ==> damageRolls[k] == Roll(finalBaseDamage, 217 + k)
    {
      damageRolls := damageRolls + [Max(1, finalBaseDamage * r / 255)];
    }
    low, high := SeqMin(damageRolls), SeqMax(damageRolls);
    RollExtremes(finalBaseDamage, damageRolls);
  }

  /**
   * The (low, high) damage range. It is (0, 0) exactly when the move is
   * ineffective; otherwise, with b the base damage, high is max(1, b) and low
   * is max(1, b*217 div 255), so 1 <= low <= high.
   */
  method GetDamageRange(initial: int, attacker: AttackerInfo, defender: DefenderInfo, move: MoveInfo,
                        isCrit: bool, weather: Option<string>) returns (low: int, high: int)
    ensures var e := Effectiveness(move.moveType, defender.types);
            && (e == 0.0 ==> low == 0 && high == 0)
            && (e != 0.0 ==> var b := BaseDamage(initial, attacker, move, isCrit, weather, e);
                               low == Max(1, b * 217 / 255) && high == Max(1, b) && 1 <= low <= high)
  {
    var typeEffectiveness := GetTypeEffectiveness(move.moveType, defender.types);
    if typeEffectiveness == 0.0 {
      return 0, 0;
    }
    var modifiedDamage := BurnAndOffset(initial, attacker, move);
    var modifier := MultiplierChain(attacker, move, isCrit, weather, typeEffectiveness);
    var finalBaseDamage := Scaled(modifiedDamage, modifier);
    low, high := RollSweep(finalBaseDamage);
  }
}

=== FILE: faults.dfy ===
/** The exceptions the battle core raises, as values. */
module Faults {
  datatype Fault =
    | NoPpLeft(move: string)                     // ValueError from use_pp
    | InvalidMoveIndex                           // IndexError from choose_move
    | InvalidSwitchIndex                         // IndexError from Team.switch
    | SwitchToFainted                            // ValueError from Team.switch
    | AlreadyStatused(name: string, status: string) // ValueError from set_status
    | NotInstantiated(owner: string)             // a hook called on an ability or item that is still an identifier
    | TruantTurnUnset(owner: string)             // toggling truantTurn before anything set it
    | MissingMove(owner: string)                 // a move index read from an empty moveset, or a missing Struggle
    | MissingStage(owner: string, stage: string) // KeyError from a direct read of a stat stage
    | TupleUnpack(expected: nat, got: nat)       // ValueError from unpacking a tuple of the wrong length
}

=== FILE: items.dfy ===
/**
 * The held item: the inert capability. Every hook leaves the battle as it
 * was (it only appears in the ghost record of hook calls), `on_before_move`
 * always lets the move proceed, and the two hooks the battle loop asks for
 * but the item never defines are a priority bonus of 0 and an unchanged
 * damage value.
 */
module Items {
  import opened Wrappers
  import opened Capability
  import opened Moves
  import opened PokemonState
  import opened Arenas

  /** Binds a capability to the Pokémon it is constructed for. */
  function Bind<C>(cap: C, owner: Pokemon): (h: Held<C>)
    ensures h.Instantiated? && h.cap == cap && h.owner == owner
  {
    Instantiated(cap, owner)
  }

  /** The item an identifier yields, bound to its owner. */
  function BindItem(registry: map<string, Entry<ItemData>>, id: Option<string>, owner: Pokemon): (h: Held<Item>)
    ensures h.Instantiated? && h.owner == owner
    ensures id.Some? && id.value in registry ==> h.cap.data == registry[id.value].data
    ensures !(id.Some? && id.value in registry) ==> h.cap.data == EmptyItemData && h.cap.name == id.GetOr("")
  {
    Bind(InstantiateItem(registry, id), owner)
  }

  /** `on_start`: no effect. */
  method ItemOnStart(arena: Arena, i: Item, owner: Pokemon)
    modifies arena`hooks
    ensures arena.hooks == old(arena.hooks) + [HookCall(ItemHook, OnStart, owner)]
  {
    arena.Record(HookCall(ItemHook, OnStart, owner));
  }

  /** `on_switch_in`: no effect. */
  method ItemOnSwitchIn(arena: Arena, i: Item, owner: Pokemon)
    modifies arena`hooks
    ensures arena.hooks == old(arena.hooks) + [HookCall(ItemHook, OnSwitchIn, owner)]
  {
    arena.Record(HookCall(ItemHook, OnSwitchIn, owner));
  }

  /** `on_before_move`: the move always proceeds. */
  method ItemOnBeforeMove(arena: Arena, i: Item, owner: Pokemon, move: Move, attacker: Pokemon, defender: Pokemon)
    returns (proceed: bool)
    modifies arena`hooks
    ensures proceed
    ensures arena.hooks == old(arena.hooks) + [HookCall(ItemHook, OnBeforeMove, owner)]
  {
    arena.Record(HookCall(ItemHook, OnBeforeMove, owner));
    proceed := true;
  }

  /** `on_after_damage`: no effect. */
  method ItemOnAfterDamage(arena: Arena, i: Item, owner: Pokemon, move: Move, attacker: Pokemon, defender: Pokemon, damage: int)
    modifies arena`hooks
    ensures arena.hooks == old(arena.hooks) + [HookCall(ItemHook, OnAfterDamage, owner)]
  {
    arena.Record(HookCall(ItemHook, OnAfterDamage, owner));
  }

  /** `on_end_of_turn`: no effect. */
  method ItemOnEndOfTurn(arena: Arena, i: Item, owner: Pokemon)
    modifies arena`hooks
    ensures arena.hooks == old(arena.hooks) + [HookCall(ItemHook, OnEndOfTurn, owner)]
  {
    arena.Record(HookCall(ItemHook, OnEndOfTurn, owner));
  }

  /** The priority bonus the battle loop asks a held item for: none. */
  function PriorityBonus(i: Item, move: Move): (bonus: int)
    ensures bonus == 0
  {
    0
  }

  /** The damage adjustment the battle loop asks a held item for: none. */
  function ModifyDamage(i: Item, move: Move, damage: int): (d: int)
    ensures d == damage
  {
    damage
  }
}

=== FILE: legacy_battle.dfy ===
/**
 * The older two-combatant battle loop: no teams, no switching and no held
 * items. Construction binds both abilities, `Start` fires their start hooks,
 * and `PlayTurn` takes one move index per side: both choices spend PP first,
 * then the two actions run in priority-then-speed order, the end-of-turn
 * ability hooks fire, the weather counts down and the turn counter advances.
 * Every random draw of a turn is a parameter.
 */
module LegacyBattles {
  import opened Wrappers
  import opened Faults
  import opened Capability
  import opened Moves
  import opened PokemonState
  import opened Arenas
  import opened Abilities
  import opened TurnRules
  import Damage
  import Battles
  import Items

  /** The draws of a turn: one set per action. */
  datatype LegacyDraws = LegacyDraws(first: Battles.ActionDraws, second: Battles.ActionDraws)

  /**
   * Binds both combatants' abilities, looked up by identifier in the
   * registry, to them; their items stay identifiers.
   */
  method BindAbilities(p1: Pokemon, p2: Pokemon, abilities: map<string, Entry<AbilityData>>)
    requires p1 != p2 && Battles.Combatant(p1) && Battles.Combatant(p2)
    modifies p1`ability, p2`ability
    ensures Battles.Combatant(p1) && Battles.Combatant(p2)
    ensures p1.ability == Items.Bind(InstantiateAbility(abilities, Battles.HeldId(old(p1.ability))), p1)
    ensures p2.ability == Items.Bind(InstantiateAbility(abilities, Battles.HeldId(old(p2.ability))), p2)
  {
    p1.ability := Items.Bind(InstantiateAbility(abilities, Battles.HeldId(p1.ability)), p1);
    p2.ability := Items.Bind(InstantiateAbility(abilities, Battles.HeldId(p2.ability)), p2);
  }

  class LegacyBattle {
    const p1: Pokemon
    const p2: Pokemon
    /** The two combatants, the weather, the turn counter and the log. */
    const arena: Arena

    /** One of the two combatants. */
    predicate Side(p: Pokemon) {
      p == p1 || p == p2
    }

    /** The moves a turn may touch: both movesets and the two Struggle fallbacks. */
    ghost function TurnMoves(struggle1: Move?, struggle2: Move?): set<Move?> {
      (set m | m in p1.moves) + (set m | m in p2.moves) + {struggle1, struggle2}
    }

    /** Two distinct combatants, both fit to battle and with bound abilities, seen by the hooks. */
    ghost predicate Valid()
      reads arena`p1, arena`p2
      reads p1`currentHp, p1`stages, p1`status, p1`toxicCounter, p1`sleepCounter, p1`ability, p1`item
      reads p2`currentHp, p2`stages, p2`status, p2`toxicCounter, p2`sleepCounter, p2`ability, p2`item
    {
      && arena.p1 == p1 && arena.p2 == p2 && p1 != p2
      && Battles.Combatant(p1) && Battles.Combatant(p2)
      && p1.ability.Instantiated? && p2.ability.Instantiated?
    }

    /**
     * A battle between `p1` and `p2`: turn 0, no weather countdown, an empty
     * log, and each ability identifier looked up and bound to its holder.
     */
    constructor (p1: Pokemon, p2: Pokemon, weather: Option<string>, abilities: map<string, Entry<AbilityData>>)
      requires p1 != p2 && Battles.Combatant(p1) && Battles.Combatant(p2)
      modifies p1`ability, p2`ability
      ensures this.p1 == p1 && this.p2 == p2 && Valid()
      ensures arena.weather == weather && arena.weatherTurns == 0 && arena.turn == 0 && arena.log == [] && arena.hooks == []
      ensures p1.ability == Items.Bind(InstantiateAbility(abilities, Battles.HeldId(old(p1.ability))), p1)
      ensures p2.ability == Items.Bind(InstantiateAbility(abilities, Battles.HeldId(old(p2.ability))), p2)
    {
      this.p1 := p1;
      this.p2 := p2;
      arena := new Arena(p1, p2, weather);
      new;
      BindAbilities(p1, p2, abilities);
    }

    /** Starts the battle: turn 1, then `on_start` of p1's ability and of p2's. */
    method Start()
      requires Valid()
      modifies arena`turn, arena`log, arena`hooks, p1`trapped, p2`trapped, p1`truantTurn, p2`truantTurn
      ensures Valid()
      ensures arena.turn == 1
      ensures arena.hooks == old(arena.hooks) + [HookCall(AbilityHook, OnStart, p1), HookCall(AbilityHook, OnStart, p2)]
      ensures var a1, a2 := p1.ability.cap, p2.ability.cap;
              && arena.log == old(arena.log) + StartLog(a1.data.onStart, p1.name, a1.name) + StartLog(a2.data.onStart, p2.name, a2.name)
              && p1.trapped == (old(p1.trapped) || a2.data.onStart.trapAllFoes)
              && p2.trapped == (old(p2.trapped) || a1.data.onStart.trapAllFoes)
              && p1.truantTurn == (if a1.data.onStart.initTruantTurn then Some(false) else old(p1.truantTurn))
              && p2.truantTurn == (if a2.data.onStart.initTruantTurn then Some(false) else old(p2.truantTurn))
    {
      arena.turn := 1;
      StartAbility(p1);
      StartAbility(p2);
    }

    /** `on_start` of one combatant's ability. */
    method StartAbility(p: Pokemon)
      requires Valid() && Side(p)
      modifies arena`log, arena`hooks, p1`trapped, p2`trapped, p`truantTurn
      ensures Valid()
      ensures arena.hooks == old(arena.hooks) + [HookCall(AbilityHook, OnStart, p)]
      ensures StartDone(arena, p.ability.cap, p)
    {
      AbilityOnStart(arena, p.ability.cap, p.ability.owner);
    }

    /**
     * One turn: both sides choose their moves (spending PP) before anything
     * else; the two actions run in priority-then-speed order; then the
     * end-of-turn ability hooks (p1 first), the weather step and the counter.
     */
    method PlayTurn(idx1: int, idx2: int, struggle1: Move?, struggle2: Move?, draws: LegacyDraws) returns (r: Outcome<Fault>)
      requires Valid()
      modifies arena`log, arena`hooks, arena`weather, arena`weatherTurns, arena`turn
      modifies p1`currentHp, p1`status, p1`toxicCounter, p1`sleepCounter, p1`volatiles, p1`truantTurn
      modifies p2`currentHp, p2`status, p2`toxicCounter, p2`sleepCounter, p2`volatiles, p2`truantTurn
      modifies TurnMoves(struggle1, struggle2)
      ensures Valid()
      ensures |p1.moves| > 0 && !(0 <= idx1 < |p1.moves|) ==> r == Fail(InvalidMoveIndex)
      ensures 0 <= idx1 < |p1.moves| && |p2.moves| > 0 && !(0 <= idx2 < |p2.moves|) ==> r == Fail(InvalidMoveIndex)
      ensures 0 <= idx1 < |p1.moves| && !(0 <= idx2 < |p2.moves| && p2.moves[idx2] == p1.moves[idx1]) ==>
                p1.moves[idx1].currentPp == Spent(old(p1.moves[idx1].currentPp))
      ensures (|p1.moves| == 0 || 0 <= idx1 < |p1.moves|) && 0 <= idx2 < |p2.moves| ==>
                p2.moves[idx2].currentPp
                == if 0 <= idx1 < |p1.moves| && p1.moves[idx1] == p2.moves[idx2]
                   then Spent(Spent(old(p2.moves[idx2].currentPp)))
                   else Spent(old(p2.moves[idx2].currentPp))
      ensures |p1.moves| == 0 && struggle1 == null && (|p2.moves| == 0 || 0 <= idx2 < |p2.moves|) ==>
                r == Fail(MissingMove(p1.name))
      ensures r.Pass? ==> arena.turn == old(arena.turn) + 1
                          && (arena.weather, arena.weatherTurns) == DecayWeather(old(arena.weather), old(arena.weatherTurns))
    {
      var chosen := ChooseMoves(idx1, idx2, struggle1, struggle2);
      if chosen.Failure? {
        return Fail(chosen.error);
      }
      r := RunTurn(chosen.value.0, chosen.value.1, draws);
    }

    /**
     * `play_turn` as written: both choices are made (spending their PP), then
     * the ordering assigns the flat four-entry tuple to `first, second`, which
     * raises `ValueError`. No turn gets past the ordering, so no action, hook,
     * weather step or counter change ever follows a choice.
     */
    method PlayTurnAsWritten(idx1: int, idx2: int, struggle1: Move?, struggle2: Move?) returns (r: Outcome<Fault>)
      requires Valid()
      modifies TurnMoves(struggle1, struggle2)
      ensures Valid()
      ensures r.Fail?
      ensures (if |p1.moves| == 0 then struggle1 != null else 0 <= idx1 < |p1.moves|)
              && (if |p2.moves| == 0 then struggle2 != null else 0 <= idx2 < |p2.moves|) ==>
                r == Fail(TupleUnpack(2, 4))
      ensures |p1.moves| > 0 && !(0 <= idx1 < |p1.moves|) ==> r == Fail(InvalidMoveIndex)
      ensures 0 <= idx1 < |p1.moves| && !(0 <= idx2 < |p2.moves| && p2.moves[idx2] == p1.moves[idx1]) ==>
                p1.moves[idx1].currentPp == Spent(old(p1.moves[idx1].currentPp))
      ensures (|p1.moves| == 0 || 0 <= idx1 < |p1.moves|) && 0 <= idx2 < |p2.moves| ==>
                p2.moves[idx2].currentPp
                == if 0 <= idx1 < |p1.moves| && p1.moves[idx1] == p2.moves[idx2]
                   then Spent(Spent(old(p2.moves[idx2].currentPp)))
                   else Spent(old(p2.moves[idx2].currentPp))
    {
      var chosen := ChooseMoves(idx1, idx2, struggle1, struggle2);
      if chosen.Failure? {
        return Fail(chosen.error);
      }
      var move1, move2 := chosen.value.0, chosen.value.1;
      var p1First := P1MovesFirst(move1.priority, move2.priority, p1.ModifiedStat("spe"), p2.ModifiedStat("spe"),
                                  p1.status == "par", p2.status == "par");
      var order := UnpackPair(TupleAsWritten(p1First));
      r := Fail(order.error);
    }

    /** The turn once both moves are chosen: the actions, the end-of-turn hooks, the weather step and the counter. */
    method RunTurn(move1: Move, move2: Move, draws: LegacyDraws) returns (r: Outcome<Fault>)
      requires Valid()
      modifies arena`log, arena`hooks, arena`weather, arena`weatherTurns, arena`turn, move1`accuracy, move2`accuracy
      modifies p1`currentHp, p1`status, p1`toxicCounter, p1`sleepCounter, p1`volatiles, p1`truantTurn
      modifies p2`currentHp, p2`status, p2`toxicCounter, p2`sleepCounter, p2`volatiles, p2`truantTurn
      ensures Valid()
      ensures r.Pass? ==> arena.turn == old(arena.turn) + 1
                          && (arena.weather, arena.weatherTurns) == DecayWeather(old(arena.weather), old(arena.weatherTurns))
    {
      r := MovePhase(move1, move2, draws);
      if r.Fail? {
        return;
      }
      r := CloseTurn();
    }

    /** The end of a turn after the moves: the end-of-turn hooks, the weather step and the turn counter. */
    method CloseTurn() returns (r: Outcome<Fault>)
      requires Valid()
      modifies arena`log, arena`hooks, arena`weather, arena`weatherTurns, arena`turn
      modifies p1`currentHp, p2`currentHp, p1`truantTurn, p2`truantTurn
      ensures Valid()
      ensures r.Pass? ==> arena.turn == old(arena.turn) + 1
                          && (arena.weather, arena.weatherTurns) == DecayWeather(old(arena.weather), old(arena.weatherTurns))
    {
      r := EndOfTurn();
      if r.Fail? {
        return;
      }
      Battles.WeatherStep(arena);
      arena.turn := arena.turn + 1;
    }

    /**
     * Both move choices, p1 first: each spends one PP of the chosen move. A
     * bad index fails at its side's turn (p1's failure leaves p2's PP alone);
     * an empty moveset gives that side's Struggle, and a missing Struggle
     * fails once both choices are made.
     */
    method ChooseMoves(idx1: int, idx2: int, struggle1: Move?, struggle2: Move?) returns (r: Result<(Move, Move), Fault>)
      requires Valid()
      modifies TurnMoves(struggle1, struggle2)
      ensures Valid()
      ensures |p1.moves| > 0 && !(0 <= idx1 < |p1.moves|) ==> r == Failure(InvalidMoveIndex)
      ensures 0 <= idx1 < |p1.moves| && |p2.moves| > 0 && !(0 <= idx2 < |p2.moves|) ==> r == Failure(InvalidMoveIndex)
      ensures |p1.moves| == 0 && struggle1 == null && (|p2.moves| == 0 || 0 <= idx2 < |p2.moves|) ==>
                r == Failure(MissingMove(p1.name))
      ensures r.Success? <==> (if |p1.moves| == 0 then struggle1 != null else 0 <= idx1 < |p1.moves|)
                              && (if |p2.moves| == 0 then struggle2 != null else 0 <= idx2 < |p2.moves|)
      ensures r.Success? ==> r.value.0 == (if |p1.moves| == 0 then struggle1 else p1.moves[idx1])
                             && r.value.1 == (if |p2.moves| == 0 then struggle2 else p2.moves[idx2])
      ensures 0 <= idx1 < |p1.moves| && !(0 <= idx2 < |p2.moves| && p2.moves[idx2] == p1.moves[idx1]) ==>
                p1.moves[idx1].currentPp == Spent(old(p1.moves[idx1].currentPp))
      ensures (|p1.moves| == 0 || 0 <= idx1 < |p1.moves|) && 0 <= idx2 < |p2.moves| ==>
                p2.moves[idx2].currentPp
                == if 0 <= idx1 < |p1.moves| && p1.moves[idx1] == p2.moves[idx2]
                   then Spent(Spent(old(p2.moves[idx2].currentPp)))
                   else Spent(old(p2.moves[idx2].currentPp))
    {
      var c1 := p1.ChooseMove(idx1, struggle1);
      if c1.Failure? {
        return Failure(c1.error);
      }
      var c2 := p2.ChooseMove(idx2, struggle2);
      if c2.Failure? {
        return Failure(c2.error);
      }
      if c1.value == null {
        return Failure(MissingMove(p1.name));
      }
      if c2.value == null {
        return Failure(MissingMove(p2.name));
      }
      r := Success((c1.value, c2.value));
    }

    /**
     * The action order: p1 first exactly when its move has the higher
     * priority or, at equal priority, its paralysis-quartered speed is
     * strictly higher; p2 first otherwise, ties included.
     */
    method Order(move1: Move, move2: Move) returns (first: Pokemon, firstMove: Move, second: Pokemon, secondMove: Move)
      requires Valid()
      ensures var p1First := P1MovesFirst(move1.priority, move2.priority, p1.ModifiedStat("spe"), p2.ModifiedStat("spe"),
                                          p1.status == "par", p2.status == "par");
              (first, firstMove, second, secondMove) == if p1First then (p1, move1, p2, move2) else (p2, move2, p1, move1)
    {
      first, firstMove, second, secondMove := p2, move2, p1, move1;
      if P1MovesFirst(move1.priority, move2.priority, p1.ModifiedStat("spe"), p2.ModifiedStat("spe"),
                      p1.status == "par", p2.status == "par") {
        first, firstMove, second, secondMove := p1, move1, p2, move2;
      }
    }

    /** Both actions, in the order `Order` decides, each against the other combatant. */
    method MovePhase(move1: Move, move2: Move, draws: LegacyDraws) returns (r: Outcome<Fault>)
      requires Valid()
      modifies arena`log, arena`hooks, move1`accuracy, move2`accuracy
      modifies p1`currentHp, p1`status, p1`toxicCounter, p1`sleepCounter, p1`volatiles
      modifies p2`currentHp, p2`status, p2`toxicCounter, p2`sleepCounter, p2`volatiles
      ensures Valid()
    {
      var first, firstMove, second, secondMove := Order(move1, move2);
      r := Act(first, firstMove, second, draws.first);
      if r.Fail? {
        return;
      }
      r := Act(second, secondMove, first, draws.second);
    }

    /** One action; it is skipped when either side has fainted. */
    method Act(attacker: Pokemon, move: Move, defender: Pokemon, draws: Battles.ActionDraws) returns (r: Outcome<Fault>)
      requires Valid() && Side(attacker) && Side(defender) && attacker != defender
      modifies arena`log, arena`hooks, move`accuracy
      modifies p1`currentHp, p1`status, p1`toxicCounter, p1`sleepCounter, p1`volatiles
      modifies p2`currentHp, p2`status, p2`toxicCounter, p2`sleepCounter, p2`volatiles
      ensures Valid()
      ensures old(attacker.IsFainted() || defender.IsFainted()) ==>
                r == Pass && arena.log == old(arena.log) && arena.hooks == old(arena.hooks)
      ensures r.Fail? ==> r == Fail(MissingStage(attacker.name, "accuracy")) || r == Fail(MissingStage(defender.name, "evasion"))
      ensures var d := attacker.ability.cap.data.onTryHit;
              !old(attacker.IsFainted() || defender.IsFainted()) && AbsorbApplies(d, move.moveType, move.id) ==>
                r == Pass && defender.volatiles == old(defender.volatiles)[d.addVolatile := Volatile(attacker, None)]
    {
      if attacker.IsFainted() || defender.IsFainted() {
        return Pass;
      }
      r := Attempt(attacker, move, defender, draws);
    }

    /**
     * An attempted move: the attacker's `on_before_move` and `on_try_hit` may
     * cancel it; the defender's redirect picks the target; a miss is logged;
     * otherwise the move strikes. A missing accuracy or evasion stage fails.
     */
    method Attempt(attacker: Pokemon, move: Move, defender: Pokemon, draws: Battles.ActionDraws) returns (r: Outcome<Fault>)
      requires Valid() && Side(attacker) && Side(defender) && attacker != defender
      modifies arena`log, arena`hooks, move`accuracy
      modifies p1`currentHp, p1`status, p1`toxicCounter, p1`sleepCounter, p1`volatiles
      modifies p2`currentHp, p2`status, p2`toxicCounter, p2`sleepCounter, p2`volatiles
      ensures Valid()
      ensures r.Fail? ==> r == Fail(MissingStage(attacker.name, "accuracy")) || r == Fail(MissingStage(defender.name, "evasion"))
      ensures var d := attacker.ability.cap.data.onTryHit;
              AbsorbApplies(d, move.moveType, move.id) ==>
                r == Pass && defender.volatiles == old(defender.volatiles)[d.addVolatile := Volatile(attacker, None)]
    {
      var proceed := BeforeMove(attacker, move, defender);
      if !proceed {
        return Pass;
      }
      proceed := TryHit(attacker, move, defender);
      if !proceed {
        return Pass;
      }
      var redirect := AbilityFoeRedirect(defender.ability.cap, defender.ability.owner, move, defender, attacker);
      var target := if redirect.Some? then redirect.value else defender;
      if "accuracy" !in attacker.stages {
        return Fail(MissingStage(attacker.name, "accuracy"));
      }
      if "evasion" !in target.stages {
        return Fail(MissingStage(target.name, "evasion"));
      }
      if Misses(draws.accuracy, move.accuracy, attacker.stages["accuracy"], target.stages["evasion"]) {
        arena.Log(Missed(attacker.name, move.name));
        return Pass;
      }
      Strike(attacker, move, target, defender, draws);
      r := Pass;
    }

    /**
     * The attacker's `on_before_move`. Its owner is the attacker, never the
     * defender, so a type immunity never cancels the move; an accuracy
     * multiplier scales the move's accuracy in place.
     */
    method BeforeMove(attacker: Pokemon, move: Move, defender: Pokemon) returns (proceed: bool)
      requires Valid() && Side(attacker) && Side(defender) && attacker != defender
      modifies arena`log, arena`hooks, move`accuracy
      ensures Valid()
      ensures proceed
      ensures var d := attacker.ability.cap.data.onBeforeMove;
              move.accuracy == if AccuracyScalingApplies(d, move.moveType, true)
                               then old(move.accuracy) * d.accuracyMultiplier.value.numerator / d.accuracyMultiplier.value.denominator
                               else old(move.accuracy)
      ensures arena.hooks == old(arena.hooks) + [HookCall(AbilityHook, OnBeforeMove, attacker)]
    {
      proceed := AbilityOnBeforeMove(arena, attacker.ability.cap, attacker.ability.owner, move, attacker, defender);
    }

    /** The attacker's `on_try_hit`, which puts an absorbed move's volatile on the defender. */
    method TryHit(attacker: Pokemon, move: Move, defender: Pokemon) returns (proceed: bool)
      requires Valid() && Side(attacker) && Side(defender)
      modifies arena`log, arena`hooks, defender`volatiles
      ensures Valid()
      ensures var d := attacker.ability.cap.data.onTryHit;
              && (proceed <==> !AbsorbApplies(d, move.moveType, move.id))
              && defender.volatiles == if proceed then old(defender.volatiles)
                                       else old(defender.volatiles)[d.addVolatile := Volatile(attacker, None)]
      ensures arena.hooks == old(arena.hooks) + [HookCall(AbilityHook, OnTryHit, attacker)]
    {
      proceed := AbilityOnTryHit(arena, attacker.ability.cap, attacker.ability.owner, move, defender, attacker);
    }

    /**
     * A hit: the rolled damage comes off the target's HP (never below 0) and
     * is logged, the attacker's then the defender's `on_after_damage` fire,
     * and a fainted target is reported.
     */
    method Strike(attacker: Pokemon, move: Move, target: Pokemon, defender: Pokemon, draws: Battles.ActionDraws)
      requires Valid() && Side(attacker) && Side(target) && Side(defender)
      modifies arena`log, arena`hooks
      modifies p1`currentHp, p1`status, p1`toxicCounter, p1`sleepCounter, p1`volatiles
      modifies p2`currentHp, p2`status, p2`toxicCounter, p2`sleepCounter, p2`volatiles
      ensures Valid()
      ensures arena.hooks == old(arena.hooks) + [HookCall(AbilityHook, OnAfterDamage, attacker),
                                                 HookCall(AbilityHook, OnAfterDamage, defender)]
      ensures var dmg := old(var range := Battles.DamageRange(attacker, move, target, arena.weather);
                             DamagePick(range.0, range.1, draws.damagePick));
              && arena.log == old(arena.log) + [Dealt(attacker.name, move.name, dmg, target.name)]
                              + AfterDamageLog(attacker.ability.cap, attacker, attacker, target, dmg, draws.attackerChance)
                              + AfterDamageLog(defender.ability.cap, defender, attacker, target, dmg, draws.defenderChance)
                              + (if target.IsFainted() then [Fainted(target.name)] else [])
              && (target != attacker ==> target.currentHp == Clamp0(old(target.currentHp) - dmg))
              && (target != attacker ==> AfterDamageEffects(defender.ability.cap, defender, attacker, target, dmg, draws.defenderChance))
    {
      var dmg := RollDamage(attacker, move, target, draws.damagePick);
      Land(attacker, move, target, defender, dmg, draws);
    }

    /** A hit of `dmg` once it is rolled: the target loses it and the hit is logged, then `Landed`. */
    method Land(attacker: Pokemon, move: Move, target: Pokemon, defender: Pokemon, dmg: int, draws: Battles.ActionDraws)
      requires Valid() && Side(attacker) && Side(target) && Side(defender) && dmg >= 0
      modifies arena`log, arena`hooks
      modifies p1`currentHp, p1`status, p1`toxicCounter, p1`sleepCounter, p1`volatiles
      modifies p2`currentHp, p2`status, p2`toxicCounter, p2`sleepCounter, p2`volatiles
      ensures Valid()
      ensures arena.hooks == old(arena.hooks) + [HookCall(AbilityHook, OnAfterDamage, attacker),
                                                 HookCall(AbilityHook, OnAfterDamage, defender)]
      ensures arena.log == old(arena.log) + [Dealt(attacker.name, move.name, dmg, target.name)]
                           + AfterDamageLog(attacker.ability.cap, attacker, attacker, target, dmg, draws.attackerChance)
                           + AfterDamageLog(defender.ability.cap, defender, attacker, target, dmg, draws.defenderChance)
                           + (if target.IsFainted() then [Fainted(target.name)] else [])
      ensures target != attacker ==> target.currentHp == Clamp0(old(target.currentHp) - dmg)
      ensures target != attacker ==> AfterDamageEffects(defender.ability.cap, defender, attacker, target, dmg, draws.defenderChance)
    {
      Hit(attacker, move, target, dmg);
      Landed(attacker, move, target, defender, dmg, draws);
    }

    /** After a hit: the attacker's then the defender's `on_after_damage`, then a fainted target is reported. */
    method Landed(attacker: Pokemon, move: Move, target: Pokemon, defender: Pokemon, dmg: int, draws: Battles.ActionDraws)
      requires Valid() && Side(attacker) && Side(defender)
      modifies arena`log, arena`hooks, attacker`volatiles, attacker`status, attacker`toxicCounter,
               attacker`sleepCounter, attacker`currentHp
      ensures Valid()
      ensures arena.hooks == old(arena.hooks) + [HookCall(AbilityHook, OnAfterDamage, attacker),
                                                 HookCall(AbilityHook, OnAfterDamage, defender)]
      ensures arena.log == old(arena.log) + AfterDamageLog(attacker.ability.cap, attacker, attacker, target, dmg, draws.attackerChance)
                           + AfterDamageLog(defender.ability.cap, defender, attacker, target, dmg, draws.defenderChance)
                           + (if target.IsFainted() then [Fainted(target.name)] else [])
      ensures target != attacker ==> AfterDamageEffects(defender.ability.cap, defender, attacker, target, dmg, draws.defenderChance)
    {
      AfterDamage(attacker, move, attacker, target, dmg, draws.attackerChance);
      AfterDamage(defender, move, attacker, target, dmg, draws.defenderChance);
      FaintCheck(target);
    }

    /** Reports the target's fainting, if it has fainted. */
    method FaintCheck(target: Pokemon)
      requires Valid()
      modifies arena`log
      ensures Valid()
      ensures arena.log == old(arena.log) + (if target.IsFainted() then [Fainted(target.name)] else [])
    {
      Battles.ReportFaint(arena, target);
    }

    /** The damage of a hit: the pick in the calculated range; no item or screen adjusts it. */
    method RollDamage(attacker: Pokemon, move: Move, target: Pokemon, pick: nat) returns (dmg: int)
      requires Valid() && Side(attacker) && Side(target)
      ensures var range := Battles.DamageRange(attacker, move, target, arena.weather);
              dmg == DamagePick(range.0, range.1, pick)
      ensures dmg >= 0
    {
      var atkStat := Battles.CategoryStat(attacker, move.category, "atk", "spa");
      var defStat := Battles.CategoryStat(target, move.category, "def", "spd");
      var initial := Damage.InitialDamage(attacker.level, move.power, atkStat, defStat);
      var low, high := Damage.GetDamageRange(initial, Battles.AttackerInfoOf(attacker), Damage.DefenderInfo(target.types),
                                             Damage.MoveInfo(move.moveType, move.category, None), false, arena.weather);
      dmg := DamagePick(low, high, pick);
    }

    /** The hit itself: the damage comes off the target's HP, never below 0, and is logged. */
    method Hit(attacker: Pokemon, move: Move, target: Pokemon, dmg: int)
      requires Valid() && Side(target) && dmg >= 0
      modifies arena`log, target`currentHp
      ensures Valid()
      ensures target.currentHp == Clamp0(old(target.currentHp) - dmg)
      ensures arena.log == old(arena.log) + [Dealt(attacker.name, move.name, dmg, target.name)]
    {
      var _ := target.ApplyDamage(dmg);
      arena.Log(Dealt(attacker.name, move.name, dmg, target.name));
    }

    /** `on_after_damage` of one combatant's ability, for a hit by `attacker` on `target`. */
    method AfterDamage(p: Pokemon, move: Move, attacker: Pokemon, target: Pokemon, dmg: int, draw: nat)
      requires Valid() && Side(p) && Side(attacker)
      modifies arena`log, arena`hooks, attacker`volatiles, attacker`status, attacker`toxicCounter,
               attacker`sleepCounter, attacker`currentHp
      ensures Valid()
      ensures arena.hooks == old(arena.hooks) + [HookCall(AbilityHook, OnAfterDamage, p)]
      ensures AfterDamageDone(arena, p.ability.cap, p, attacker, target, dmg, draw)
    {
      AbilityOnAfterDamage(arena, p.ability.cap, p.ability.owner, move, attacker, target, dmg, draw);
    }

    /** `on_end_of_turn` of p1's ability, then p2's. */
    method EndOfTurn() returns (r: Outcome<Fault>)
      requires Valid()
      modifies arena`log, arena`hooks, p1`currentHp, p2`currentHp, p1`truantTurn, p2`truantTurn
      ensures Valid()
      ensures arena.weather == old(arena.weather) && arena.weatherTurns == old(arena.weatherTurns)
      ensures r.Pass? ==> arena.hooks == old(arena.hooks) + [HookCall(AbilityHook, OnEndOfTurn, p1),
                                                             HookCall(AbilityHook, OnEndOfTurn, p2)]
      ensures var a1, a2 := p1.ability.cap, p2.ability.cap;
              var (r1, t1) := TruantToggle(a1.data.onEndOfTurn, old(p1.truantTurn), p1.name);
              var (r2, t2) := TruantToggle(a2.data.onEndOfTurn, old(p2.truantTurn), p2.name);
              && p1.currentHp == RecoveredHp(a1.data.onEndOfTurn, arena.weather, old(p1.currentHp), p1.MaxHp())
              && p1.truantTurn == t1
              && (r1.Fail? ==> r == r1 && p2.currentHp == old(p2.currentHp) && p2.truantTurn == old(p2.truantTurn)
                               && arena.log == old(arena.log) + EndOfTurnLog(a1, p1, arena.weather))
              && (r1.Pass? ==> r == r2 && p2.truantTurn == t2
                               && p2.currentHp == RecoveredHp(a2.data.onEndOfTurn, arena.weather, old(p2.currentHp), p2.MaxHp())
                               && arena.log == old(arena.log) + EndOfTurnLog(a1, p1, arena.weather) + EndOfTurnLog(a2, p2, arena.weather))
    {
      r := EndAbility(p1);
      if r.Fail? {
        return;
      }
      r := EndAbility(p2);
    }

    /** `on_end_of_turn` of one combatant's ability. */
    method EndAbility(p: Pokemon) returns (r: Outcome<Fault>)
      requires Valid() && Side(p)
      modifies arena`log, arena`hooks, p`currentHp, p`truantTurn
      ensures Valid()
      ensures arena.weather == old(arena.weather) && arena.weatherTurns == old(arena.weatherTurns)
      ensures arena.hooks == old(arena.hooks) + [HookCall(AbilityHook, OnEndOfTurn, p)]
      ensures EndOfTurnDone(arena, p.ability.cap, p, r)
    {
      r := AbilityOnEndOfTurn(arena, p.ability.cap, p.ability.owner);
    }
  }
}

=== FILE: legacy_move.dfy ===
/** The older stand-alone move class: the same PP counter without catalog fields. */
module LegacyMoves {
  import opened Wrappers
  import opened Faults

  class Move {
    const name: string
    const moveType: string
    const power: int
    const category: string
    var accuracy: int
    const priority: int
    const maxPp: int
    var currentPp: int

    /** The PP counter lies between 0 and the maximum. */
    predicate PpInRange()
      reads this
    {
      0 <= currentPp <= maxPp
    }

    /** A fresh move starts with full PP. */
    constructor (name: string, moveType: string, power: int, category: string, accuracy: int,
                 priority: int := 0, maxPp: int := 1)
      ensures this.name == name && this.moveType == moveType && this.power == power
      ensures this.category == category && this.accuracy == accuracy
      ensures this.priority == priority && this.maxPp == maxPp
      ensures currentPp == maxPp
      ensures maxPp >= 0 ==> PpInRange()
    {
      this.name := name;
      this.moveType := moveType;
      this.power := power;
      this.category := category;
      this.accuracy := accuracy;
      this.priority := priority;
      this.maxPp := maxPp;
      currentPp := maxPp;
    }

    /** Consumes one PP; with none left it fails and changes nothing. */
    method UsePp() returns (r: Outcome<Fault>)
      modifies this`currentPp
      ensures old(currentPp) > 0 ==> r == Pass && currentPp == old(currentPp) - 1
      ensures old(currentPp) <= 0 ==> r == Fail(NoPpLeft(name)) && currentPp == old(currentPp)
      ensures old(PpInRange()) ==> PpInRange()
    {
      if currentPp <= 0 {
        return Fail(NoPpLeft(name));
      }
      currentPp := currentPp - 1;
      r := Pass;
    }
  }
}

=== FILE: move.dfy ===
/** A move with its PP counter, as the battle environment uses it. */
module Moves {
  import opened Wrappers
  import opened Faults

  class Move {
    const name: string
    const moveType: string
    const power: nat
    const category: string
    /** Base accuracy percentage; Hustle-like abilities rescale it in place. */
    var accuracy: int
    const priority: int
    const maxPp: int
    var currentPp: int
    /** The catalog identifier; only the catalog loader sets it. */
    var id: Option<string>

    /** The PP counter lies between 0 and the maximum. */
    predicate PpInRange()
      reads this
    {
      0 <= currentPp <= maxPp
    }

    /** A fresh move starts with full PP, priority 0 and one PP unless told otherwise. */
    constructor (name: string, moveType: string, power: nat, category: string, accuracy: int,
                 priority: int := 0, maxPp: int := 1)
      ensures this.name == name && this.moveType == moveType && this.power == power
      ensures this.category == category && this.accuracy == accuracy
      ensures this.priority == priority && this.maxPp == maxPp
      ensures currentPp == maxPp && id == None
      ensures maxPp >= 0 ==> PpInRange()
    {
      this.name := name;
      this.moveType := moveType;
      this.power := power;
      this.category := category;
      this.accuracy := accuracy;
      this.priority := priority;
      this.maxPp := maxPp;
      currentPp := maxPp;
      id := None;
    }

    /** Consumes one PP; with none left it fails and changes nothing. */
    method UsePp() returns (r: Outcome<Fault>)
      modifies this`currentPp
      ensures old(currentPp) > 0 ==> r == Pass && currentPp == old(currentPp) - 1
      ensures old(currentPp) <= 0 ==> r == Fail(NoPpLeft(name)) && currentPp == old(currentPp)
      ensures old(PpInRange()) ==> PpInRange()
    {
      if currentPp <= 0 {
        return Fail(NoPpLeft(name));
      }
      currentPp := currentPp - 1;
      r := Pass;
    }
  }
}

=== FILE: pokemon.dfy ===
/**
 * A combatant: stats from the Gen 3 formula, stat stages, a non-volatile
 * status with its counters, volatile conditions, HP, and the moveset.
 *
 * `status` is a string with `""` standing for no status (the source's `None`,
 * which it treats alike). Catalog numbers (level, base stats, IVs, EVs) are
 * non-negative.
 */
module PokemonState {
  import opened Wrappers
  import opened Faults
  import opened Moves
  import opened Capability

  /** The stat-stage multiplier: (2+s)/2 or 2/(2-s) for stats, (3+s)/3 or 3/(3-s) for accuracy and evasion. */
  function StageMultiplier(stage: int, isAccuracy: bool): (m: real)
    ensures m > 0.0
  {
    if !isAccuracy then
      if stage >= 0 then (2 + stage) as real / 2.0 else 2.0 / (2 - stage) as real
    else
      if stage >= 0 then (3 + stage) as real / 3.0 else 3.0 / (3 - stage) as real
  }

  /** The multiplier anchors: 1 at stage 0, 4 and 1/4 at +6 and -6 for stats, 3 and 1/3 for accuracy. */
  lemma StageMultiplierAnchors()
    ensures StageMultiplier(0, false) == 1.0 && StageMultiplier(0, true) == 1.0
    ensures StageMultiplier(6, false) == 4.0 && StageMultiplier(-6, false) == 0.25
    ensures StageMultiplier(6, true) == 3.0 && StageMultiplier(-6, true) == 1.0 / 3.0
  {
  }

  /** Opposite stages have reciprocal multipliers. */
  lemma StageMultiplierInverse(stage: int, isAccuracy: bool)
    ensures StageMultiplier(-stage, isAccuracy) * StageMultiplier(stage, isAccuracy) == 1.0
  {
  }

  /** The same multiplier as an integer fraction `num / den`. */
  function StageRatio(stage: int, isAccuracy: bool): (r: (nat, nat))
    requires -6 <= stage <= 6
    ensures r.1 > 0 && StageMultiplier(stage, isAccuracy) == r.0 as real / r.1 as real
  {
    var b := if isAccuracy then 3 else 2;
    if stage >= 0 then (b + stage, b) else (b, b - stage)
  }

  /** Flooring a non-negative integer times a fraction is integer floor division. */
  lemma FloorOfFraction(b: nat, n: nat, d: int, m: real)
    requires d > 0 && m == n as real / d as real
    ensures (b as real * m).Floor == b * n / d
  {
    var q := b * n / d;
    var r := b * n % d;
    assert b * n == d * q + r;
    assert b as real * (n as real / d as real) == (b * n) as real / d as real;
    assert (b * n) as real / d as real == q as real + r as real / d as real;
    assert 0.0 <= r as real / d as real < 1.0;
  }

  /**
   * A stat value after a stage in [-6, 6]: the floor of value times multiplier
   * (the source truncates, which is the floor for a non-negative value),
   * computed exactly as an integer fraction. A value of at least 4 stays at least 1.
   */
  function StagedStat(value: nat, stage: int, isAccuracy: bool): (v: int)
    requires -6 <= stage <= 6
    ensures v == (value as real * StageMultiplier(stage, isAccuracy)).Floor
    ensures value >= 4 ==> v >= 1
  {
    StagedStatExact(value, stage, isAccuracy);
    ModifiedStatPositive(value, StageRatio(stage, isAccuracy).0, StageRatio(stage, isAccuracy).1);
    value * StageRatio(stage, isAccuracy).0 / StageRatio(stage, isAccuracy).1
  }

  /** The integer fraction gives the real floor. */
  lemma StagedStatExact(value: nat, stage: int, isAccuracy: bool)
    requires -6 <= stage <= 6
    ensures (value as real * StageMultiplier(stage, isAccuracy)).Floor
            == value * StageRatio(stage, isAccuracy).0 / StageRatio(stage, isAccuracy).1
  {
    var r := StageRatio(stage, isAccuracy);
    FloorOfFraction(value, r.0, r.1, StageMultiplier(stage, isAccuracy));
  }

  /** One stat from the Gen 3 formula. */
  function StatValue(stat: string, base: nat, iv: nat, ev: nat, level: nat): (v: nat)
    ensures stat == "hp" ==> v >= level + 10
    ensures stat != "hp" ==> v >= 5
  {
    if stat == "hp" then ((2 * base + iv + ev / 4) * level) / 100 + level + 10
    else ((2 * base + iv + ev / 4) * level) / 100 + 5
  }

  /** HP is at least level + 10, every other stat at least 5, and more base never lowers a stat. */
  lemma StatValueBounds(stat: string, base: nat, iv: nat, ev: nat, level: nat, base2: nat)
    requires base <= base2
    ensures stat == "hp" ==> StatValue(stat, base, iv, ev, level) >= level + 10
    ensures stat != "hp" ==> StatValue(stat, base, iv, ev, level) >= 5
    ensures StatValue(stat, base, iv, ev, level) <= StatValue(stat, base2, iv, ev, level)
  {
    var x, y := (2 * base + iv + ev / 4) * level, (2 * base2 + iv + ev / 4) * level;
    assert x <= y by {
      assert 2 * base + iv + ev / 4 <= 2 * base2 + iv + ev / 4;
    }
    DivMonotone(x, y, 100);
  }

  lemma DivMonotone(x: nat, y: nat, d: int)
    requires d > 0 && x <= y
    ensures x / d <= y / d
  {
    var qx, qy := x / d, y / d;
    assert d * qx <= x;
    assert y < d * (qy + 1);
    assert d * (qy + 1 - qx) > 0;
    if qx > qy {
      assert d * (qx - qy) >= d by {
        MulAtLeast(d, qx - qy);
      }
    }
  }

  lemma MulAtLeast(m: int, k: int)
    requires m > 0 && k >= 1
    ensures m * k >= m
  {
  }

  /** A level-100 Pokémon with IVs 31 and EVs 0: HP 2b + 141, other stats 2b + 36. */
  lemma StatValueLevel100(base: nat)
    ensures StatValue("hp", base, 31, 0, 100) == 2 * base + 141
    ensures forall stat | stat != "hp" :: StatValue(stat, base, 31, 0, 100) == 2 * base + 36
  {
  }

  /** The value of a key, or `d` when the key is absent (`dict.get`). */
  function Get(m: map<string, nat>, k: string, d: nat): nat {
    if k in m then m[k] else d
  }

  /**
   * Computes every stat listed in the base stats, by a loop over the base-stat
   * entries; an IV or EV missing for a stat counts as 0.
   */
  method CalcActualStats(baseStats: map<string, nat>, ivs: map<string, nat>, evs: map<string, nat>, level: nat)
    returns (stats: map<string, nat>)
    ensures stats.Keys == baseStats.Keys
    ensures forall s :: s in stats ==> stats[s] == StatValue(s, baseStats[s], Get(ivs, s, 0), Get(evs, s, 0), level)
  {
    stats := map[];
    var remaining := baseStats.Keys;
    while remaining != {}
      invariant remaining <= baseStats.Keys
      invariant stats.Keys == baseStats.Keys - remaining
      invariant forall s :: s in stats ==> stats[s] == StatValue(s, baseStats[s], Get(ivs, s, 0), Get(evs, s, 0), level)
      decreases remaining
    {
      var stat :| stat in remaining;
      var iv := Get(ivs, stat, 0);
      var ev := Get(evs, stat, 0);
      stats := stats[stat := StatValue(stat, baseStats[stat], iv, ev, level)];
      remaining := remaining - {stat};
    }
  }

  /** A stage clamped into [-6, 6]. */
  function ClampStage(stage: int): (c: int)
    ensures -6 <= c <= 6
    ensures -6 <= stage <= 6 ==> c == stage
    ensures stage > 6 ==> c == 6
    ensures stage < -6 ==> c == -6
  {
    if stage < -6 then -6 else if stage > 6 then 6 else stage
  }

  /** The seven stage names a fresh Pokémon starts with. */
  const StageNames: set<string> := {"atk", "def", "spa", "spd", "spe", "accuracy", "evasion"}

  /** A stat row with HP, every other stat at least 5. */
  predicate StatsComplete(stats: map<string, nat>) {
    "hp" in stats && forall s :: s in stats && s != "hp" ==> stats[s] >= 5
  }

  /** Every stage in [-6, 6]. */
  predicate StagesInRange(stages: map<string, int>) {
    forall s :: s in stages ==> -6 <= stages[s] <= 6
  }

  /**
   * The toxic counter is positive exactly under `tox` and the sleep counter
   * is 1 or 2 exactly under `slp`.
   */
  predicate CountersMatch(status: string, toxicCounter: int, sleepCounter: int) {
    && (status == "tox" ==> toxicCounter >= 1) && (status != "tox" ==> toxicCounter == 0)
    && (status == "slp" ==> 1 <= sleepCounter <= 2) && (status != "slp" ==> sleepCounter == 0)
  }

  /** A volatile condition: who caused it and how many turns it has left (`None`: unlimited). */
  datatype Volatile = Volatile(source: Pokemon?, duration: Option<int>)

  /**
   * An ability or item slot: the identifier the Pokémon was built with, until
   * a battle instantiates it as a capability bound to its owner.
   */
  datatype Held<C> = Uninstantiated(id: Option<string>) | Instantiated(cap: C, owner: Pokemon)

  class Pokemon {
    const name: string
    const level: nat
    const types: seq<string>
    const baseStats: map<string, nat>
    const ivs: map<string, nat>
    const evs: map<string, nat>
    var ability: Held<Ability>
    var item: Held<Item>
    const gender: Option<string>
    const stats: map<string, nat>
    var currentHp: int
    var stages: map<string, int>
    var status: string
    var toxicCounter: int
    var sleepCounter: int
    const moves: seq<Move>
    var volatiles: map<string, Volatile>
    /** Set by trapping abilities; the source creates the attribute on first use. */
    var trapped: bool
    /** The Truant turn flag; `None` until an ability initialises it. */
    var truantTurn: Option<bool>

    /**
     * 0 <= HP <= max HP; every stage in [-6, 6]; the toxic counter is positive exactly under `tox` and the sleep
     * counter is 1 or 2 exactly under `slp`; every stat but HP is at least 5.
     */
    predicate Valid()
      reads this`currentHp, this`stages, this`status, this`toxicCounter, this`sleepCounter
    {
      StatsValid() && CountersMatchStatus()
    }

    /** The part of `Valid` about HP, stats and stages. */
    predicate StatsValid()
      reads this`currentHp, this`stages
    {
      StatsComplete(stats) && 0 <= currentHp <= stats["hp"] && StagesInRange(stages)
    }

    /** The part of `Valid` tying the status counters to the status. */
    predicate CountersMatchStatus()
      reads this`status, this`toxicCounter, this`sleepCounter
    {
      CountersMatch(status, toxicCounter, sleepCounter)
    }

    /** Max HP. */
    function MaxHp(): int
      reads this
      requires "hp" in stats
    {
      stats["hp"]
    }

    /**
     * A fresh Pokémon: an empty (or absent) IV map means 31 in every stat and an
     * empty EV map 0; full HP, all seven stages 0, no status, both counters 0,
     * no volatiles, and the ability and item still identifiers.
     */
    constructor (name: string, level: nat, types: seq<string>, baseStats: map<string, nat>,
                 ivs: map<string, nat> := map[], evs: map<string, nat> := map[],
                 ability: Option<string> := None, item: Option<string> := None,
                 moves: seq<Move> := [], gender: Option<string> := None)
      requires "hp" in baseStats
      ensures this.name == name && this.level == level && this.types == types && this.baseStats == baseStats
      ensures this.ivs == (if |ivs| == 0 then map s | s in baseStats :: 31 else ivs)
      ensures this.evs == (if |evs| == 0 then map s | s in baseStats :: 0 else evs)
      ensures this.ability == Uninstantiated(ability) && this.item == Uninstantiated(item)
      ensures this.moves == moves && this.gender == gender
      ensures stats.Keys == baseStats.Keys
      ensures forall s :: s in stats ==> stats[s] == StatValue(s, baseStats[s], Get(this.ivs, s, 0), Get(this.evs, s, 0), level)
      ensures currentHp == stats["hp"]
      ensures stages == map s | s in StageNames :: 0
      ensures status == "" && toxicCounter == 0 && sleepCounter == 0
      ensures volatiles == map[] && !trapped && truantTurn == None
      ensures Valid()
    {
      this.name := name;
      this.level := level;
      this.types := types;
      this.baseStats := baseStats;
      var ivs' := if |ivs| == 0 then map s | s in baseStats :: 31 else ivs;
      var evs' := if |evs| == 0 then map s | s in baseStats :: 0 else evs;
      this.ivs := ivs';
      this.evs := evs';
      this.ability := Uninstantiated(ability);
      this.item := Uninstantiated(item);
      this.gender := gender;
      var stats := CalcActualStats(baseStats, ivs', evs', level);
      this.stats := stats;
      currentHp := stats["hp"];
      stages := map s | s in StageNames :: 0;
      status := "";
      toxicCounter := 0;
      sleepCounter := 0;
      this.moves := moves;
      volatiles := map[];
      trapped := false;
      truantTurn := None;
      new;
      forall s | s in stats && s != "hp"
        ensures stats[s] >= 5
      {
        StatValueBounds(s, baseStats[s], Get(ivs', s, 0), Get(evs', s, 0), level, baseStats[s]);
      }
    }

    /** The stage of a stat, 0 when it has none. */
    function StageOf(stat: string): int
      reads this
    {
      if stat in stages then stages[stat] else 0
    }

    /**
     * The stat after its stage multiplier, with the accuracy table for
     * `accuracy` and `evasion`; at least 1 for every stat but HP.
     */
    function ModifiedStat(stat: string): (v: int)
      reads this
      requires Valid() && stat in stats
      ensures v == (stats[stat] as real * StageMultiplier(StageOf(stat), stat in {"accuracy", "evasion"})).Floor
      ensures stat != "hp" ==> v >= 1
    {
      StagedStat(stats[stat], StageOf(stat), stat in {"accuracy", "evasion"})
    }

    /** Subtracts `amount` from HP, never below 0, and returns the new HP. */
    method ApplyDamage(amount: int) returns (hp: int)
      requires Valid()
      modifies this`currentHp
      ensures currentHp == if old(currentHp) - amount < 0 then 0 else old(currentHp) - amount
      ensures hp == currentHp && currentHp >= 0
      ensures IsFainted() <==> amount >= old(currentHp)
      ensures amount >= 0 ==> Valid()
    {
      currentHp := if currentHp - amount < 0 then 0 else currentHp - amount;
      hp := currentHp;
    }

    /** Fainted means HP 0. */
    predicate IsFainted()
      reads this
      ensures Valid() ==> (IsFainted() <==> currentHp <= 0)
    {
      currentHp == 0
    }

    /**
     * Sets a status when there is none (`tox` starts the toxic counter at 1,
     * `slp` the sleep counter at 2); with a status present it fails and
     * changes nothing.
     */
    method SetStatus(s: string) returns (r: Outcome<Fault>)
      requires Valid()
      modifies this`status, this`toxicCounter, this`sleepCounter
      ensures old(status) != "" ==> r == Fail(AlreadyStatused(name, old(status)))
                                    && status == old(status) && toxicCounter == old(toxicCounter)
                                    && sleepCounter == old(sleepCounter)
      ensures old(status) == "" ==> r == Pass && status == s
                                    && toxicCounter == (if s == "tox" then 1 else old(toxicCounter))
                                    && sleepCounter == (if s == "slp" then 2 else old(sleepCounter))
      ensures Valid()
    {
      if status != "" {
        return Fail(AlreadyStatused(name, status));
      }
      status := s;
      if s == "tox" {
        toxicCounter := 1;
      }
      if s == "slp" {
        sleepCounter := 2;
      }
      r := Pass;
    }

    /** Clears the status and both counters. */
    method HealStatus()
      requires StatsValid()
      modifies this`status, this`toxicCounter, this`sleepCounter
      ensures status == "" && toxicCounter == 0 && sleepCounter == 0
      ensures Valid()
    {
      status := "";
      toxicCounter := 0;
      sleepCounter := 0;
    }

    /** Moves one stage by `delta`, clamped into [-6, 6]; no other stage changes. */
    method ChangeStage(stat: string, delta: int)
      requires Valid()
      modifies this`stages
      ensures stages == old(stages)[stat := ClampStage(old(StageOf(stat)) + delta)]
      ensures Valid()
    {
      var newStage := ClampStage(StageOf(stat) + delta);
      stages := stages[stat := newStage];
    }

    /**
     * Picks the move at `index` and spends one of its PP if it has any (running
     * out is silently ignored). An empty moveset yields the catalog's Struggle
     * (`null` when the catalog has none); an index outside the moveset fails.
     */
    method ChooseMove(index: int, struggle: Move?) returns (r: Result<Move?, Fault>)
      modifies if 0 <= index < |moves| then {moves[index]} else {}
      ensures |moves| == 0 ==> r == Success(struggle)
      ensures |moves| > 0 && !(0 <= index < |moves|) ==> r == Failure(InvalidMoveIndex)
      ensures 0 <= index < |moves| ==> r == Success(moves[index])
      ensures 0 <= index < |moves| ==>
                moves[index].currentPp == (if old(moves[index].currentPp) > 0 then old(moves[index].currentPp) - 1
                                           else old(moves[index].currentPp))
                && moves[index].accuracy == old(moves[index].accuracy) && moves[index].id == old(moves[index].id)
    {
      if |moves| == 0 {
        return Success(struggle);
      }
      if index < 0 || index >= |moves| {
        return Failure(InvalidMoveIndex);
      }
      var move := moves[index];
      var _ := move.UsePp();
      r := Success(move);
    }

    /** Adds (or replaces) a volatile condition. */
    method AddVolatile(v: string, source: Pokemon?, duration: Option<int> := None)
      modifies this`volatiles
      ensures volatiles == old(volatiles)[v := Volatile(source, duration)]
    {
      volatiles := volatiles[v := Volatile(source, duration)];
    }

    /** Removes a volatile condition if present. */
    method RemoveVolatile(v: string)
      modifies this`volatiles
      ensures volatiles == old(volatiles) - {v}
    {
      volatiles := volatiles - {v};
    }

    /** Adds `amount` HP, never above max HP, and returns the new HP. */
    method Heal(amount: int) returns (hp: int)
      requires Valid()
      modifies this`currentHp
      ensures currentHp == if old(currentHp) + amount > MaxHp() then MaxHp() else old(currentHp) + amount
      ensures hp == currentHp && currentHp <= MaxHp()
      ensures amount >= 0 ==> Valid()
    {
      currentHp := if stats["hp"] < currentHp + amount then stats["hp"] else currentHp + amount;
      hp := currentHp;
    }

    /** Sets the status only when there is none; reports whether it did. */
    method TrySetStatus(s: string, source: Pokemon?) returns (set_: bool)
      requires Valid()
      modifies this`status, this`toxicCounter, this`sleepCounter
      ensures set_ == (old(status) == "")
      ensures !set_ ==> status == old(status) && toxicCounter == old(toxicCounter) && sleepCounter == old(sleepCounter)
      ensures set_ ==> status == s && toxicCounter == (if s == "tox" then 1 else old(toxicCounter))
                       && sleepCounter == (if s == "slp" then 2 else old(sleepCounter))
      ensures Valid()
    {
      if status != "" {
        return false;
      }
      var _ := SetStatus(s);
      set_ := true;
    }
  }

  /** At stage -6 or above a stat of at least 4 stays at least 1: the divisor is at most 4 times the numerator. */
  lemma ModifiedStatPositive(b: nat, n: nat, d: nat)
    requires 0 < d <= 4 * n
    ensures b >= 4 ==> b * n / d >= 1
  {
    if b >= 4 {
      assert b * n >= 4 * n by {
        MulMonotone(4, b, n);
      }
      assert 4 * n >= d;
      DivMonotone(d, b * n, d);
    }
  }

  lemma MulMonotone(a: nat, b: nat, n: nat)
    requires a <= b
    ensures a * n <= b * n
  {
  }
}

=== FILE: rules.dfy ===
/**
 * The turn rules both battle loops apply, as functions of the values they
 * read: who moves first, whether a move hits, which damage is picked, what
 * screens, Spikes and residual statuses do, and how weather and volatile
 * countdowns run out.
 */
module TurnRules {
  import opened Wrappers
  import opened Faults
  import opened PokemonState

  // ---------------------------------------------------------------- order

  /** Speed for ordering: a paralysed Pokémon's speed is floor-divided by 4. */
  function EffectiveSpeed(speed: int, paralysed: bool): (s: int)
    ensures !paralysed ==> s == speed
    ensures paralysed && speed >= 0 ==> 0 <= 4 * s <= speed < 4 * s + 4
  {
    if paralysed then speed / 4 else speed
  }

  /**
   * Whether side 1 acts first: the higher priority acts first; on equal
   * priority side 1 acts first only when its effective speed is strictly
   * greater, so a speed tie goes to side 2.
   */
  function P1MovesFirst(prio1: int, prio2: int, speed1: int, speed2: int, par1: bool, par2: bool): (first: bool)
    ensures first ==> prio1 >= prio2
    ensures prio1 == prio2 && EffectiveSpeed(speed1, par1) <= EffectiveSpeed(speed2, par2) ==> !first
  {
    if prio1 != prio2 then prio1 > prio2
    else EffectiveSpeed(speed1, par1) > EffectiveSpeed(speed2, par2)
  }

  /** Priority decides before speed does, in both directions. */
  lemma PriorityDominates(prio1: int, prio2: int, speed1: int, speed2: int, par1: bool, par2: bool)
    ensures prio1 > prio2 ==> P1MovesFirst(prio1, prio2, speed1, speed2, par1, par2)
    ensures prio1 < prio2 ==> !P1MovesFirst(prio1, prio2, speed1, speed2, par1, par2)
  {
  }

  /**
   * Ordering is decided from the two sides' own values: swapping the sides
   * never lets both go first, and only an exact tie (same priority, same
   * effective speed) lets neither go first — then side 2 of each ordering moves first.
   */
  lemma OrderSwap(prio1: int, prio2: int, speed1: int, speed2: int, par1: bool, par2: bool)
    ensures !(P1MovesFirst(prio1, prio2, speed1, speed2, par1, par2) && P1MovesFirst(prio2, prio1, speed2, speed1, par2, par1))
    ensures !P1MovesFirst(prio1, prio2, speed1, speed2, par1, par2) && !P1MovesFirst(prio2, prio1, speed2, speed1, par2, par1)
            <==> prio1 == prio2 && EffectiveSpeed(speed1, par1) == EffectiveSpeed(speed2, par2)
  {
  }

  /** A faster side 1 keeps going first; paralysis can only cost side 1 its turn. */
  lemma SpeedMonotone(prio: int, s1: int, s1': int, speed2: int, par1: bool, par2: bool)
    requires s1 <= s1'
    ensures P1MovesFirst(prio, prio, s1, speed2, par1, par2) ==> P1MovesFirst(prio, prio, s1', speed2, par1, par2)
    ensures s1 >= 0 && P1MovesFirst(prio, prio, s1, speed2, true, par2) ==> P1MovesFirst(prio, prio, s1, speed2, false, par2)
  {
  }

  // ------------------------------------------------------------- the ordering tuple

  /** One entry of an ordering tuple: a side (1 or 2), or the move that side chose. */
  datatype OrderEntry = SideOf(side: nat) | MoveOf(side: nat)

  /**
   * The tuple both loops assign to `first, second` as written: the side that
   * goes first, its move, the other side and its move, as one flat tuple.
   */
  function TupleAsWritten(p1First: bool): (t: seq<OrderEntry>)
    ensures |t| == 4 && t[0] == SideOf(if p1First then 1 else 2)
  {
    if p1First then [SideOf(1), MoveOf(1), SideOf(2), MoveOf(2)]
    else [SideOf(2), MoveOf(2), SideOf(1), MoveOf(1)]
  }

  /**
   * Python's `a, b = t`: a tuple of exactly two entries unpacks into the two
   * names; any other length raises `ValueError`.
   */
  function UnpackPair<T>(t: seq<T>): (r: Result<(T, T), Fault>)
    ensures r.Success? <==> |t| == 2
    ensures r.Success? ==> r.value.0 == t[0] && r.value.1 == t[1]
    ensures r.Failure? ==> r.error == TupleUnpack(2, |t|)
  {
    if |t| == 2 then Success((t[0], t[1])) else Failure(TupleUnpack(2, |t|))
  }

  /** One action as the loop reads it: a side, that side's own move, and the other side as defender. */
  predicate ActionTriple(a: seq<OrderEntry>) {
    |a| == 3 && a[0].SideOf? && a[0].side in {1, 2} && a[1] == MoveOf(a[0].side) && a[2] == SideOf(3 - a[0].side)
  }

  /** The intended ordering: two actions, `(attacker, move, defender)` each, the side going first leading. */
  function IntendedOrder(p1First: bool): (pair: seq<seq<OrderEntry>>)
    ensures |pair| == 2 && ActionTriple(pair[0]) && ActionTriple(pair[1])
    ensures pair[0][0] == SideOf(if p1First then 1 else 2) && pair[1][0] == SideOf(if p1First then 2 else 1)
  {
    if p1First then [[SideOf(1), MoveOf(1), SideOf(2)], [SideOf(2), MoveOf(2), SideOf(1)]]
    else [[SideOf(2), MoveOf(2), SideOf(1)], [SideOf(1), MoveOf(1), SideOf(2)]]
  }

  /**
   * The flat four-entry tuple never unpacks into `first, second`, whichever
   * side goes first; the intended pair always does, into one action per side
   * with the side that goes first leading.
   */
  lemma OrderUnpacking(p1First: bool)
    ensures UnpackPair(TupleAsWritten(p1First)) == Failure(TupleUnpack(2, 4))
    ensures var u := UnpackPair(IntendedOrder(p1First));
            u.Success? && ActionTriple(u.value.0) && ActionTriple(u.value.1)
            && u.value.0[0] == SideOf(if p1First then 1 else 2) && u.value.0[0] != u.value.1[0]
  {
  }

  // ------------------------------------------------------------- accuracy

  /** Accuracy after the attacker's accuracy stage and the target's evasion stage (both on the accuracy table). */
  function EffectiveAccuracy(accuracy: int, accStage: int, evaStage: int): real {
    accuracy as real * StageMultiplier(accStage, true) / StageMultiplier(evaStage, true)
  }

  /** The move misses when the uniform draw on [0, 100] exceeds the effective accuracy. */
  predicate Misses(draw: real, accuracy: int, accStage: int, evaStage: int)
    ensures accuracy >= 0 && draw <= 0.0 ==> !Misses(draw, accuracy, accStage, evaStage)
  {
    draw > EffectiveAccuracy(accuracy, accStage, evaStage)
  }

  /** Equal accuracy and evasion stages cancel, so a move of accuracy 100 or more then never misses. */
  lemma EqualStagesCancel(accuracy: int, stage: int, draw: real)
    ensures EffectiveAccuracy(accuracy, stage, stage) == accuracy as real
    ensures accuracy >= 100 && draw <= 100.0 ==> !Misses(draw, accuracy, stage, stage)
  {
    var m := StageMultiplier(stage, true);
    assert accuracy as real * m / m == accuracy as real;
  }

  /** A draw that hits keeps hitting with a lower draw. */
  lemma LowerDrawHits(d1: real, d2: real, accuracy: int, accStage: int, evaStage: int)
    requires d1 <= d2 && !Misses(d2, accuracy, accStage, evaStage)
    ensures !Misses(d1, accuracy, accStage, evaStage)
  {
  }

  // --------------------------------------------------------------- damage

  /** `choice(range(low, high + 1))` with the drawn position given as `k`. */
  function DamagePick(low: int, high: int, k: nat): (d: int)
    requires low <= high
    ensures low <= d <= high
    ensures k <= high - low ==> d == low + k
  {
    low + k % (high - low + 1)
  }

  /** A PP counter after one `use_pp`: one less, unless already at 0 (the error is swallowed). */
  function Spent(pp: int): (left: int)
    ensures pp > 0 ==> left == pp - 1
    ensures pp <= 0 ==> left == pp
  {
    if pp > 0 then pp - 1 else pp
  }

  /** A screen is up when its entry is present and nonzero. */
  predicate ScreenUp(screens: map<string, int>, screen: string) {
    screen in screens && screens[screen] != 0
  }

  /** The screen that halves a move of the given category, if any is up. */
  predicate Screened(screens: map<string, int>, category: string) {
    (category == "Physical" && ScreenUp(screens, "reflect")) || (category == "Special" && ScreenUp(screens, "lightscreen"))
  }

  /**
   * Reflect halves physical damage and Light Screen halves special damage
   * (floor division); no other category or screen changes it.
   */
  function ScreenedDamage(damage: int, category: string, screens: map<string, int>): (d: int)
    ensures Screened(screens, category) ==> 2 * d <= damage <= 2 * d + 1
    ensures !Screened(screens, category) ==> d == damage
    ensures damage >= 0 ==> 0 <= d <= damage
  {
    var afterReflect := if ScreenUp(screens, "reflect") && category == "Physical" then damage / 2 else damage;
    if ScreenUp(screens, "lightscreen") && category == "Special" then afterReflect / 2 else afterReflect
  }

  /** Spikes: max(1, max HP * layers div 8); at most the max HP for up to 8 layers. */
  function SpikesDamage(maxHp: nat, layers: int): (d: int)
    ensures d >= 1
    ensures 0 <= layers <= 8 && maxHp >= 1 ==> d <= maxHp
  {
    var d := Max(1, maxHp * layers / 8);
    if 0 <= layers <= 8 then ScaledAtMost(maxHp, layers, 8); d else d
  }

  /** `x * n div d` is at most `x` when `n <= d`. */
  lemma ScaledAtMost(x: nat, n: nat, d: nat)
    requires 0 < d && n <= d
    ensures x * n / d <= x
  {
    assert x * n <= x * d by {
      MulLeftMonotone(x, n, d);
    }
    assert x * d / d == x;
  }

  lemma MulLeftMonotone(x: nat, a: nat, b: nat)
    requires a <= b
    ensures x * a <= x * b
  {
    assert x * b == x * a + x * (b - a);
  }

  function Max(a: int, b: int): int {
    if a >= b then a else b
  }

  // ------------------------------------------------------------- residual

  /** Burn: max(1, max HP div 16) per turn. */
  function BurnDamage(maxHp: nat): (d: int)
    ensures d >= 1
  {
    Max(1, maxHp / 16)
  }

  /** Poison: max(1, max HP div 8) per turn. */
  function PoisonDamage(maxHp: nat): (d: int)
    ensures d >= 1
  {
    Max(1, maxHp / 8)
  }

  /** Toxic: max(1, max HP * counter div 16), with the counter already advanced. */
  function ToxicDamage(maxHp: nat, counter: int): (d: int)
    ensures d >= 1
  {
    Max(1, maxHp * counter / 16)
  }

  /** The first toxic tick hurts like a burn, the second like regular poison. */
  lemma ToxicFirstTicks(maxHp: nat)
    ensures ToxicDamage(maxHp, 1) == BurnDamage(maxHp)
    ensures ToxicDamage(maxHp, 2) == PoisonDamage(maxHp)
  {
    assert maxHp * 2 / 16 == maxHp / 8;
  }

  /** Toxic damage never decreases as its counter grows. */
  lemma ToxicEscalates(maxHp: nat, c1: nat, c2: nat)
    requires c1 <= c2
    ensures ToxicDamage(maxHp, c1) <= ToxicDamage(maxHp, c2)
  {
    MulLeftMonotone(maxHp, c1, c2);
  }

  /** A freeze thaws when the uniform draw on [0, 1) is below 0.2. */
  predicate Thaws(draw: real) {
    draw < 0.2
  }

  // -------------------------------------------------------------- weather

  /**
   * One end-of-turn weather step: a positive countdown goes down by one and
   * the weather clears when it reaches 0; a countdown of 0 (or below) means
   * the weather is permanent and nothing changes.
   */
  function DecayWeather(weather: Option<string>, turns: int): (r: (Option<string>, int))
    ensures turns <= 0 ==> r == (weather, turns)
    ensures turns > 0 ==> r.1 == turns - 1
    ensures turns > 0 ==> r.0 == if turns == 1 then None else weather
  {
    if turns > 0 then
      if turns - 1 == 0 then (None, 0) else (weather, turns - 1)
    else (weather, turns)
  }

  /** The weather after `k` end-of-turn steps. */
  function DecayWeatherTimes(weather: Option<string>, turns: int, k: nat): (Option<string>, int)
    decreases k
  {
    if k == 0 then (weather, turns)
    else
      var next := DecayWeather(weather, turns);
      DecayWeatherTimes(next.0, next.1, k - 1)
  }

  /** Weather set for `n` turns lasts through exactly `n - 1` turn ends and is gone after the `n`-th. */
  lemma {:induction false} WeatherLastsExactly(w: string, n: int, k: nat)
    requires n >= 1
    ensures k < n ==> DecayWeatherTimes(Some(w), n, k) == (Some(w), n - k)
    ensures k >= n ==> DecayWeatherTimes(Some(w), n, k) == (None, 0)
  {
    if k > 0 {
      if n == 1 {
        NoWeatherStays(k - 1);
      } else {
        WeatherLastsExactly(w, n - 1, k - 1);
      }
    }
  }

  /** Without weather and countdown nothing happens any more. */
  lemma {:induction false} NoWeatherStays(k: nat)
    ensures DecayWeatherTimes(None, 0, k) == (None, 0)
  {
    if k > 0 {
      NoWeatherStays(k - 1);
    }
  }

  /** A weather with countdown 0 is permanent. */
  lemma {:induction false} PermanentWeather(weather: Option<string>, k: nat)
    ensures DecayWeatherTimes(weather, 0, k) == (weather, 0)
  {
    if k > 0 {
      PermanentWeather(weather, k - 1);
    }
  }

  // ------------------------------------------------------------ volatiles

  /** A volatile survives a countdown step unless it has a duration that reaches 0 or below. */
  predicate Survives(v: Volatile) {
    v.duration.None? || v.duration.value - 1 > 0
  }

  /** One countdown step on a volatile: its duration, if any, goes down by one. */
  function Tick(v: Volatile): Volatile {
    if v.duration.None? then v else Volatile(v.source, Some(v.duration.value - 1))
  }

  /** The volatiles after stepping the keys in `done` and leaving the others as they were. */
  function PartialDecay(m: map<string, Volatile>, done: set<string>): map<string, Volatile> {
    map k | k in m && (k !in done || Survives(m[k])) :: if k in done then Tick(m[k]) else m[k]
  }

  /**
   * The start-of-turn countdown: every volatile with a duration loses one
   * turn and is removed at 0 or below; volatiles without a duration stay as they are.
   */
  function DecayedVolatiles(m: map<string, Volatile>): (r: map<string, Volatile>)
    ensures forall k :: k in m && m[k].duration.None? ==> k in r && r[k] == m[k]
    ensures forall k :: k in m && m[k].duration.Some? && m[k].duration.value > 1 ==>
              k in r && r[k] == Volatile(m[k].source, Some(m[k].duration.value - 1))
    ensures forall k :: k in m && m[k].duration.Some? && m[k].duration.value <= 1 ==> k !in r
    ensures r.Keys <= m.Keys
  {
    PartialDecay(m, m.Keys)
  }

  /** The volatiles after `k` countdown steps. */
  function DecayVolatilesTimes(m: map<string, Volatile>, k: nat): map<string, Volatile> {
    if k == 0 then m else DecayVolatilesTimes(DecayedVolatiles(m), k - 1)
  }

  /** A volatile added with duration `n` is still there with 1 turn left after `n - 1` steps and gone after `n`. */
  lemma {:induction false} VolatileLastsExactly(m: map<string, Volatile>, key: string, n: int)
    requires n >= 1 && key in m && m[key].duration == Some(n)
    ensures var before := DecayVolatilesTimes(m, n - 1);
            key in before && before[key] == Volatile(m[key].source, Some(1))
    ensures key !in DecayVolatilesTimes(m, n)
  {
    if n > 1 {
      var m' := DecayedVolatiles(m);
      assert key in m' && m'[key] == Volatile(m[key].source, Some(n - 1));
      VolatileLastsExactly(m', key, n - 1);
      DecayStep(m, n - 1);
      DecayStep(m, n - 2);
    } else {
      assert DecayVolatilesTimes(DecayedVolatiles(m), 0) == DecayedVolatiles(m);
    }
  }

  lemma DecayStep(m: map<string, Volatile>, k: nat)
    ensures DecayVolatilesTimes(m, k + 1) == DecayVolatilesTimes(DecayedVolatiles(m), k)
  {
  }
}

=== FILE: team.dfy ===
/** A roster of Pokémon with one active slot, its entry hazards and its screens. */
module Teams {
  import opened Wrappers
  import opened Faults
  import opened PokemonState

  class Team {
    const members: seq<Pokemon>
    var activeIndex: int
    var hazards: map<string, int>
    var screens: map<string, int>

    /** The active slot points into the roster. */
    predicate Valid()
      reads this`activeIndex
    {
      0 <= activeIndex < |members|
    }

    /** A new team: the first member active, no hazards, no screens. */
    constructor (members: seq<Pokemon>)
      ensures this.members == members && activeIndex == 0
      ensures hazards == map[] && screens == map[]
      ensures |members| > 0 ==> Valid()
    {
      this.members := members;
      activeIndex := 0;
      hazards := map[];
      screens := map[];
    }

    /** The active Pokémon. */
    function Active(): (p: Pokemon)
      reads this`activeIndex
      requires Valid()
      ensures p in members
    {
      members[activeIndex]
    }

    /** Every member has fainted; true of an empty roster. */
    predicate AllFainted()
      reads this, members
      ensures AllFainted() && Valid() ==> Active().IsFainted()
    {
      forall i :: 0 <= i < |members| ==> members[i].IsFainted()
    }

    /**
     * Makes `index` the active slot. An index outside the roster or a fainted
     * member fails and leaves the slot unchanged.
     */
    method Switch(index: int) returns (r: Outcome<Fault>)
      modifies this`activeIndex
      ensures !(0 <= index < |members|) ==> r == Fail(InvalidSwitchIndex) && activeIndex == old(activeIndex)
      ensures 0 <= index < |members| && members[index].IsFainted() ==>
                r == Fail(SwitchToFainted) && activeIndex == old(activeIndex)
      ensures 0 <= index < |members| && !members[index].IsFainted() ==>
                r == Pass && activeIndex == index && Valid() && !Active().IsFainted()
    {
      if index < 0 || index >= |members| {
        return Fail(InvalidSwitchIndex);
      }
      if members[index].IsFainted() {
        return Fail(SwitchToFainted);
      }
      activeIndex := index;
      r := Pass;
    }

    /** Removes every hazard; the screens stay. */
    method ClearHazards()
      modifies this`hazards
      ensures hazards == map[]
    {
      hazards := map[];
    }
  }

  /** An empty roster has all fainted, and a roster all at HP 0 has all fainted. */
  lemma AllFaintedMeaning(t: Team)
    ensures |t.members| == 0 ==> t.AllFainted()
    ensures t.AllFainted() <==> forall p :: p in t.members ==> p.currentHp == 0
  {
    if t.AllFainted() {
      forall p | p in t.members
        ensures p.currentHp == 0
      {
        var i :| 0 <= i < |t.members| && t.members[i] == p;
      }
    }
  }
}

=== FILE: wrappers.dfy ===
/** Option and Outcome: the absent value and the raised error of the source, as values. */
module Wrappers {

  /** A value that may be absent (Python's `None`). */
  datatype Option<+T> = None | Some(value: T) {
    /** The wrapped value, or `default` when absent (Python's `dict.get(key, default)`). */
    function GetOr(default: T): T {
      match this
      case Some(v) => v
      case None => default
    }
  }

  /** The outcome of an operation that may raise: `Pass`, or `Fail` with the error raised. */
  datatype Outcome<+E> = Pass | Fail(error: E)

  /** The result of an operation that returns a value or raises. */
  datatype Result<+T, +E> = Success(value: T) | Failure(error: E)
}
